=== FILE: README.md ===
# RekazDrive blob storage, modelled in Dafny

RekazDrive stores blobs (base64 uploads) behind one `IBlobStorage` interface
with four backends and keeps their metadata in a separate table. This project
models the storage layer and proves what it promises:

- **S3 backend** (`S3Storage`, `SigV4`): `BuildUri` (virtual-hosted and
  path-style addressing, per-segment percent-encoding of the key), the payload
  hash per verb, the AWS Signature Version 4 signer (canonical request, scope,
  string to sign, chained signing key, `Authorization` header), and how each
  verb reads the HTTP status. `new Uri` removes `.` and `..` segments from the
  built path, and the model does the same, so `x/../b` reaches the object `b`.
  A reference server for the configured bucket stands in for the network. It
  answers a request on the bucket itself (the id `""`, and `..` virtual-hosted)
  as S3 does: PUT is CreateBucket (409), GET lists the bucket, HEAD succeeds and
  DELETE is DeleteBucket (409 while objects remain). In path style an id such as
  `../other` leaves the bucket; such a request gets the server's answer for it
  and changes nothing in the bucket.
- **File-system backend** (`FileSystemStorage`): `MapPath`, which sanitises
  the id, combines it with the root and checks that the result lies under the
  root. It uses explicit models of `Path.Combine` and `Path.GetFullPath` (Unix
  rules). Save, Get, Exists and Delete work over a map from full path to
  bytes. They take the containment check as a parameter: `AsWritten` is the
  check in the source, and `Corrected` is the one it evidently intends (see
  Findings). A root or id holding U+0000 fails with the `ArgumentException`
  that `Path.GetFullPath` throws for it.
- **FTP backend** (`FtpStorage`): host trimming, `EscapeKey`, the request
  URL and the request path once `.` and `..` segments are removed, and how
  replies are read. `FtpWebRequest` asks the server for the decoded path, so
  the id `a b` names the file `a b`. Exists treats 213 as true and 550 as false;
  other failures propagate. A reference FTP server with files and directories
  stands in for the network. It refuses STOR into a missing directory (553),
  and the backend never creates one. `FtpWebRequest` refuses a URL that names
  no file before anything is sent, so all four operations fail on such an id,
  Exists included.
- **Database backend** (`DatabaseStorage`) and **metadata store**
  (`MetadataStore`): upsert, get, exists and delete over maps. The metadata
  upsert never changes a row's creation time.
- **`BlobService`**: Store (decode, save content, upsert metadata) and
  Retrieve (metadata first, then content), over the two stores. The outcome
  of the content save is an argument of Store.
- **`Drive.GetFolderSize`**: the non-recursive sum of the sizes of a
  folder's direct files, or the `NullReferenceException` for a null
  file in the list.

Supporting modules:

- `Outcomes`: `Option`, `Result` and the error kinds.
- `Sequences`: facts about appending and splitting off the first element, for sequences of any element type.
- `Bytes`: hex digits.
- `Utf8`: `Encoding.UTF8`.
- `PercentEncoding`: `Uri.EscapeDataString` as section 2.1 of RFC 3986 defines it.
- `Strings`: `Split`, `Join`, `Trim` and `Replace`.
- `IdSegments`: how the file-system and FTP backends cut an id into segments.
- `Ordinal`: ordinal string order, the `SortedDictionary`, and a sort in ordinal order.
- `DotSegments`: the removal of `.` and `..` segments from a URI path, as section 5.2.4 of RFC 3986 defines it.

Effects become parameters:

- The clock reading (`DateTimeOffset.UtcNow`) and the fresh id (`Guid.NewGuid`) are arguments.
- SHA-256 and HMAC-SHA256 are the two function fields of `SigV4.HashSuite`.
- Base64 is the function pair of `BlobService.Base64Codec`.
- The process's current directory is a field of `FileSystemStorage.FsConfig`.

## Model

| member | source | states |
|---|---|---|
| SigV4.AmzDate | src/Infrastructure/Storage/S3HttpBlobStorage.cs:93-94 | the `x-amz-date` value is 16 characters: eight digits, `T`, six digits, `Z` |
| SigV4.ParseAmzDateRoundTrip | src/Infrastructure/Storage/S3HttpBlobStorage.cs:94 | the `yyyyMMddTHHmmssZ` timestamp reads back as the instant it was formatted from, so it loses nothing |
| SigV4.DateStamp | src/Infrastructure/Storage/S3HttpBlobStorage.cs:101-102 | the date is the first eight characters of the timestamp, all digits |
| SigV4.DateStampIsDay | src/Infrastructure/Storage/S3HttpBlobStorage.cs:102 | the date is the year, month and day, zero-padded, and nothing finer |
| SigV4.SigningHeaders | src/Infrastructure/Storage/S3HttpBlobStorage.cs:107-112 | the ordinal sorted dictionary holds exactly host, x-amz-content-sha256 and x-amz-date, in that order |
| SigV4.CanonicalHeaderBlock | src/Infrastructure/Storage/S3HttpBlobStorage.cs:107-114 | the header block is the three `name:value` lines joined by newlines plus a final newline, and the signed-header list is the three names joined by `;` |
| SigV4.CanonicalHeaderText | src/Infrastructure/Storage/S3HttpBlobStorage.cs:107-114 | the header block is exactly `host:H\nx-amz-content-sha256:P\nx-amz-date:T\n` and the signed-header list is exactly `host;x-amz-content-sha256;x-amz-date` |
| SigV4.CanonicalHeaders | src/Infrastructure/Storage/S3HttpBlobStorage.cs:113 | the `name:value` lines of the dictionary, each ended by a newline; stated by `CanonicalHeaderBlock` and `CanonicalHeaderText` |
| SigV4.SignedHeaders | src/Infrastructure/Storage/S3HttpBlobStorage.cs:114 | the dictionary's names in order, joined by `;`; stated by `CanonicalHeaderBlock` and `CanonicalHeaderText` |
| SigV4.CanonicalQueryOfNoQuery | src/Infrastructure/Storage/S3HttpBlobStorage.cs:104-105 | a URI without a query gives an empty canonical query |
| SigV4.CanonicalQueryParameters | src/Infrastructure/Storage/S3HttpBlobStorage.cs:104-105 | a query with one parameter is that parameter without its leading `?`, and is empty when nothing remains |
| SigV4.CanonicalQuery | src/Infrastructure/Storage/S3HttpBlobStorage.cs:104-105 | the query without `?`, split on `&`, empty pieces dropped, sorted and rejoined; stated by `CanonicalQueryOfNoQuery` and `CanonicalQueryParameters` |
| SigV4.CanonicalRequestLayout | src/Infrastructure/Storage/S3HttpBlobStorage.cs:115-123 | the canonical request is method, path, empty query, three header lines, a blank line, signed headers and payload hash, joined by single newlines |
| SigV4.CanonicalRequestLines | src/Infrastructure/Storage/S3HttpBlobStorage.cs:115-123 | split at its newlines, the canonical request gives back exactly those nine lines, so its fields can be recovered |
| SigV4.CanonicalRequest | src/Infrastructure/Storage/S3HttpBlobStorage.cs:115-123 | the six fields joined by newlines; stated by `CanonicalRequestLayout` and `CanonicalRequestLines` |
| SigV4.ScopeText | src/Infrastructure/Storage/S3HttpBlobStorage.cs:125 | the scope is date + `/` + region + `/s3/aws4_request` |
| SigV4.Scope | src/Infrastructure/Storage/S3HttpBlobStorage.cs:125 | the credential scope; stated by `ScopeText` |
| SigV4.StringToSignLines | src/Infrastructure/Storage/S3HttpBlobStorage.cs:126-132 | the string to sign is the four lines `AWS4-HMAC-SHA256`, timestamp, scope and hex SHA-256 of the canonical request |
| SigV4.StringToSign | src/Infrastructure/Storage/S3HttpBlobStorage.cs:126-132 | the string to sign; stated by `StringToSignLines` |
| SigV4.SigningKey | src/Infrastructure/Storage/S3HttpBlobStorage.cs:147-154 | the key chains HMAC over `AWS4`+secret, date, region, service and `aws4_request`, and is 32 bytes when HMAC is |
| SigV4.SigningKeyPerDay | src/Infrastructure/Storage/S3HttpBlobStorage.cs:134 | two timestamps on the same calendar day give the same signing key |
| SigV4.Signature | src/Infrastructure/Storage/S3HttpBlobStorage.cs:135 | the signature is lower-case hex, 64 characters when HMAC gives 32 bytes |
| SigV4.SignV4 | src/Infrastructure/Storage/S3HttpBlobStorage.cs:98-139 | signing yields a 64-character signature when the digests are 32 bytes |
| SigV4.SignV4Layout | src/Infrastructure/Storage/S3HttpBlobStorage.cs:98-135 | for a query-less request: the canonical request's nine lines, the day's scope, the four-line string to sign, and the signature of that string under the day's key |
| SigV4.AuthorizationFields | src/Infrastructure/Storage/S3HttpBlobStorage.cs:137 | split at its commas, the `Authorization` value is the credential, ` SignedHeaders=` part and ` Signature=` part, when no field holds a comma |
| SigV4.AuthorizationHeader | src/Infrastructure/Storage/S3HttpBlobStorage.cs:137 | the `Authorization` value; stated by `AuthorizationFields` and `SignV4Authorization` |
| SigV4.SignV4Authorization | src/Infrastructure/Storage/S3HttpBlobStorage.cs:136-137 | the `Authorization` value splits into `AWS4-HMAC-SHA256 Credential=AK/scope`, the fixed signed-header list and the signature |
| S3Storage.ObjectKeySegments | src/Infrastructure/Storage/S3HttpBlobStorage.cs:83 | the key's `/`-pieces are the id's `/`-pieces, empty ones kept, each escaped: the same count and no `/` inside a piece |
| S3Storage.DecodeObjectKey | src/Infrastructure/Storage/S3HttpBlobStorage.cs:83 | the key decodes back to the id |
| S3Storage.ObjectKeyHasNoDelimiters | src/Infrastructure/Storage/S3HttpBlobStorage.cs:83 | the key has no `?`, `#` or line break, so it stays inside the URI path |
| S3Storage.ObjectKey | src/Infrastructure/Storage/S3HttpBlobStorage.cs:83 | the id split at every `/`, each piece escaped and rejoined; stated by `ObjectKeySegments`, `DecodeObjectKey` and `ObjectKeyHasNoDelimiters` |
| S3Storage.BuildUri | src/Infrastructure/Storage/S3HttpBlobStorage.cs:80-88 | the `Host` value is the endpoint in path style and `{bucket}.{endpoint}` otherwise; the path starts with `/`; for an id without `.` or `..` pieces and a plain bucket it is the written path, `/` + key virtual-hosted or `/bucket/` + key path-style |
| S3Storage.RawPathPieces | src/Infrastructure/Storage/S3HttpBlobStorage.cs:83-85 | the written path's `/`-pieces are the id's pieces, escaped, behind the bucket in path style |
| S3Storage.BuildUriPieces | src/Infrastructure/Storage/S3HttpBlobStorage.cs:83-86 | the target path's `/`-pieces are the written pieces with the dot segments removed, as `new Uri` does |
| S3Storage.DotSegmentsAlias | src/Infrastructure/Storage/S3HttpBlobStorage.cs:83-86 | the id `x/../rest` goes to the same target as `rest`, since `.` is not escaped and `new Uri` removes the pair |
| S3Storage.ParentIdIsRoot | src/Infrastructure/Storage/S3HttpBlobStorage.cs:83-86 | virtual-hosted, the id `..` goes to the bucket's root path `/` |
| S3Storage.PathStyleSplit | src/Infrastructure/Storage/S3HttpBlobStorage.cs:85 | a path-style path splits into the empty root piece, the bucket and the key's pieces |
| S3Storage.ObjectOfBuildUri | src/Infrastructure/Storage/S3HttpBlobStorage.cs:84-86 | for an id without `.` or `..` pieces and a plain bucket, a server reading host and path in the configured style finds the id the target was built for |
| S3Storage.BuildUriInjective | src/Infrastructure/Storage/S3HttpBlobStorage.cs:80-88 | distinct ids without `.` or `..` pieces go to distinct targets |
| S3Storage.HostOf | src/Infrastructure/Storage/S3HttpBlobStorage.cs:84 | the `Host` header; stated by the `t.host` clause of `BuildUri` |
| S3Storage.BucketLevelIds | src/Infrastructure/Storage/S3HttpBlobStorage.cs:83-86 | among ids without `.` or `..` pieces, none leaves the bucket, and exactly the empty id reaches the bucket rather than an object |
| S3Storage.ParentLeavesBucket | src/Infrastructure/Storage/S3HttpBlobStorage.cs:30-40 | in path style the id `../name` is sent to `/name`, another bucket, and saving it reads that request's answer and changes nothing in the bucket |
| S3Storage.ParentNamePath | src/Infrastructure/Storage/S3HttpBlobStorage.cs:83-86 | in path style the target path of `../name` is `/name` |
| S3Storage.OtherBucketElsewhere | src/Infrastructure/Storage/S3HttpBlobStorage.cs:83-86 | a path-style target `/name` with a name other than the bucket's lies outside the bucket |
| S3Storage.PayloadHash | src/Infrastructure/Storage/S3HttpBlobStorage.cs:35-72 | the payload hash is `UNSIGNED-PAYLOAD` exactly for GET, HEAD and DELETE; for PUT it is the lower-case hex SHA-256 of the body, 64 hex digits |
| S3Storage.PayloadHashBindsDigest | src/Infrastructure/Storage/S3HttpBlobStorage.cs:35 | two PUT bodies with the same payload hash header have the same SHA-256 digest |
| S3Storage.HexIsNotUnsigned | src/Infrastructure/Storage/S3HttpBlobStorage.cs:35 | no hex digest can be mistaken for `UNSIGNED-PAYLOAD` |
| S3Storage.BuildRequest | src/Infrastructure/Storage/S3HttpBlobStorage.cs:30-37 | the request carries the verb, the built target, the body only for PUT, the formatted timestamp and the payload hash of its verb and body |
| S3Storage.RequestFieldsOnOneLine | src/Infrastructure/Storage/S3HttpBlobStorage.cs:115-123 | no field the canonical request is built from contains a line break |
| S3Storage.RequestSignatureCovers | src/Infrastructure/Storage/S3HttpBlobStorage.cs:90-137 | the signed canonical request has the request's own verb, path, host, payload hash and timestamp as its lines, the signed payload hash is the hex SHA-256 of the body sent for PUT, and the header carries the credential and scope |
| S3Storage.SaveReply | src/Infrastructure/Storage/S3HttpBlobStorage.cs:38-39 | PUT succeeds exactly on a 2xx status and otherwise fails with that status |
| S3Storage.GetReply | src/Infrastructure/Storage/S3HttpBlobStorage.cs:49-54 | GET returns the body exactly on 2xx; 404 is not-found and any other status an HTTP failure |
| S3Storage.DeleteReply | src/Infrastructure/Storage/S3HttpBlobStorage.cs:75-77 | DELETE succeeds exactly on 2xx or 404 |
| S3Storage.StatusRules | src/Infrastructure/Storage/S3HttpBlobStorage.cs:50-77 | GET and PUT succeed exactly when HEAD answers true; DELETE also on 404; a 404 is not-found, false and success to GET, HEAD and DELETE |
| S3Storage.ExistsReply | src/Infrastructure/Storage/S3HttpBlobStorage.cs:65 | Exists is true exactly on a 2xx status; stated by `StatusRules` |
| S3Storage.Serve | src/Infrastructure/Storage/S3HttpBlobStorage.cs:30-78 | GET and HEAD, and every request that does not name an object of the bucket, leave the server as it was; PUT and DELETE on an object change only that object; a request outside the bucket gets the server's answer for it |
| S3Storage.Save | src/Infrastructure/Storage/S3HttpBlobStorage.cs:30-40 | a save of an object of the bucket succeeds and stores the data there; on the bucket it fails with 409 (CreateBucket); outside the bucket it reads the answer to that PUT; neither of the last two changes the bucket |
| S3Storage.Get | src/Infrastructure/Storage/S3HttpBlobStorage.cs:42-55 | a read of an object succeeds exactly when it exists and returns it, and is otherwise not-found; on the bucket it returns the listing; outside the bucket it reads the answer to that GET |
| S3Storage.Exists | src/Infrastructure/Storage/S3HttpBlobStorage.cs:57-66 | an object exists exactly when the server holds it; the bucket always exists; outside the bucket Exists is whether the HEAD succeeded |
| S3Storage.Delete | src/Infrastructure/Storage/S3HttpBlobStorage.cs:68-78 | a delete of an object always succeeds and removes it; on the bucket it changes nothing and succeeds exactly when the bucket holds no object, failing with 409 otherwise; outside the bucket it reads the answer to that DELETE and changes nothing |
| S3Storage.SaveThenGet | src/Infrastructure/Storage/S3HttpBlobStorage.cs:30-55 | a save of an id whose target names an object succeeds, and the blob reads back as saved and exists; at the bucket it fails with 409 and changes nothing; outside the bucket it changes nothing |
| S3Storage.SaveKeepsOthers | src/Infrastructure/Storage/S3HttpBlobStorage.cs:30-40 | a save leaves every other id without `.` or `..` pieces existing as before, and reading as before unless it is the empty id, which reads the bucket listing |
| S3Storage.SaveAtKeepsOthers | src/Infrastructure/Storage/S3HttpBlobStorage.cs:30-40 | a PUT at one target leaves every other target answering HEAD as before, and GET as before unless it is the bucket |
| S3Storage.SaveOverwritesAlias | src/Infrastructure/Storage/S3HttpBlobStorage.cs:30-55 | saving the id `x/../rest` is saving `rest`; it overwrites what `rest` reads when `rest` names an object, and changes nothing otherwise |
| S3Storage.GetMissing | src/Infrastructure/Storage/S3HttpBlobStorage.cs:42-66 | an object the server lacks is not found and does not exist; at the bucket, GET answers the listing and HEAD that it exists; outside the bucket both read the server's answers |
| S3Storage.DeleteAtTwice | src/Infrastructure/Storage/S3HttpBlobStorage.cs:68-78 | at an object's target DELETE succeeds, leaves nothing, and a second DELETE changes nothing |
| S3Storage.DeleteIdempotent | src/Infrastructure/Storage/S3HttpBlobStorage.cs:68-77 | a second delete answers as the first did, success for an object, and changes nothing; an object is absent afterwards; at the bucket nothing changes, it still exists, and the delete succeeds exactly when the bucket is empty; outside the bucket nothing changes |
| PercentEncoding.Escape | src/Infrastructure/Storage/FtpBlobStorage.cs:67 | escaped text is nonempty iff the input is, no shorter, and made only of unreserved characters, `%` and upper-case hex digits |
| PercentEncoding.EscapeUnreservedOnly | src/Infrastructure/Storage/FtpBlobStorage.cs:67 | escaping keeps the length exactly when every character is unreserved, and then leaves the text unchanged |
| PercentEncoding.EscapeWellFormed | src/Infrastructure/Storage/FtpBlobStorage.cs:67 | escaped text is unreserved characters and well-formed `%XX` triplets only |
| PercentEncoding.UnescapeEscape | src/Infrastructure/Storage/S3HttpBlobStorage.cs:83 | unescaping escaped text gives the original string |
| PercentEncoding.EscapeInjective | src/Infrastructure/Storage/S3HttpBlobStorage.cs:83 | distinct segments escape to distinct text |
| PercentEncoding.EscapeHasNoDelimiters | src/Infrastructure/Storage/FtpBlobStorage.cs:67 | escaped text contains no `/`, `\`, `?`, `#` or line break |
| PercentEncoding.UnescapeAllEscapeAll | src/Infrastructure/Storage/S3HttpBlobStorage.cs:83 | escaping a list of segments one by one round-trips |
| Utf8.DecodeEncode | src/Infrastructure/Storage/S3HttpBlobStorage.cs:131 | the UTF-8 bytes of a string decode back to it |
| Utf8.EncodeInjective | src/Infrastructure/Storage/S3HttpBlobStorage.cs:131 | distinct strings have distinct UTF-8 bytes, so the hashed canonical request determines the text |
| Utf8.EncodeAscii | src/Infrastructure/Storage/S3HttpBlobStorage.cs:149-152 | an ASCII string such as a date or `aws4_request` encodes to one byte per character, its code |
| Bytes.HexLower | src/Infrastructure/Storage/S3HttpBlobStorage.cs:156-157 | hex encoding gives two lower-case hex digits per byte |
| Bytes.ParseHexLower | src/Infrastructure/Storage/S3HttpBlobStorage.cs:156-157 | the hex text reads back as the bytes |
| Bytes.HexLowerInjective | src/Infrastructure/Storage/S3HttpBlobStorage.cs:156-157 | distinct digests have distinct hex spellings |
| Ordinal.Put | src/Infrastructure/Storage/S3HttpBlobStorage.cs:107-112 | a dictionary write keeps the entries strictly sorted by ordinal order and adds the key |
| Ordinal.PutLookup | src/Infrastructure/Storage/S3HttpBlobStorage.cs:107-112 | after `d[k] = v`, `k` gives `v` and every other key what it gave before |
| Ordinal.PutThreeAscending | src/Infrastructure/Storage/S3HttpBlobStorage.cs:107-112 | three keys in increasing ordinal order are enumerated in that order |
| Ordinal.LessTransitive | src/Infrastructure/Storage/S3HttpBlobStorage.cs:107 | ordinal order is transitive |
| Ordinal.Sort | src/Infrastructure/Storage/S3HttpBlobStorage.cs:105 | sorting in ordinal order gives a sorted permutation of the input |
| Strings.SplitJoin | src/Infrastructure/Storage/S3HttpBlobStorage.cs:83 | splitting joined pieces that lack the separator gives the pieces back |
| Strings.JoinSplit | src/Infrastructure/Storage/S3HttpBlobStorage.cs:83 | joining the pieces of a split gives the string back |
| Strings.TrimEnd | src/Infrastructure/Storage/FtpBlobStorage.cs:13 | trimming removes exactly the trailing run of the character |
| DotSegments.Walk | src/Infrastructure/Storage/S3HttpBlobStorage.cs:86 | from written segments without dot segments, the walk leaves none, and keeps only segments already written, input segments or a final empty one |
| DotSegments.RemoveDots | src/Infrastructure/Storage/S3HttpBlobStorage.cs:86 | the result has no `.` or `..` segment, keeps only input segments or a final empty one, and is nonempty for a nonempty path |
| DotSegments.RemoveDotsFixes | src/Infrastructure/Storage/S3HttpBlobStorage.cs:86 | removal leaves the segments unchanged exactly when none is `.` or `..` |
| DotSegments.ParentCancels | src/Infrastructure/Storage/S3HttpBlobStorage.cs:86 | a segment followed by `..` cancels out |
| DotSegments.ParentCancelsAfter | src/Infrastructure/Storage/S3HttpBlobStorage.cs:86 | behind a leading segment, `x/..` cancels out as well |
| DotSegments.ParentOfRoot | src/Infrastructure/Storage/S3HttpBlobStorage.cs:86 | `/..` is the root path `/` |
| DotSegments.RemoveDotSegments | src/Infrastructure/Storage/FtpBlobStorage.cs:19 | the result is an absolute path, and a path without dot segments is unchanged |
| DotSegments.RemoveDotSegmentsPieces | src/Infrastructure/Storage/FtpBlobStorage.cs:19 | the result's pieces are the input's pieces with the dot segments removed |
| DotSegments.RemoveDotSegmentsExcludes | src/Infrastructure/Storage/S3HttpBlobStorage.cs:86 | removal adds no character other than `/` |
| DotSegments.EscapeKeepsDots | src/Infrastructure/Storage/S3HttpBlobStorage.cs:83 | escaping makes a segment `.` or `..` exactly when it was one, because `.` is unreserved |
| IdSegments.Segments | src/Infrastructure/Storage/FileSystemBlobStorage.cs:43 | every segment is nonempty and holds neither `/` nor `\` |
| IdSegments.SegmentsOfJoin | src/Infrastructure/Storage/FtpBlobStorage.cs:67 | segments joined with `/` read back as the same segments |
| IdSegments.SeparatorVariants | src/Infrastructure/Storage/FileSystemBlobStorage.cs:43 | `a\b` and `a//b` have the same segments as `a/b` |
| FileSystemStorage.StripParentTokens | src/Infrastructure/Storage/FileSystemBlobStorage.cs:44 | removing `..` never lengthens a segment or adds a character |
| FileSystemStorage.StripLeavesNoParentToken | src/Infrastructure/Storage/FileSystemBlobStorage.cs:44 | after the single-pass removal no two adjacent dots remain, even where a removal brings two together |
| FileSystemStorage.SafePartsHarmless | src/Infrastructure/Storage/FileSystemBlobStorage.cs:43-44 | no sanitised segment contains `/` or `..`, and none equals `..` |
| FileSystemStorage.Levels | src/Infrastructure/Storage/FileSystemBlobStorage.cs:43-49 | the levels an id adds below the root are names: nonempty, not `.` or `..`, without `/` |
| FileSystemStorage.CombineAttach | src/Infrastructure/Storage/FileSystemBlobStorage.cs:45 | `Path.Combine` of the root and the parts appends the nonempty parts in order, one separator between each |
| FileSystemStorage.FullPath | src/Infrastructure/Storage/FileSystemBlobStorage.cs:48-49 | a full path is absolute |
| FileSystemStorage.ResolveWithoutParent | src/Infrastructure/Storage/FileSystemBlobStorage.cs:49 | segments without `..` only push: normalising keeps every level except empty and `.` ones |
| FileSystemStorage.ResolveAttach | src/Infrastructure/Storage/FileSystemBlobStorage.cs:45-49 | normalising a path with sanitised parts attached gives the path's levels followed by the parts' levels, without a trailing separator |
| FileSystemStorage.CandidateBelowRoot | src/Infrastructure/Storage/FileSystemBlobStorage.cs:45-49 | the normalised candidate is the root's directory followed by the id's levels, or the root itself when there are none |
| FileSystemStorage.LevelsHas | src/Infrastructure/Storage/FileSystemBlobStorage.cs:43-44 | a character other than `.`, `/` and `\` is in the id exactly when it is in one of its levels, so sanitising neither adds nor drops U+0000 |
| FileSystemStorage.CandidateHas | src/Infrastructure/Storage/FileSystemBlobStorage.cs:43-45 | such a character is in the combined path exactly when it is in the root or the id |
| FileSystemStorage.MapPathAsWritten | src/Infrastructure/Storage/FileSystemBlobStorage.cs:40-53 | when it returns, root and id hold no U+0000 and the path starts with the full root plus `/`; otherwise it fails with the `ArgumentException` for U+0000 when there is one, else an invalid-path error |
| FileSystemStorage.MapPathAsWrittenResult | src/Infrastructure/Storage/FileSystemBlobStorage.cs:48-52 | the check as written accepts exactly when root and id hold no U+0000, the id names a level and the full root does not end in `/` |
| FileSystemStorage.SlashRootRejectsAll | src/Infrastructure/Storage/FileSystemBlobStorage.cs:48-51 | with root `/`, the check as written rejects id `a`, while the corrected mapping gives `/a` |
| FileSystemStorage.TrailingSeparatorRootRejectsAll | src/Infrastructure/Storage/FileSystemBlobStorage.cs:48-51 | with root `/data/`, the check as written rejects id `a`, while the corrected mapping gives `/data/a` |
| FileSystemStorage.MapPath | src/Infrastructure/Storage/FileSystemBlobStorage.cs:40-53 | a mapped path lies strictly below the root: it starts with the root directory and one separator and is longer; a root or id holding U+0000 fails with the `ArgumentException`, any other failure is an invalid-path error |
| FileSystemStorage.MapPathResult | src/Infrastructure/Storage/FileSystemBlobStorage.cs:43-52 | a root or id holding U+0000 fails with the `ArgumentException`; otherwise an id is mapped exactly when it names a level, to the root directory followed by its levels, and fails with an invalid-path error when it does not |
| FileSystemStorage.Locate | src/Infrastructure/Storage/FileSystemBlobStorage.cs:40-53 | under either check, an id is located exactly when root and id hold no U+0000, it names a level and the check accepts the root, and then at the root directory followed by its levels; the error is the `ArgumentException` for U+0000, else invalid-path |
| FileSystemStorage.Exists | src/Infrastructure/Storage/FileSystemBlobStorage.cs:16-17 | Exists fails exactly when the id cannot be located, and is otherwise true exactly when a file is at the located path |
| FileSystemStorage.Get | src/Infrastructure/Storage/FileSystemBlobStorage.cs:19-25 | a read fails when the id cannot be located, is not-found when no file is there, and otherwise returns the bytes of the file at the located path |
| FileSystemStorage.Save | src/Infrastructure/Storage/FileSystemBlobStorage.cs:27-31 | a save succeeds exactly when the id can be located, and then adds exactly the located path to the files |
| FileSystemStorage.Delete | src/Infrastructure/Storage/FileSystemBlobStorage.cs:33-38 | a delete succeeds exactly when the id can be located, and then removes exactly the located path from the files |
| FileSystemStorage.NoLevelsRejected | src/Infrastructure/Storage/FileSystemBlobStorage.cs:43-51 | an id naming no level, such as "", "/" or "..", fails every operation and changes nothing: with the `ArgumentException` when the root holds U+0000, else an invalid-path error |
| FileSystemStorage.NullCharRejected | src/Infrastructure/Storage/FileSystemBlobStorage.cs:48-49 | an id holding U+0000 fails every operation with the `ArgumentException` of `Path.GetFullPath`; `a\0b` under `/data` is one such id |
| FileSystemStorage.TrailingSeparatorRootFailsAll | src/Infrastructure/Storage/FileSystemBlobStorage.cs:16-51 | under the check as written, root `/data/` makes save, get, exists and delete of `a` fail with an invalid-path error, while the corrected check saves it at `/data/a` |
| FileSystemStorage.SaveThenGet | src/Infrastructure/Storage/FileSystemBlobStorage.cs:19-31 | a save of an id naming a level succeeds exactly when the check accepts the root and neither root nor id holds U+0000; then the file exists and reads back as saved |
| FileSystemStorage.SameLevelsSamePath | src/Infrastructure/Storage/FileSystemBlobStorage.cs:43-49 | ids with the same levels are located at the same path, or fail alike, under either check |
| FileSystemStorage.SaveKeepsOthers | src/Infrastructure/Storage/FileSystemBlobStorage.cs:27-31 | a save succeeds exactly when the check accepts the root and neither root nor id holds U+0000, and then leaves ids with other levels reading as before |
| FileSystemStorage.LocateDistinct | src/Infrastructure/Storage/FileSystemBlobStorage.cs:43-49 | ids with different levels are located at different paths |
| FileSystemStorage.GetAbsent | src/Infrastructure/Storage/FileSystemBlobStorage.cs:16-22 | reading a located id whose file is absent is not-found, and Exists is false |
| FileSystemStorage.DeleteSemantics | src/Infrastructure/Storage/FileSystemBlobStorage.cs:33-38 | a delete succeeds exactly when the check accepts the root and neither root nor id holds U+0000; deleting an absent file changes nothing; afterwards the file does not exist; deleting twice equals deleting once |
| FileSystemStorage.SeparatorsAlias | src/Infrastructure/Storage/FileSystemBlobStorage.cs:43 | saving `a\b` or `a//b` is saving `a/b`; it succeeds exactly when the check accepts the root and nothing holds U+0000, and then reads back as `a/b` |
| FtpStorage.Host | src/Infrastructure/Storage/FtpBlobStorage.cs:13 | the host is the configured host with its trailing run of `/` removed |
| FtpStorage.RequestUrl | src/Infrastructure/Storage/FtpBlobStorage.cs:19 | every request URL is the host, one `/`, and the escaped key |
| FtpStorage.EscapeKey | src/Infrastructure/Storage/FtpBlobStorage.cs:66-67 | `\` turned into `/`, split with empty pieces removed, each escaped and rejoined; stated by the `EscapeKey` lemmas below |
| FtpStorage.EscapeKeySegments | src/Infrastructure/Storage/FtpBlobStorage.cs:67 | the key is empty exactly when the id has no segment; otherwise its `/`-pieces are the id's segments, escaped |
| FtpStorage.EscapeKeyHasNoEmptySegment | src/Infrastructure/Storage/FtpBlobStorage.cs:67 | the key has no empty piece and neither starts nor ends with `/` |
| FtpStorage.DecodeEscapeKey | src/Infrastructure/Storage/FtpBlobStorage.cs:67 | the key decodes back to the id's segments |
| FtpStorage.EscapeKeySameIff | src/Infrastructure/Storage/FtpBlobStorage.cs:67 | two ids get the same key exactly when they have the same segments |
| FtpStorage.EscapeKeySeparatorVariants | src/Infrastructure/Storage/FtpBlobStorage.cs:67 | `a\b` and `a//b` get the same key as `a/b` |
| FtpStorage.ExistsReply | src/Infrastructure/Storage/FtpBlobStorage.cs:41-55 | Exists is true exactly on a completed 213 reply, false exactly on another completed reply or a 550 failure, and any other failure propagates |
| FtpStorage.ActionReply | src/Infrastructure/Storage/FtpBlobStorage.cs:57-64 | an upload or delete succeeds exactly when the request completes, and its failure propagates |
| FtpStorage.DownloadReply | src/Infrastructure/Storage/FtpBlobStorage.cs:29-39 | a download returns the received bytes exactly when the request completes |
| FtpStorage.ServerPath | src/Infrastructure/Storage/FtpBlobStorage.cs:19 | the request path is the escaped key itself when the id has no `.` or `..` segment; the name the server is asked for is its decoding |
| FtpStorage.FileNameOfServerPath | src/Infrastructure/Storage/FtpBlobStorage.cs:19 | for an id without `.` or `..` segments the server is asked for the id's segments joined with `/`: the id `a b` asks for the file `a b`, not `a%20b` |
| FtpStorage.FileNameSameIff | src/Infrastructure/Storage/FtpBlobStorage.cs:19-67 | two ids without dot segments ask for the same file name exactly when they have the same segments, and exactly when they have the same request path |
| FtpStorage.ServerPathPieces | src/Infrastructure/Storage/FtpBlobStorage.cs:19 | the request path's pieces are the key's pieces with the dot segments removed |
| FtpStorage.DotFreeNamesFile | src/Infrastructure/Storage/FtpBlobStorage.cs:19-67 | an id without dot segments names a file exactly when it has a segment |
| FtpStorage.ServerPathSameIff | src/Infrastructure/Storage/FtpBlobStorage.cs:19-67 | two ids without dot segments reach the same file exactly when they have the same segments |
| FtpStorage.DotSegmentsAlias | src/Infrastructure/Storage/FtpBlobStorage.cs:19-67 | the id `x/../rest` reaches the file of `rest` |
| FtpStorage.DirOf | src/Infrastructure/Storage/FtpBlobStorage.cs:19 | the directory part of a path is shorter than a nonempty path, and the root for a path without `/` |
| FtpStorage.DirOfAppend | src/Infrastructure/Storage/FtpBlobStorage.cs:19 | the directory of `a/b` is `a` for a name `b` |
| FtpStorage.Serve | src/Infrastructure/Storage/FtpBlobStorage.cs:17-64 | the server never creates a directory; RETR, SIZE and every refused command leave it as it was; STOR completes exactly when the directory exists and the path is not a directory, the others exactly when the file exists |
| FtpStorage.SaveAt | src/Infrastructure/Storage/FtpBlobStorage.cs:17-27 | an upload succeeds exactly when the path names a file the server can store; it stores the data there; a path naming no file fails with no reply, a missing directory with 553 |
| FtpStorage.GetAt | src/Infrastructure/Storage/FtpBlobStorage.cs:29-39 | a download succeeds exactly when the path names a file that exists, and returns it; otherwise no reply or 550 |
| FtpStorage.ExistsAt | src/Infrastructure/Storage/FtpBlobStorage.cs:41-55 | Exists answers exactly when the path names a file, true exactly when the file exists; otherwise it fails with no reply |
| FtpStorage.DeleteAt | src/Infrastructure/Storage/FtpBlobStorage.cs:57-64 | a delete succeeds exactly when the path names a file that exists, and removes it; otherwise no reply or 550 |
| FtpStorage.Save | src/Infrastructure/Storage/FtpBlobStorage.cs:17-27 | a save succeeds exactly when the request path names a file whose directory exists and which is not a directory, and then leaves the data at that path |
| FtpStorage.Get | src/Infrastructure/Storage/FtpBlobStorage.cs:29-39 | a read succeeds exactly when the request path names a file that exists, and returns it |
| FtpStorage.Exists | src/Infrastructure/Storage/FtpBlobStorage.cs:41-55 | Exists answers exactly when the request path names a file, and is then true exactly when the file exists; a URL naming no file fails |
| FtpStorage.Delete | src/Infrastructure/Storage/FtpBlobStorage.cs:57-64 | a delete succeeds exactly when the request path names a file that exists, and then removes only it |
| FtpStorage.SaveThenGet | src/Infrastructure/Storage/FtpBlobStorage.cs:17-39 | a save succeeds exactly when the request path names a file the server can store; then the blob reads back as saved and exists |
| FtpStorage.SaveNeedsDirectory | src/Infrastructure/Storage/FtpBlobStorage.cs:17-27 | a save into a directory the server lacks fails with 553 and stores nothing |
| FtpStorage.NestedIdNeedsDirectory | src/Infrastructure/Storage/FtpBlobStorage.cs:17-27 | while the server lacks the directory `x`, the blob `x/y` fails with 553, where `x` itself is saved; `x` and `y` are names escaping leaves alone |
| FtpStorage.SaveKeepsOthers | src/Infrastructure/Storage/FtpBlobStorage.cs:17-27 | a save succeeds exactly when the server can store its path, and then leaves every id whose request path is another file reading as before |
| FtpStorage.ServeStorKeeps | src/Infrastructure/Storage/FtpBlobStorage.cs:17-27 | a STOR the server accepts stores the data and leaves every other file as it was |
| FtpStorage.SaveOverwritesAlias | src/Infrastructure/Storage/FtpBlobStorage.cs:17-39 | saving the id `x/../rest` is saving `rest`; it succeeds exactly when the server can store that path, and then overwrites the blob `rest` reads |
| FtpStorage.NoSegmentsFails | src/Infrastructure/Storage/FtpBlobStorage.cs:19-67 | an id with no segment gives a URL naming no file: save, get, exists and delete all fail without a server reply |
| FtpStorage.ServeDeleTwice | src/Infrastructure/Storage/FtpBlobStorage.cs:57-64 | a DELE of an existing file removes it, and a second DELE fails with 550 |
| FtpStorage.DeleteTwiceFails | src/Infrastructure/Storage/FtpBlobStorage.cs:57-64 | Delete does not special-case a missing file: after deleting an existing blob it no longer exists, and a second delete fails with 550 |
| FtpStorage.SeparatorsAlias | src/Infrastructure/Storage/FtpBlobStorage.cs:67 | saving `a\b` is saving `a/b`; it succeeds exactly when the server can store that path, and then reads back as `a/b` |
| DatabaseStorage.Save | src/Infrastructure/Storage/DatabaseBlobStorage.cs:12-26 | a save inserts the row when absent and replaces only that row's bytes when present |
| DatabaseStorage.Get | src/Infrastructure/Storage/DatabaseBlobStorage.cs:28-33 | a read succeeds exactly when the row exists, and is not-found otherwise |
| DatabaseStorage.Exists | src/Infrastructure/Storage/DatabaseBlobStorage.cs:35-36 | whether a row with the id exists; stated by `ExistsIffGet` |
| DatabaseStorage.Delete | src/Infrastructure/Storage/DatabaseBlobStorage.cs:38-46 | a delete removes the row and nothing else |
| DatabaseStorage.ExistsIffGet | src/Infrastructure/Storage/DatabaseBlobStorage.cs:28-36 | Exists holds exactly when Get succeeds, that is when the row is present |
| DatabaseStorage.SaveThenGet | src/Infrastructure/Storage/DatabaseBlobStorage.cs:12-32 | after a save the bytes read back, and other rows read as before |
| DatabaseStorage.SaveOverwrites | src/Infrastructure/Storage/DatabaseBlobStorage.cs:20-24 | the second save wins, and saving the same bytes again changes nothing |
| DatabaseStorage.NullDataReadsEmpty | src/Infrastructure/Storage/DatabaseBlobStorage.cs:32 | a row with null data reads as empty bytes |
| DatabaseStorage.DeleteSemantics | src/Infrastructure/Storage/DatabaseBlobStorage.cs:38-46 | deleting an absent id changes nothing; afterwards the id neither exists nor reads; deleting twice equals deleting once |
| MetadataStore.Upsert | src/Infrastructure/Metadata/DbBlobMetadataStore.cs:12-26 | an upsert sets the size; it sets the creation time only for a new row; other rows are unchanged |
| MetadataStore.Get | src/Infrastructure/Metadata/DbBlobMetadataStore.cs:28-33 | a read is none exactly for an absent id, and otherwise the stored id, size and creation time |
| MetadataStore.GetAfterUpsert | src/Infrastructure/Metadata/DbBlobMetadataStore.cs:12-33 | right after an upsert a read gives the new size and the first creation time |
| MetadataStore.UpsertIdempotent | src/Infrastructure/Metadata/DbBlobMetadataStore.cs:12-26 | upserting the same values twice equals upserting them once |
| MetadataStore.CreationTimeIsFixed | src/Infrastructure/Metadata/DbBlobMetadataStore.cs:20-24 | no sequence of upserts, for any ids, changes an existing row's creation time |
| MetadataStore.CreationTimeOfFirstUpsert | src/Infrastructure/Metadata/DbBlobMetadataStore.cs:15-24 | a row's creation time is the one given to the first upsert of its id |
| MetadataStore.UpsertsForOthers | src/Infrastructure/Metadata/DbBlobMetadataStore.cs:14-25 | upserts for other ids leave a row, or its absence, as it was |
| BlobService.Store | src/Application/Services/BlobService.cs:18-28 | Store fails exactly on undecodable input (a format error) or a failed content save (that error), and then leaves both stores unchanged; otherwise it saves the bytes under the fresh id and upserts their length and the time |
| BlobService.StoreWritesContentFirst | src/Application/Services/BlobService.cs:24-26 | a metadata row for a new id appears only when the content save succeeded, and then the content holds the id with the recorded size |
| BlobService.Retrieve | src/Application/Services/BlobService.cs:30-36 | without metadata it is metadata-not-found, then without content content-not-found; otherwise the metadata's id, size and time with the content's base64 |
| BlobService.RetrieveWithoutMetadata | src/Application/Services/BlobService.cs:32 | without metadata, Retrieve fails whatever the content store holds |
| BlobService.StoreThenRetrieve | src/Application/Services/BlobService.cs:18-36 | storing `encode(B)` and retrieving the returned id gives data decoding to `B`, with size `|B|` and the store time |
| BlobService.StorePreservesConsistency | src/Application/Services/BlobService.cs:18-28 | Store keeps every metadata row backed by content of the recorded length, whether the decoding and the content save succeed or not |
| BlobService.RetrieveInConsistentStores | src/Application/Services/BlobService.cs:30-36 | in consistent stores Retrieve succeeds exactly for ids with metadata, reporting the content's length |
| BlobService.SizeComesFromMetadata | src/Application/Services/BlobService.cs:33-35 | for any two content stores holding the id, the reported size is the metadata's, whatever bytes are stored |
| BlobService.MissingContentPropagates | src/Application/Services/BlobService.cs:33 | metadata without content gives content-not-found, not empty data |
| Drive.GetFolderSize | src/Domain/Extensions/DriveExtensions.cs:9-14 | a null folder or file list is an argument-null error naming it; a null file in the list is a null-reference error; otherwise the sum of the sizes of the files whose parent is the folder |
| Drive.Children | src/Domain/Extensions/DriveExtensions.cs:13 | the children are exactly the listed files whose parent is the folder |
| Drive.DirectSizeIsSumOfChildren | src/Domain/Extensions/DriveExtensions.cs:13 | the folder size is the sum of the sizes of those children |
| Drive.DirectSizeAppend | src/Domain/Extensions/DriveExtensions.cs:13 | the size over a concatenation is the sum of the sizes over its parts |
| Drive.AppendFile | src/Domain/Extensions/DriveExtensions.cs:13 | appending a file adds its size when its parent is the folder, and nothing otherwise |
| Drive.NotRecursive | src/Domain/Extensions/DriveExtensions.cs:8-13 | a file inside a subfolder adds nothing to the folder's size |
| Drive.DirectSizePermutation | src/Domain/Extensions/DriveExtensions.cs:13 | the order of the files does not matter |

## Left out

- Sending requests, file reads and writes, EF Core and async cancellation are left out: each backend works over a map, or over a reference server answering status codes.
- Directory creation (`Directory.CreateDirectory`, the `createDirs` branch with `Path.GetDirectoryName`) is not modelled, because the map has no directories. It has no effect on the returned path or on which files are stored.
- FileSystemStorage.MapPathResult: the model fails before touching the files, but `SaveAsync` creates the directories of the combined path (FileSystemBlobStorage.cs:46-47) before the containment check at line 50. A rejected save, such as `Save(".")` with a missing root, can still create directories.
- `Path.GetFullPath` and `Path.Combine` follow the Unix rules. Windows drive letters, UNC paths and `\` as a directory separator are not modelled.
- An empty root is excluded by `requires cfg.root != ""`, because `Path.GetFullPath("")` throws at the first call.
- The file-system map treats files and directories as one namespace of full paths. A file whose path is another file's directory cannot fail in the model.
- SHA-256, HMAC-SHA256 and base64 are abstract functions. Only the 32-byte digest length and the base64 round trip are assumed, and only where a property needs them.
- The clock and `Guid.NewGuid` are parameters.
- The reference S3 server does not check signatures. What the signature covers is stated by `S3Storage.RequestSignatureCovers` instead.
- Sizes are unbounded integers. The `long` overflow of `Sum` in `GetFolderSize` is not modelled.
- The EF Core schema's 512-character key limit is not modelled.
- Only the dot-segment removal of `System.Uri` is modelled. Its other canonicalisation is left out, as is a bucket name holding `/`, `?` or `#`. So the dot-segment facts about path style assume a bucket without `/`.
- FtpStorage.Serve: files and directories are two separate sets, and a starting server with a path in both is not ruled out. Only STOR looks at directories, and no command creates or removes one.
- FtpStorage.ServerPath: the configured host is taken to be the server's root. A path part in the host is not modelled, so a leading `..` cannot climb above it. The reference server keys its files by the percent-encoded request path, not by the decoded name it is asked for; `FtpStorage.FileNameSameIff` shows the two pick out the same files for ids without dot segments, and this is not proved for ids with them.
- SigV4.CanonicalQueryParameters: stated only for a query without `&`, because every URI the backend builds has an empty query. The general sort is `Ordinal.Sort`.
- The `UseBinary` transfer setting and the credentials of the FTP requests are not modelled: they affect authentication and transfer mode, not what is stored.
- BlobService.Store: a failed content save is assumed to leave the content store unchanged. A backend that fails part-way through a write is not modelled.
- S3Storage.Serve: only the configured bucket has state. A request that leaves it in path style, to the service `/`, another bucket or an object in one, is answered by the server's `elsewhere` function, which keeps no state, so a save there is not read back. The bucket is assumed to exist: a DeleteBucket that succeeds answers 204 but does not remove the bucket. us-east-1's 200 answer to CreateBucket on an owned bucket is read as 409.
- Ordinal.Sort: sorts in ordinal order. The `OrderBy(x => x)` at S3HttpBlobStorage.cs:105 uses the culture-sensitive default comparer. The two agree on every query the backend signs, because `BuildUri` never writes a query, so the list sorted is always empty.
- SigV4.AmzDate: formats in the Gregorian calendar with ASCII digits, as the invariant culture does. `now.ToString("yyyyMMddTHHmmssZ")` at S3HttpBlobStorage.cs:94 passes no format provider, so under a culture with another calendar (Thai Buddhist, Um Al-Qura) the source writes a different year.
- Utf8.EncodeInjective, PercentEncoding.EscapeInjective and S3Storage.DecodeObjectKey: hold for Dafny strings, whose characters are Unicode scalar values. A .NET string can hold a lone UTF-16 surrogate, which `Encoding.UTF8` turns into U+FFFD, so two such ids can share a key.
- `Folder.cs` and the other entity classes are not part of this model beyond the fields `GetFolderSize` reads.

## Findings

| source | as written | input that shows it | evidently intended | confidence | as-written member | corrected member |
|---|---|---|---|---|---|---|
| src/Infrastructure/Storage/FileSystemBlobStorage.cs:48-50 | The root prefix is `GetFullPath(_root) + '/'`. A root whose full path already ends in `/` gets a prefix ending in `//`, and no normalised path starts with that. | Root `/` and id `a` are rejected, as are root `/data/` (`GetFullPath` keeps the trailing separator) and id `a`. | The prefix ends in exactly one separator, so `a` maps to `/a` and to `/data/a`. | not executed; the root `/` case follows from the definitions alone | FileSystemStorage.MapPathAsWritten, and the operations under `RootCheck.AsWritten` (shown by FileSystemStorage.SlashRootRejectsAll, FileSystemStorage.TrailingSeparatorRootRejectsAll, FileSystemStorage.MapPathAsWrittenResult, FileSystemStorage.TrailingSeparatorRootFailsAll) | FileSystemStorage.MapPath, and the operations under `RootCheck.Corrected` (FileSystemStorage.MapPathResult, FileSystemStorage.Locate) |

=== FILE: blob_service.dfy ===
/** `BlobService`: the orchestrator over a content store and a metadata store.

    Store decodes base64 text, saves the bytes under a fresh id and then
    records their size and the current time; Retrieve reads the metadata
    first and only then the content. The fresh id and the clock are inputs.
    The content store is modelled as a map from id to bytes, the behaviour
    every backend shares for ids it accepts, and the outcome of its save is
    an input; base64 is a codec given as a pair of functions. */
module BlobService {
  import opened Bytes
  import opened Outcomes
  import MetadataStore

  /** `Convert.ToBase64String` and `Convert.FromBase64String` (the latter `None` where it throws). */
  datatype Base64Codec = Base64Codec(encode: seq<byte> -> string, decode: string -> Option<seq<byte>>)

  /** Decoding undoes encoding, as base64 does. */
  ghost predicate RoundTrips(codec: Base64Codec) {
    forall b: seq<byte> :: codec.decode(codec.encode(b)) == Some(b)
  }

  /** Both stores. */
  datatype Stores = Stores(content: map<string, seq<byte>>, meta: MetadataStore.MetaTable)

  /** The tuple StoreAsync returns. */
  datatype Stored = Stored(id: string, size: int, createdAt: int)

  /** `BlobResult`. */
  datatype BlobResult = BlobResult(id: string, data: string, size: int, createdAt: int)

  /** `StoreAsync` with `freshId` as the new GUID, `saved` as what the content
      store's `SaveAsync` reports, and `now` as the clock reading taken after the
      content is saved. Undecodable text fails with `InvalidEncoding` before
      anything is saved; a failed save propagates its error before the metadata
      is written. Either failure leaves both stores as they were. */
  function Store(codec: Base64Codec, s: Stores, base64Data: string, freshId: string, saved: Result<Unit>, now: int)
    : (r: (Result<Stored>, Stores))
    ensures r.0.Err? <==> codec.decode(base64Data).None? || saved.Err?
    ensures r.0.Err? ==> r.1 == s
    ensures codec.decode(base64Data).None? ==> r.0 == Err(InvalidEncoding)
    ensures codec.decode(base64Data).Some? && saved.Err? ==> r.0 == Err(saved.error)
    ensures r.0.Ok? ==> r.0.value == Stored(freshId, |codec.decode(base64Data).value|, now)
    ensures r.0.Ok? ==> r.1.content == s.content[freshId := codec.decode(base64Data).value]
    ensures r.0.Ok? ==> r.1.meta == MetadataStore.Upsert(s.meta, freshId, |codec.decode(base64Data).value|, now)
  {
    match codec.decode(base64Data)
    case None => (Err(InvalidEncoding), s)
    case Some(bytes) =>
      match saved
      case Err(e) => (Err(e), s)
      case Ok(_) =>
        var content := s.content[freshId := bytes];
        var meta := MetadataStore.Upsert(s.meta, freshId, |bytes|, now);
        (Ok(Stored(freshId, |bytes|, now)), Stores(content, meta))
  }

  /** Content before metadata: Store writes a metadata row only after the content
      store has accepted the bytes, so a new row always has content of its size. */
  lemma StoreWritesContentFirst(codec: Base64Codec, s: Stores, base64Data: string, freshId: string, saved: Result<Unit>, now: int)
    requires freshId !in s.meta
    ensures var s' := Store(codec, s, base64Data, freshId, saved, now).1;
      freshId in s'.meta ==>
        && saved.Ok?
        && freshId in s'.content
        && s'.meta[freshId].size == |s'.content[freshId]|
  {
  }

  /** `RetrieveAsync`: `MetadataNotFound` without a metadata row, `ContentNotFound`
      without content, otherwise the metadata with the content in base64. */
  function Retrieve(codec: Base64Codec, s: Stores, id: string): (r: Result<BlobResult>)
    ensures id !in s.meta ==> r == Err(MetadataNotFound)
    ensures id in s.meta && id !in s.content ==> r == Err(ContentNotFound)
    ensures r.Ok? ==> id in s.meta && id in s.content
    ensures r.Ok? ==> r.value == BlobResult(id, codec.encode(s.content[id]), s.meta[id].size, s.meta[id].createdAtUtc)
  {
    match MetadataStore.Get(s.meta, id)
    case None => Err(MetadataNotFound)
    case Some(record) =>
      if id !in s.content then Err(ContentNotFound)
      else Ok(BlobResult(record.id, codec.encode(s.content[id]), record.size, record.createdAtUtc))
  }

  /** Without metadata, Retrieve does not depend on the content store at all. */
  lemma RetrieveWithoutMetadata(codec: Base64Codec, s: Stores, content: map<string, seq<byte>>, id: string)
    requires id !in s.meta
    ensures Retrieve(codec, s, id) == Retrieve(codec, Stores(content, s.meta), id) == Err(MetadataNotFound)
  {
  }

  /** Storing `encode(B)` under a fresh id and retrieving it gives back data that
      decodes to `B`, the size `|B|` and the store time. */
  lemma StoreThenRetrieve(codec: Base64Codec, s: Stores, blob: seq<byte>, freshId: string, now: int)
    requires RoundTrips(codec)
    requires freshId !in s.meta
    ensures Store(codec, s, codec.encode(blob), freshId, Ok(Unit), now).0 == Ok(Stored(freshId, |blob|, now))
    ensures Retrieve(codec, Store(codec, s, codec.encode(blob), freshId, Ok(Unit), now).1, freshId)
      == Ok(BlobResult(freshId, codec.encode(blob), |blob|, now))
    ensures codec.decode(Retrieve(codec, Store(codec, s, codec.encode(blob), freshId, Ok(Unit), now).1, freshId).value.data)
      == Some(blob)
  {
    assert codec.decode(codec.encode(blob)) == Some(blob);
  }

  /** Every metadata row has content and records that content's length. */
  ghost predicate Consistent(s: Stores) {
    forall id :: id in s.meta ==> id in s.content && s.meta[id].size == |s.content[id]|
  }

  /** Store keeps the stores consistent, whether or not it succeeds. */
  lemma StorePreservesConsistency(codec: Base64Codec, s: Stores, base64Data: string, freshId: string, saved: Result<Unit>, now: int)
    requires Consistent(s)
    ensures Consistent(Store(codec, s, base64Data, freshId, saved, now).1)
  {
  }

  /** In consistent stores, Retrieve succeeds exactly for ids with metadata, and the
      reported size is the length of the content. */
  lemma RetrieveInConsistentStores(codec: Base64Codec, s: Stores, id: string)
    requires Consistent(s)
    ensures Retrieve(codec, s, id).Ok? <==> id in s.meta
    ensures Retrieve(codec, s, id).Ok? ==> Retrieve(codec, s, id).value.size == |s.content[id]|
  {
  }

  /** The size reported is the metadata's, whatever the content store holds: replacing
      the content leaves it unchanged. */
  lemma SizeComesFromMetadata(codec: Base64Codec, s: Stores, content: map<string, seq<byte>>, id: string)
    requires id in s.meta && id in s.content && id in content
    ensures Retrieve(codec, s, id).Ok? && Retrieve(codec, Stores(content, s.meta), id).Ok?
    ensures Retrieve(codec, s, id).value.size == Retrieve(codec, Stores(content, s.meta), id).value.size
      == s.meta[id].size
  {
  }

  /** Metadata without content: Retrieve reports the missing content rather than empty data. */
  lemma MissingContentPropagates(codec: Base64Codec, s: Stores, id: string)
    requires id in s.meta && id !in s.content
    ensures Retrieve(codec, s, id) == Err(ContentNotFound)
  {
  }
}

=== FILE: bytes.dfy ===
/** Bytes and their hexadecimal spellings.

    `HexLower` is `Convert.ToHexString(bytes).ToLowerInvariant()`, the
    encoding every digest and signature in the request signer goes through;
    the upper-case digits are the ones `Uri.EscapeDataString` writes after `%`.
    `ParseHex` is the reading direction, used only to state round trips. */
module Bytes {
  import opened Outcomes
  import opened Sequences

  type byte = x: int | 0 <= x < 256

  const LowerDigits: string := "0123456789abcdef"
  const UpperDigits: string := "0123456789ABCDEF"

  predicate IsLowerHexChar(c: char) {
    ('0' <= c <= '9') || ('a' <= c <= 'f')
  }

  predicate IsUpperHexChar(c: char) {
    ('0' <= c <= '9') || ('A' <= c <= 'F')
  }

  /** The value of a hexadecimal digit of either case, or -1 for any other character. */
  function HexValue(c: char): (v: int)
    ensures -1 <= v < 16
    ensures v >= 0 <==> IsLowerHexChar(c) || IsUpperHexChar(c)
  {
    if '0' <= c <= '9' then c as int - '0' as int
    else if 'a' <= c <= 'f' then c as int - 'a' as int + 10
    else if 'A' <= c <= 'F' then c as int - 'A' as int + 10
    else -1
  }

  lemma DigitsReadBack(n: int)
    requires 0 <= n < 16
    ensures IsLowerHexChar(LowerDigits[n]) && HexValue(LowerDigits[n]) == n
    ensures IsUpperHexChar(UpperDigits[n]) && HexValue(UpperDigits[n]) == n
  {
  }

  /** The two lower-case digits of one byte, high nibble first. */
  function LowerPair(b: byte): (s: string)
    ensures |s| == 2 && IsLowerHexChar(s[0]) && IsLowerHexChar(s[1])
    ensures HexValue(s[0]) * 16 + HexValue(s[1]) == b
  {
    DigitsReadBack(b / 16);
    DigitsReadBack(b % 16);
    [LowerDigits[b / 16], LowerDigits[b % 16]]
  }

  /** The two upper-case digits of one byte, high nibble first. */
  function UpperPair(b: byte): (s: string)
    ensures |s| == 2 && IsUpperHexChar(s[0]) && IsUpperHexChar(s[1])
    ensures HexValue(s[0]) * 16 + HexValue(s[1]) == b
  {
    DigitsReadBack(b / 16);
    DigitsReadBack(b % 16);
    [UpperDigits[b / 16], UpperDigits[b % 16]]
  }

  /** Lower-case hexadecimal encoding, two characters per byte. */
  function HexLower(bs: seq<byte>): (s: string)
    ensures |s| == 2 * |bs|
    ensures forall i :: 0 <= i < |s| ==> IsLowerHexChar(s[i])
  {
    if bs == [] then "" else LowerPair(bs[0]) + HexLower(bs[1..])
  }

  /** Reads an even-length string of hexadecimal digits (either case) back into bytes. */
  function ParseHex(s: string): Option<seq<byte>>
    decreases |s|
  {
    if s == [] then Some([])
    else if |s| == 1 then None
    else
      var hi := HexValue(s[0]);
      var lo := HexValue(s[1]);
      if hi < 0 || lo < 0 then None
      else match ParseHex(s[2..])
        case None => None
        case Some(rest) => Some([hi * 16 + lo] + rest)
  }

  /** Hex encoding loses nothing: reading it back gives the bytes. */
  lemma {:induction false} ParseHexLower(bs: seq<byte>)
    ensures ParseHex(HexLower(bs)) == Some(bs)
  {
    if bs != [] {
      ParseHexLower(bs[1..]);
      var pair, t := LowerPair(bs[0]), HexLower(bs[1..]);
      PairThenRest(pair, t);
      ParseHexStep(pair + t);
      HeadTail(bs);
    }
  }

  lemma PairThenRest(pair: string, t: string)
    requires |pair| == 2
    ensures (pair + t)[0] == pair[0] && (pair + t)[1] == pair[1] && (pair + t)[2..] == t
  {
  }

  /** A string starting with two digits reads as their byte followed by the rest. */
  lemma ParseHexStep(s: string)
    requires |s| >= 2 && HexValue(s[0]) >= 0 && HexValue(s[1]) >= 0 && ParseHex(s[2..]).Some?
    requires HexValue(s[0]) * 16 + HexValue(s[1]) < 256
    ensures ParseHex(s) == Some([HexValue(s[0]) * 16 + HexValue(s[1])] + ParseHex(s[2..]).value)
  {
  }

  /** Hence two byte strings with the same hex spelling are equal. */
  lemma HexLowerInjective(a: seq<byte>, b: seq<byte>)
    requires HexLower(a) == HexLower(b)
    ensures a == b
  {
    ParseHexLower(a);
    ParseHexLower(b);
  }
}

=== FILE: database_storage.dfy ===
/** The database backend: the `BlobContents` table, one row per id, whose
    `Data` column may be null. Each operation is one query and, for the
    writes, one `SaveChanges`; the table is modelled as a map from id to
    the row's data. */
module DatabaseStorage {
  import opened Bytes
  import opened Outcomes

  /** The rows by id; `None` is a row whose `Data` is null. */
  type Table = map<string, Option<seq<byte>>>

  /** `SaveAsync`: inserts a row when the id is absent, otherwise replaces that
      row's bytes; either branch leaves the row holding `data`. */
  function Save(t: Table, id: string, data: seq<byte>): (r: Table)
    ensures id in r && r[id] == Some(data)
    ensures r.Keys == t.Keys + {id}
    ensures forall k :: k in t && k != id ==> r[k] == t[k]
  {
    t[id := Some(data)]
  }

  /** `GetAsync`: the row's bytes, empty when `Data` is null; `ContentNotFound` without a row. */
  function Get(t: Table, id: string): (r: Result<seq<byte>>)
    ensures r.Ok? <==> id in t
    ensures r.Err? ==> r.error == ContentNotFound
  {
    if id !in t then Err(ContentNotFound)
    else match t[id]
      case Some(data) => Ok(data)
      case None => Ok([])
  }

  /** `ExistsAsync`. */
  function Exists(t: Table, id: string): bool {
    id in t
  }

  /** `DeleteAsync`: removes the row if there is one. */
  function Delete(t: Table, id: string): (r: Table)
    ensures id !in r
    ensures forall k :: k != id ==> (k in r <==> k in t) && (k in r ==> r[k] == t[k])
  {
    if id in t then t - {id} else t
  }

  /** Exists answers whether Get succeeds. */
  lemma ExistsIffGet(t: Table, id: string)
    ensures Exists(t, id) <==> Get(t, id).Ok?
  {
  }

  /** After a save, the bytes read back; the other rows read as before. */
  lemma SaveThenGet(t: Table, id: string, data: seq<byte>, other: string)
    ensures Get(Save(t, id, data), id) == Ok(data)
    ensures other != id ==> Get(Save(t, id, data), other) == Get(t, other)
  {
  }

  /** Saving twice keeps only the second bytes; saving the same bytes again changes nothing. */
  lemma SaveOverwrites(t: Table, id: string, first: seq<byte>, second: seq<byte>)
    ensures Save(Save(t, id, first), id, second) == Save(t, id, second)
    ensures Save(Save(t, id, first), id, first) == Save(t, id, first)
  {
  }

  /** A row whose data is null reads as empty bytes. */
  lemma NullDataReadsEmpty(t: Table, id: string)
    requires id in t && t[id] == None
    ensures Get(t, id) == Ok([])
  {
  }

  /** Deleting an absent id changes nothing; after a delete the id does not exist. */
  lemma DeleteSemantics(t: Table, id: string)
    ensures !Exists(t, id) ==> Delete(t, id) == t
    ensures !Exists(Delete(t, id), id)
    ensures Get(Delete(t, id), id) == Err(ContentNotFound)
    ensures Delete(Delete(t, id), id) == Delete(t, id)
  {
  }
}

=== FILE: dot_segments.dfy ===
/** The removal of dot segments that `System.Uri` applies to the path of every
    `http`, `https` and `ftp` URI it parses: the `remove_dot_segments` algorithm of
    section 5.2.4 of RFC 3986, stated on the segments of an absolute path. */
module DotSegments {
  import opened Strings
  import opened PercentEncoding
  import opened Sequences

  /** A `.` or `..` segment. */
  predicate IsDot(s: string) {
    s == "." || s == ".."
  }

  predicate DotFree(segs: seq<string>) {
    forall i :: 0 <= i < |segs| ==> !IsDot(segs[i])
  }

  /** The algorithm's loop over the input segments; `out` holds the segments written
      so far. A `.` is dropped, a `..` also drops the last segment written, and
      either one, when it is the last input segment, leaves an empty final segment
      (the path keeps its trailing `/`). */
  function Walk(out: seq<string>, segs: seq<string>): (r: seq<string>)
    ensures |segs| > 0 ==> |r| > 0
    ensures forall i :: 0 <= i < |r| ==> r[i] == "" || r[i] in out || r[i] in segs
    ensures DotFree(out) ==> DotFree(r)
    decreases |segs|
  {
    if segs == [] then out
    else
      var kept := Step(out, segs[0]);
      var next := if |segs| == 1 && IsDot(segs[0]) then kept + [""] else kept;
      Walk(next, segs[1..])
  }

  /** One input segment that is not the last: `.` writes nothing, `..` removes the last
      segment written, anything else is written. */
  function Step(out: seq<string>, s: string): (kept: seq<string>)
    ensures forall i :: 0 <= i < |kept| ==> kept[i] in out || kept[i] == s
    ensures DotFree(out) ==> DotFree(kept)
  {
    if s == "." then out
    else if s == ".." then (if out == [] then [] else out[..|out| - 1])
    else out + [s]
  }

  /** Walking a segment that has a successor is one step. */
  lemma WalkCons(out: seq<string>, s: string, rest: seq<string>)
    requires rest != []
    ensures Walk(out, [s] + rest) == Walk(Step(out, s), rest)
  {
    assert ([s] + rest)[0] == s && ([s] + rest)[1..] == rest;
  }

  /** The segments of `/s1/…/sn` once its dot segments are removed. */
  function RemoveDots(segs: seq<string>): (r: seq<string>)
    ensures |segs| > 0 ==> |r| > 0
    ensures forall i :: 0 <= i < |r| ==> r[i] == "" || r[i] in segs
    ensures DotFree(r)
  {
    Walk([], segs)
  }

  lemma {:induction false} WalkDotFree(out: seq<string>, segs: seq<string>)
    requires DotFree(segs)
    ensures Walk(out, segs) == out + segs
    decreases |segs|
  {
    if segs != [] {
      assert !IsDot(segs[0]);
      WalkDotFree(out + [segs[0]], segs[1..]);
      AppendAssoc(out, [segs[0]], segs[1..]);
      HeadTail(segs);
    }
  }

  /** Removal changes exactly the paths that have a dot segment. */
  lemma RemoveDotsFixes(segs: seq<string>)
    ensures RemoveDots(segs) == segs <==> DotFree(segs)
  {
    if DotFree(segs) {
      WalkDotFree([], segs);
    }
  }

  /** A segment followed by `..` cancels out: `x/../rest` is `rest`. */
  lemma ParentCancels(out: seq<string>, x: string, rest: seq<string>)
    requires !IsDot(x) && rest != []
    ensures Walk(out, [x, ".."] + rest) == Walk(out, rest)
  {
    var segs := [x, ".."] + rest;
    assert segs[0] == x && segs[1..] == [".."] + rest;
    assert ([".."] + rest)[0] == ".." && ([".."] + rest)[1..] == rest;
    assert (out + [x])[..|out|] == out;
  }

  /** Behind a leading segment, `x/..` cancels out as well. */
  lemma ParentCancelsAfter(first: string, x: string, rest: seq<string>)
    requires !IsDot(x) && rest != []
    ensures RemoveDots([first, x, ".."] + rest) == RemoveDots([first] + rest)
  {
    assert [first, x, ".."] + rest == [first] + ([x, ".."] + rest);
    WalkCons([], first, [x, ".."] + rest);
    WalkCons([], first, rest);
    ParentCancels(Step([], first), x, rest);
  }

  /** `/..` is the root path `/`. */
  lemma ParentOfRoot()
    ensures RemoveDots([".."]) == [""]
  {
    assert [".."][1..] == [];
  }

  /** A character no input segment holds is in no output segment. */
  lemma RemoveDotsExcludes(segs: seq<string>, c: char)
    requires forall i :: 0 <= i < |segs| ==> c !in segs[i]
    ensures forall i :: 0 <= i < |RemoveDots(segs)| ==> c !in RemoveDots(segs)[i]
  {
    var kept := RemoveDots(segs);
    forall i | 0 <= i < |kept| ensures c !in kept[i] {
      if kept[i] != "" {
        var j :| 0 <= j < |segs| && segs[j] == kept[i];
      }
    }
  }

  /** `RemoveDotSegments` on an absolute path. */
  function RemoveDotSegments(path: string): (r: string)
    requires |path| >= 1 && path[0] == '/'
    ensures |r| >= 1 && r[0] == '/'
    ensures DotFree(Split(path[1..], '/')) ==> r == path
  {
    DotFreePathKept(path);
    "/" + Join(RemoveDots(Split(path[1..], '/')), '/')
  }

  /** The pieces after the leading `/` are the input's pieces with the dot segments
      removed. */
  lemma RemoveDotSegmentsPieces(path: string)
    requires |path| >= 1 && path[0] == '/'
    ensures Split(RemoveDotSegments(path)[1..], '/') == RemoveDots(Split(path[1..], '/'))
  {
    var segs := Split(path[1..], '/');
    var kept := RemoveDots(segs);
    RemoveDotsExcludes(segs, '/');
    SplitJoin(kept, '/');
    var r := RemoveDotSegments(path);
    assert r[1..] == Join(kept, '/');
  }

  lemma DotFreePathKept(path: string)
    requires |path| >= 1 && path[0] == '/'
    ensures DotFree(Split(path[1..], '/')) ==> "/" + Join(RemoveDots(Split(path[1..], '/')), '/') == path
  {
    var segs := Split(path[1..], '/');
    if DotFree(segs) {
      RemoveDotsFixes(segs);
      JoinSplit(path[1..], '/');
      assert path == [path[0]] + path[1..];
    }
  }

  /** Removal adds no character except `/`. */
  lemma RemoveDotSegmentsExcludes(path: string, c: char)
    requires |path| >= 1 && path[0] == '/'
    requires c != '/' && c !in path
    ensures c !in RemoveDotSegments(path)
  {
    var segs := Split(path[1..], '/');
    var kept := RemoveDots(segs);
    var r := RemoveDotSegments(path);
    assert c !in path[1..] by {
      forall k | 0 <= k < |path[1..]| ensures path[1..][k] != c {
        assert path[1..][k] == path[k + 1];
      }
    }
    SplitExcludes(path[1..], '/', c);
    RemoveDotsExcludes(segs, c);
    RemoveDotSegmentsPieces(path);
    JoinSplit(r[1..], '/');
    JoinExcludes(kept, '/', c);
    assert r == [r[0]] + r[1..];
  }

  /** Escaping turns a segment into a dot segment only when it was one already. */
  lemma EscapeKeepsDots(s: string)
    ensures IsDot(Escape(s)) <==> IsDot(s)
  {
    assert IsUnreserved('.');
    EscapeUnreservedOnly(".");
    EscapeUnreservedOnly("..");
    if Escape(s) == "." {
      EscapeInjective(s, ".");
    } else if Escape(s) == ".." {
      EscapeInjective(s, "..");
    }
  }

  lemma EscapeAllDotFree(parts: seq<string>)
    requires DotFree(parts)
    ensures DotFree(EscapeAll(parts))
  {
    forall i | 0 <= i < |parts| ensures !IsDot(EscapeAll(parts)[i]) {
      EscapeKeepsDots(parts[i]);
    }
  }

  lemma EscapeParent()
    ensures Escape("..") == ".."
  {
    assert IsUnreserved('.');
    EscapeUnreservedOnly("..");
  }

  /** Escaping `x`, `..` and further segments keeps the `..`. */
  lemma EscapeParentPieces(x: string, segs: seq<string>)
    ensures EscapeAll([x, ".."] + segs) == [Escape(x), ".."] + EscapeAll(segs)
  {
    assert [x, ".."] + segs == [x] + ([".."] + segs);
    EscapeAllCons(x, [".."] + segs);
    EscapeAllCons("..", segs);
    EscapeParent();
  }
}

=== FILE: drive.dfy ===
/** `DriveExtensions.GetFolderSize`: the total size of the files directly
    inside a folder. Only the entity fields the computation reads are kept:
    a file's parent id and size, and the folder's id. Null references are
    `None`. */
module Drive {
  import opened Outcomes

  /** A `FileItem`: its id, name, parent folder id (null at the top level) and size. */
  datatype FileItem = FileItem(id: string, name: string, parentId: Option<string>, size: int)

  /** A `Folder`: like every drive item, an id, a name and a parent id. */
  datatype Folder = Folder(id: string, name: string, parentId: Option<string>)

  /** What a file adds to the folder `folderId`: its size if it sits directly inside, else nothing. */
  function Contribution(folderId: string, f: FileItem): int {
    if f.parentId == Some(folderId) then f.size else 0
  }

  /** The sum of the sizes of the files whose parent is `folderId`. */
  function DirectSize(folderId: string, files: seq<FileItem>): int
    decreases |files|
  {
    if files == [] then 0
    else DirectSize(folderId, files[..|files| - 1]) + Contribution(folderId, files[|files| - 1])
  }

  /** The files directly inside `folderId`, in order. */
  function Children(folderId: string, files: seq<FileItem>): (r: seq<FileItem>)
    ensures forall i :: 0 <= i < |r| ==> r[i] in files && r[i].parentId == Some(folderId)
    ensures forall f :: f in files && f.parentId == Some(folderId) ==> f in r
  {
    if files == [] then []
    else if files[0].parentId == Some(folderId) then [files[0]] + Children(folderId, files[1..])
    else Children(folderId, files[1..])
  }

  function SumSizes(files: seq<FileItem>): int {
    if files == [] then 0 else files[0].size + SumSizes(files[1..])
  }

  /** The files of a list whose elements may be null, in order: the elements that are not. */
  function Present(items: seq<Option<FileItem>>): (r: seq<FileItem>)
    ensures |r| <= |items|
    ensures None !in items ==> |r| == |items| && forall i :: 0 <= i < |items| ==> items[i] == Some(r[i])
    decreases |items|
  {
    if items == [] then []
    else
      var init, last := items[..|items| - 1], items[|items| - 1];
      assert forall i :: 0 <= i < |init| ==> init[i] == items[i];
      Present(init) + (if last.Some? then [last.value] else [])
  }

  /** `GetFolderSize`: an argument-null error for a null folder or file list; a
      null-reference error when the list holds a null file, whose `ParentId` the
      filter reads; otherwise the sum over the files directly inside the folder. */
  method GetFolderSize(folder: Option<Folder>, allFiles: Option<seq<Option<FileItem>>>) returns (r: Result<int>)
    ensures folder.None? ==> r == Err(ArgumentNull("folder"))
    ensures folder.Some? && allFiles.None? ==> r == Err(ArgumentNull("allFiles"))
    ensures folder.Some? && allFiles.Some? && None in allFiles.value ==> r == Err(NullReference)
    ensures folder.Some? && allFiles.Some? && None !in allFiles.value ==>
      r == Ok(DirectSize(folder.value.id, Present(allFiles.value)))
  {
    if folder.None? {
      return Err(ArgumentNull("folder"));
    }
    if allFiles.None? {
      return Err(ArgumentNull("allFiles"));
    }
    var items := allFiles.value;
    var folderId := folder.value.id;
    var total := 0;
    var i := 0;
    while i < |items|
      invariant 0 <= i <= |items|
      invariant None !in items[..i]
      invariant total == DirectSize(folderId, Present(items[..i]))
    {
      if items[i].None? {
        return Err(NullReference);
      }
      var f := items[i].value;
      assert items[..i + 1][..i] == items[..i];
      AppendFile(folderId, Present(items[..i]), f);
      if f.parentId == Some(folderId) {
        total := total + f.size;
      }
      i := i + 1;
    }
    assert items[..|items|] == items;
    return Ok(total);
  }

  /** The folder size of a concatenation is the sum of the folder sizes of its parts. */
  lemma {:induction false} DirectSizeAppend(folderId: string, xs: seq<FileItem>, ys: seq<FileItem>)
    ensures DirectSize(folderId, xs + ys) == DirectSize(folderId, xs) + DirectSize(folderId, ys)
    decreases |ys|
  {
    if ys == [] {
      assert xs + ys == xs;
    } else {
      var init := ys[..|ys| - 1];
      assert (xs + ys)[..|xs + ys| - 1] == xs + init;
      assert (xs + ys)[|xs + ys| - 1] == ys[|ys| - 1];
      DirectSizeAppend(folderId, xs, init);
    }
  }

  /** Appending a file adds its size when it is directly inside the folder and nothing otherwise. */
  lemma AppendFile(folderId: string, files: seq<FileItem>, f: FileItem)
    ensures f.parentId == Some(folderId) ==> DirectSize(folderId, files + [f]) == DirectSize(folderId, files) + f.size
    ensures f.parentId != Some(folderId) ==> DirectSize(folderId, files + [f]) == DirectSize(folderId, files)
  {
    assert (files + [f])[..|files|] == files;
  }

  /** The sum is not recursive: a file inside a subfolder adds nothing to the folder. */
  lemma NotRecursive(folder: Folder, sub: Folder, files: seq<FileItem>, f: FileItem)
    requires sub.parentId == Some(folder.id) && sub.id != folder.id
    requires f.parentId == Some(sub.id)
    ensures DirectSize(folder.id, files + [f]) == DirectSize(folder.id, files)
  {
    AppendFile(folder.id, files, f);
  }

  /** The folder size is the sum of the sizes of the folder's children. */
  lemma {:induction false} DirectSizeIsSumOfChildren(folderId: string, files: seq<FileItem>)
    ensures DirectSize(folderId, files) == SumSizes(Children(folderId, files))
    decreases |files|
  {
    if files != [] {
      DirectSizeIsSumOfChildren(folderId, files[1..]);
      DirectSizeAppend(folderId, [files[0]], files[1..]);
      assert [files[0]] + files[1..] == files;
      assert DirectSize(folderId, [files[0]]) == Contribution(folderId, files[0]);
    }
  }

  /** Taking one file out of the list takes its contribution out of the sum. */
  lemma RemoveAt(folderId: string, files: seq<FileItem>, k: int)
    requires 0 <= k < |files|
    ensures DirectSize(folderId, files) ==
      DirectSize(folderId, files[..k] + files[k + 1..]) + Contribution(folderId, files[k])
  {
    assert files == files[..k] + [files[k]] + files[k + 1..];
    DirectSizeAppend(folderId, files[..k] + [files[k]], files[k + 1..]);
    DirectSizeAppend(folderId, files[..k], [files[k]]);
    DirectSizeAppend(folderId, files[..k], files[k + 1..]);
    assert DirectSize(folderId, [files[k]]) == Contribution(folderId, files[k]);
  }

  /** The order of the files does not matter. */
  lemma {:induction false} DirectSizePermutation(folderId: string, xs: seq<FileItem>, ys: seq<FileItem>)
    requires multiset(xs) == multiset(ys)
    ensures DirectSize(folderId, xs) == DirectSize(folderId, ys)
    decreases |xs|
  {
    if xs != [] {
      var n := |xs| - 1;
      var x := xs[n];
      assert x in multiset(ys);
      var k :| 0 <= k < |ys| && ys[k] == x;
      var rest := ys[..k] + ys[k + 1..];
      assert ys == ys[..k] + [x] + ys[k + 1..];
      assert multiset(ys) == multiset(ys[..k]) + multiset{x} + multiset(ys[k + 1..]);
      assert multiset(rest) == multiset(ys[..k]) + multiset(ys[k + 1..]);
      assert xs == xs[..n] + [x];
      assert multiset(xs) == multiset(xs[..n]) + multiset{x};
      assert multiset(xs[..n]) == multiset(xs) - multiset{x};
      assert multiset(rest) == multiset(ys) - multiset{x};
      DirectSizePermutation(folderId, xs[..n], rest);
      RemoveAt(folderId, ys, k);
    } else {
      assert |ys| == |multiset(ys)| == 0;
    }
  }
}

=== FILE: filesystem_storage.dfy ===
/** The file-system backend: a blob id becomes a path under a configured root
    directory, and the four operations read and write the file found there.

    `MapPath` sanitises the id and then checks that the normalised result lies
    under the normalised root. Normalisation (`Path.GetFullPath`) is modelled
    with the rules it follows on Unix: a relative path is taken relative to the
    current directory, empty and `.` segments vanish, `..` drops the segment
    before it, and a trailing separator is kept.

    The disk is a map from full path to file contents. */
module FileSystemStorage {
  import opened Bytes
  import opened Outcomes
  import opened Strings
  import opened IdSegments
  import opened Sequences

  // ---------------------------------------------------------------------------
  // Sanitising segments
  // ---------------------------------------------------------------------------

  /** `segment.Replace("..", "")`: one left-to-right pass deleting each
      non-overlapping occurrence of `..`. */
  function StripParentTokens(s: string): (r: string)
    ensures |r| <= |s|
    ensures forall i :: 0 <= i < |r| ==> r[i] in s
    decreases |s|
  {
    if |s| >= 2 && s[0] == '.' && s[1] == '.' then StripParentTokens(s[2..])
    else if s == [] then []
    else [s[0]] + StripParentTokens(s[1..])
  }

  /** No two adjacent dots anywhere in `s`. */
  predicate NoParentToken(s: string) {
    forall i :: 0 <= i < |s| - 1 ==> !(s[i] == '.' && s[i + 1] == '.')
  }

  /** The single pass leaves no `..` behind, even where deleting one brings two dots together. */
  lemma {:induction false} StripLeavesNoParentToken(s: string)
    ensures NoParentToken(StripParentTokens(s))
    decreases |s|
  {
    if |s| >= 2 && s[0] == '.' && s[1] == '.' {
      StripLeavesNoParentToken(s[2..]);
    } else if s != [] {
      var rest := StripParentTokens(s[1..]);
      StripLeavesNoParentToken(s[1..]);
      var r := [s[0]] + rest;
      forall i | 0 <= i < |r| - 1 ensures !(r[i] == '.' && r[i + 1] == '.') {
        if i == 0 {
          if s[0] == '.' {
            assert s[1..][0] == s[1];
            assert rest[0] == s[1];
          }
        } else {
          assert r[i] == rest[i - 1] && r[i + 1] == rest[i];
        }
      }
    }
  }

  /** The sanitised segments, one per segment of the id. */
  function StripAll(segs: seq<string>): (r: seq<string>)
    ensures |r| == |segs|
    ensures forall i :: 0 <= i < |segs| ==> r[i] == StripParentTokens(segs[i])
  {
    if segs == [] then [] else [StripParentTokens(segs[0])] + StripAll(segs[1..])
  }

  /** `safeParts`: the id's segments with `..` deleted from each. */
  function SafeParts(id: string): seq<string> {
    StripAll(Segments(id))
  }

  /** No sanitised segment contains a separator or `..`, and so none can climb out of its directory. */
  lemma SafePartsHarmless(id: string)
    ensures forall i :: 0 <= i < |SafeParts(id)| ==>
      '/' !in SafeParts(id)[i] && NoParentToken(SafeParts(id)[i]) && SafeParts(id)[i] != ".."
  {
    var segs := Segments(id);
    forall i | 0 <= i < |segs|
      ensures '/' !in SafeParts(id)[i] && NoParentToken(SafeParts(id)[i]) && SafeParts(id)[i] != ".."
    {
      assert IsSegment(segs[i]);
      StripLeavesNoParentToken(segs[i]);
      assert !NoParentToken("..") by {
        assert ".."[0] == '.' && ".."[1] == '.';
      }
    }
  }

  /** Deleting `..` keeps every character other than `.`. */
  lemma {:induction false} StripKeeps(s: string, c: char)
    requires c != '.'
    ensures c in StripParentTokens(s) <==> c in s
    decreases |s|
  {
    if |s| >= 2 && s[0] == '.' && s[1] == '.' {
      StripKeeps(s[2..], c);
      HeadTail(s);
      HeadTail(s[1..]);
      assert s == [s[0]] + ([s[1]] + s[2..]);
    } else if s != [] {
      StripKeeps(s[1..], c);
      HeadTail(s);
    }
  }

  lemma StripAllHas(segs: seq<string>, c: char)
    requires c != '.'
    ensures InSome(StripAll(segs), c) <==> InSome(segs, c)
  {
    var r := StripAll(segs);
    if InSome(segs, c) {
      var i :| 0 <= i < |segs| && c in segs[i];
      StripKeeps(segs[i], c);
    }
    if InSome(r, c) {
      var i :| 0 <= i < |r| && c in r[i];
      StripKeeps(segs[i], c);
    }
  }

  /** A character other than `/`, `\` and `.` is in an id exactly when it is in one of
      its sanitised parts. */
  lemma SafePartsHas(id: string, c: char)
    requires c != '.' && c != '/' && c != '\\'
    ensures c in id <==> InSome(SafeParts(id), c)
  {
    SegmentsHas(id, c);
    StripAllHas(Segments(id), c);
  }

  /** A segment that names a directory level: nonempty, not `.` or `..`, without `/`. */
  predicate IsName(s: string) {
    s != "" && s != "." && s != ".." && '/' !in s
  }

  /** The parts that name a directory level, in order: empty parts and `.` dropped. */
  function Kept(parts: seq<string>): (r: seq<string>)
    ensures |r| <= |parts|
    ensures forall i :: 0 <= i < |r| ==> r[i] in parts && r[i] != "" && r[i] != "."
  {
    if parts == [] then []
    else if parts[0] == "" || parts[0] == "." then Kept(parts[1..])
    else [parts[0]] + Kept(parts[1..])
  }

  lemma {:induction false} KeptRemoveEmpty(parts: seq<string>)
    ensures Kept(RemoveEmpty(parts)) == Kept(parts)
  {
    if parts != [] {
      KeptRemoveEmpty(parts[1..]);
    }
  }

  /** Dropping empty and `.` parts loses no character other than `.`. */
  lemma {:induction false} KeptHas(parts: seq<string>, c: char)
    requires c != '.'
    ensures InSome(Kept(parts), c) <==> InSome(parts, c)
    decreases |parts|
  {
    if parts != [] {
      KeptHas(parts[1..], c);
      HeadTail(parts);
      InSomeCons(parts[0], parts[1..], c);
      if parts[0] != "" && parts[0] != "." {
        InSomeCons(parts[0], Kept(parts[1..]), c);
      } else {
        assert c !in parts[0];
      }
    }
  }

  /** The levels an id contributes below the root. */
  function Levels(id: string): (r: seq<string>)
    ensures forall i :: 0 <= i < |r| ==> IsName(r[i])
  {
    SafePartsHarmless(id);
    Kept(SafeParts(id))
  }

  /** A character other than `/`, `\` and `.` is in an id exactly when it is in one of
      its levels. */
  lemma LevelsHas(id: string, c: char)
    requires c != '.' && c != '/' && c != '\\'
    ensures c in id <==> InSome(Levels(id), c)
  {
    SafePartsHas(id, c);
    KeptHas(SafeParts(id), c);
  }

  // ---------------------------------------------------------------------------
  // Path.Combine
  // ---------------------------------------------------------------------------

  predicate EndsWithSlash(s: string) {
    s != [] && s[|s| - 1] == '/'
  }

  /** `Path.Combine(paths)`: empty parts are skipped, a part starting with `/`
      discards what came before it, and a `/` goes between two parts unless the
      first already ends with one. */
  function Combine(acc: string, parts: seq<string>): string
    decreases |parts|
  {
    if parts == [] then acc
    else
      var p := parts[0];
      var next :=
        if p == "" then acc
        else if p[0] == '/' || acc == "" then p
        else if EndsWithSlash(acc) then acc + p
        else acc + "/" + p;
      Combine(next, parts[1..])
  }

  /** A path followed by the given nonempty parts, one separator between each. */
  function Attach(acc: string, parts: seq<string>): string {
    if parts == [] then acc
    else if EndsWithSlash(acc) then acc + Join(parts, '/')
    else acc + "/" + Join(parts, '/')
  }

  lemma {:induction false} JoinLastChar(parts: seq<string>, sep: char)
    requires |parts| >= 1 && parts[|parts| - 1] != []
    ensures |Join(parts, sep)| >= 1
    ensures Join(parts, sep)[|Join(parts, sep)| - 1] == parts[|parts| - 1][|parts[|parts| - 1]| - 1]
    decreases |parts|
  {
    if |parts| > 1 {
      JoinLastChar(parts[1..], sep);
    }
  }

  lemma JoinFirstChar(parts: seq<string>, sep: char)
    requires |parts| >= 1 && parts[0] != []
    ensures |Join(parts, sep)| >= 1 && Join(parts, sep)[0] == parts[0][0]
  {
  }

  /** The path after appending one more nonempty part that does not start with `/`. */
  function AppendPart(acc: string, p: string): string {
    if EndsWithSlash(acc) then acc + p else acc + "/" + p
  }

  lemma AttachCons(acc: string, p: string, rest: seq<string>)
    requires p != "" && '/' !in p
    ensures Attach(AppendPart(acc, p), rest) == Attach(acc, [p] + rest)
  {
    var next := AppendPart(acc, p);
    if rest == [] {
      assert Join([p], '/') == p;
    } else {
      assert p[|p| - 1] in p;
      assert next[|next| - 1] == p[|p| - 1];
      assert ([p] + rest)[1..] == rest;
      assert Join([p] + rest, '/') == p + "/" + Join(rest, '/');
      if EndsWithSlash(acc) {
        assert acc + p + "/" + Join(rest, '/') == acc + (p + "/" + Join(rest, '/'));
      } else {
        assert acc + "/" + p + "/" + Join(rest, '/') == acc + "/" + (p + "/" + Join(rest, '/'));
      }
    }
  }

  /** Combining parts without separators appends the nonempty ones, in order. */
  lemma {:induction false} CombineAttach(acc: string, parts: seq<string>)
    requires acc != ""
    requires forall i :: 0 <= i < |parts| ==> '/' !in parts[i]
    ensures Combine(acc, parts) == Attach(acc, RemoveEmpty(parts))
    decreases |parts|
  {
    if parts != [] {
      var p := parts[0];
      if p == "" {
        CombineAttach(acc, parts[1..]);
      } else {
        assert p[0] in p;
        assert Combine(acc, parts) == Combine(AppendPart(acc, p), parts[1..]);
        CombineAttach(AppendPart(acc, p), parts[1..]);
        assert RemoveEmpty(parts) == [p] + RemoveEmpty(parts[1..]);
        AttachCons(acc, p, RemoveEmpty(parts[1..]));
      }
    }
  }

  // ---------------------------------------------------------------------------
  // Path.GetFullPath
  // ---------------------------------------------------------------------------

  /** One segment of a path read onto the stack of resolved levels. */
  function Step(stack: seq<string>, s: string): (r: seq<string>)
    requires forall i :: 0 <= i < |stack| ==> IsName(stack[i])
    requires '/' !in s
    ensures forall i :: 0 <= i < |r| ==> IsName(r[i])
  {
    if s == "" || s == "." then stack
    else if s == ".." then (if stack == [] then [] else stack[..|stack| - 1])
    else stack + [s]
  }

  function Resolve(stack: seq<string>, segs: seq<string>): (r: seq<string>)
    requires forall i :: 0 <= i < |stack| ==> IsName(stack[i])
    requires forall i :: 0 <= i < |segs| ==> '/' !in segs[i]
    ensures forall i :: 0 <= i < |r| ==> IsName(r[i])
    decreases |segs|
  {
    if segs == [] then stack else Resolve(Step(stack, segs[0]), segs[1..])
  }

  /** An absolute path in normal form: the levels, and a trailing separator if one was asked for. */
  function Render(stack: seq<string>, trailing: bool): string {
    "/" + Join(stack, '/') + (if stack != [] && trailing then "/" else "")
  }

  /** A path taken relative to the current directory `cwd` unless it starts with `/`. */
  function Absolute(cwd: string, p: string): string {
    if StartsWith(p, "/") then p else cwd + "/" + p
  }

  /** `Path.GetFullPath(p)` with `cwd` as the current directory. */
  function FullPath(cwd: string, p: string): (r: string)
    ensures |r| >= 1 && r[0] == '/'
  {
    var a := Absolute(cwd, p);
    Render(Resolve([], Split(a, '/')), EndsWithSlash(a))
  }

  /** The directory a stack of levels names, written with its trailing separator. */
  function Dir(stack: seq<string>): string {
    if stack == [] then "/" else "/" + Join(stack, '/') + "/"
  }

  lemma {:induction false} ResolveAppend(stack: seq<string>, xs: seq<string>, ys: seq<string>)
    requires forall i :: 0 <= i < |stack| ==> IsName(stack[i])
    requires forall i :: 0 <= i < |xs| ==> '/' !in xs[i]
    requires forall i :: 0 <= i < |ys| ==> '/' !in ys[i]
    ensures Resolve(stack, xs + ys) == Resolve(Resolve(stack, xs), ys)
    decreases |xs|
  {
    if xs == [] {
      assert xs + ys == ys;
    } else {
      assert (xs + ys)[0] == xs[0];
      assert (xs + ys)[1..] == xs[1..] + ys;
      ResolveAppend(Step(stack, xs[0]), xs[1..], ys);
    }
  }

  /** Segments without `..` only ever push: the stack grows by the levels among them. */
  lemma {:induction false} ResolveWithoutParent(stack: seq<string>, parts: seq<string>)
    requires forall i :: 0 <= i < |stack| ==> IsName(stack[i])
    requires forall i :: 0 <= i < |parts| ==> '/' !in parts[i] && parts[i] != ".."
    ensures Resolve(stack, parts) == stack + Kept(parts)
    decreases |parts|
  {
    if parts != [] {
      var p := parts[0];
      ResolveWithoutParent(Step(stack, p), parts[1..]);
      if p != "" && p != "." {
        AppendAssoc(stack, [p], Kept(parts[1..]));
      }
    }
  }

  lemma RenderDir(stack: seq<string>, trailing: bool)
    requires forall i :: 0 <= i < |stack| ==> IsName(stack[i])
    ensures EndsWithSlash(Render(stack, trailing)) <==> stack == [] || trailing
    ensures EndsWithSlash(Render(stack, trailing)) ==> Render(stack, trailing) == Dir(stack)
    ensures !EndsWithSlash(Render(stack, trailing)) ==> Render(stack, trailing) + "/" == Dir(stack)
    ensures TrimEnd(Render(stack, trailing), '/') + "/" == Dir(stack)
  {
    var r := Render(stack, trailing);
    if stack == [] {
      assert r == "/";
      assert TrimEnd("/", '/') == TrimEnd("", '/');
    } else {
      var body := "/" + Join(stack, '/');
      JoinLastChar(stack, '/');
      assert stack[|stack| - 1][|stack[|stack| - 1]| - 1] in stack[|stack| - 1];
      assert !EndsWithSlash(body);
      assert TrimEnd(body, '/') == body;
      if trailing {
        assert r == body + "/";
        assert (body + "/")[..|body|] == body;
      } else {
        assert r == body;
      }
    }
  }

  /** Levels below a directory render as that directory followed by the levels. */
  lemma RenderBelow(stack: seq<string>, below: seq<string>)
    requires |below| >= 1
    ensures Render(stack + below, false) == Dir(stack) + Join(below, '/')
  {
    if stack == [] {
      assert stack + below == below;
      SlashConcat([], Join(below, '/'));
    } else {
      JoinAppend(stack, below, '/');
      SlashConcat(Join(stack, '/'), Join(below, '/'));
    }
  }

  lemma SlashConcat(j: string, b: string)
    ensures "/" + (j + "/" + b) + "" == "/" + j + "/" + b
    ensures "/" + b + "" == "/" + b
  {
  }

  /** The normalised root, and the prefix a mapped path must carry. */
  function RootStack(cwd: string, root: string): seq<string> {
    Resolve([], Split(Absolute(cwd, root), '/'))
  }

  lemma AbsoluteAttach(cwd: string, root: string, parts: seq<string>)
    requires root != ""
    ensures Absolute(cwd, Attach(root, parts)) == Attach(Absolute(cwd, root), parts)
    ensures EndsWithSlash(Absolute(cwd, root)) == EndsWithSlash(root)
  {
    var a := Attach(root, parts);
    assert a[0] == root[0];
    if !StartsWith(root, "/") {
      var ar := cwd + "/" + root;
      assert ar[|ar| - 1] == root[|root| - 1];
      if parts != [] {
        if EndsWithSlash(root) {
          assert cwd + "/" + (root + Join(parts, '/')) == ar + Join(parts, '/');
        } else {
          assert cwd + "/" + (root + "/" + Join(parts, '/')) == ar + "/" + Join(parts, '/');
        }
      }
    }
  }

  /** Reading a path with further levels attached pushes exactly those levels,
      and the result has no trailing separator. */
  lemma ResolveAttach(a: string, parts: seq<string>)
    requires a != ""
    requires |parts| >= 1
    requires forall i :: 0 <= i < |parts| ==> parts[i] != "" && '/' !in parts[i] && parts[i] != ".."
    ensures Resolve([], Split(Attach(a, parts), '/')) == Resolve([], Split(a, '/')) + Kept(parts)
    ensures !EndsWithSlash(Attach(a, parts))
  {
    var joined := Join(parts, '/');
    AttachLastChar(a, parts);
    if EndsWithSlash(a) {
      var a0 := a[..|a| - 1];
      assert a == a0 + "/" + "";
      assert Attach(a, parts) == a0 + "/" + joined;
      TrailingSeparatorResolve(a0);
      ResolvePushParts(a0, parts);
    } else {
      ResolvePushParts(a, parts);
    }
  }

  /** A path with levels attached ends in its last level's last character. */
  lemma AttachLastChar(a: string, parts: seq<string>)
    requires |parts| >= 1 && parts[|parts| - 1] != "" && '/' !in parts[|parts| - 1]
    ensures !EndsWithSlash(Attach(a, parts))
  {
    var last := parts[|parts| - 1];
    var joined := Join(parts, '/');
    JoinLastChar(parts, '/');
    var t := Attach(a, parts);
    assert t[|t| - 1] == joined[|joined| - 1];
    assert last[|last| - 1] in last;
  }

  /** A trailing separator adds an empty segment, which reading skips. */
  lemma TrailingSeparatorResolve(a0: string)
    ensures Resolve([], Split(a0 + "/" + "", '/')) == Resolve([], Split(a0, '/'))
  {
    SplitAround(a0, '/', "");
    assert Split(a0 + "/" + "", '/') == Split(a0, '/') + [""];
    ResolveAppend([], Split(a0, '/'), [""]);
    var st := Resolve([], Split(a0, '/'));
    assert Resolve(st, [""]) == Resolve(Step(st, ""), []);
  }

  /** Reading `a/p1/…/pn` pushes the levels among the parts after those of `a`. */
  lemma ResolvePushParts(a: string, parts: seq<string>)
    requires |parts| >= 1
    requires forall i :: 0 <= i < |parts| ==> parts[i] != "" && '/' !in parts[i] && parts[i] != ".."
    ensures Resolve([], Split(a + "/" + Join(parts, '/'), '/')) == Resolve([], Split(a, '/')) + Kept(parts)
  {
    SplitJoin(parts, '/');
    SplitAround(a, '/', Join(parts, '/'));
    ResolveAppend([], Split(a, '/'), parts);
    ResolveWithoutParent(Resolve([], Split(a, '/')), parts);
  }

  // ---------------------------------------------------------------------------
  // MapPath
  // ---------------------------------------------------------------------------

  /** The root directory as configured, and the process's current directory. */
  datatype FsConfig = FsConfig(root: string, cwd: string)

  /** `Path.GetFullPath(_root)`. */
  function RootFullPath(cfg: FsConfig): string {
    FullPath(cfg.cwd, cfg.root)
  }

  /** `full`: the root and the sanitised parts, combined. */
  function Candidate(cfg: FsConfig, id: string): string {
    Combine("", [cfg.root] + SafeParts(id))
  }

  lemma AttachHas(acc: string, parts: seq<string>, c: char)
    requires c != '/'
    ensures c in Attach(acc, parts) <==> c in acc || InSome(parts, c)
  {
    JoinHas(parts, '/', c);
  }

  /** A character other than `/`, `\` and `.` is in the candidate exactly when it is in
      the root or in the id. */
  lemma CandidateHas(cfg: FsConfig, id: string, c: char)
    requires cfg.root != ""
    requires c != '.' && c != '/' && c != '\\'
    ensures c in Candidate(cfg, id) <==> c in cfg.root || c in id
  {
    var parts := SafeParts(id);
    SafePartsHarmless(id);
    ConsParts(cfg.root, parts);
    assert Candidate(cfg, id) == Combine(cfg.root, parts);
    CombineAttach(cfg.root, parts);
    AttachHas(cfg.root, RemoveEmpty(parts), c);
    RemoveEmptyHas(parts, c);
    SafePartsHas(id, c);
  }

  /** `Path.GetFullPath` throws `ArgumentException` for a path holding U+0000: the root
      at line 48, the candidate at line 49. By `CandidateHas` the candidate holds one
      exactly when the root or the id does, so this is the test both calls make. */
  predicate NulFree(cfg: FsConfig, id: string) {
    '\0' !in cfg.root && '\0' !in id
  }

  /** `MapPath` as the source writes it: the normalised candidate must start with
      the normalised root followed by one separator. */
  function MapPathAsWritten(cfg: FsConfig, id: string): (r: Result<string>)
    requires cfg.root != ""
    ensures r.Ok? ==> NulFree(cfg, id) && StartsWith(r.value, RootFullPath(cfg) + "/")
    ensures r.Err? ==> r.error == (if NulFree(cfg, id) then InvalidPath else NullCharInPath)
  {
    if !NulFree(cfg, id) then Err(NullCharInPath)
    else
      var normalized := FullPath(cfg.cwd, Candidate(cfg, id));
      if StartsWith(normalized, RootFullPath(cfg) + "/") then Ok(normalized) else Err(InvalidPath)
  }

  /** The directory prefix with exactly one separator at its end. */
  function RootPrefix(cfg: FsConfig): string {
    TrimEnd(RootFullPath(cfg), '/') + "/"
  }

  /** `MapPath` with the containment check it is evidently meant to make: the
      normalised candidate must lie strictly below the normalised root, however
      many separators the root ends with. */
  function MapPath(cfg: FsConfig, id: string): (r: Result<string>)
    requires cfg.root != ""
    ensures r.Ok? ==> NulFree(cfg, id) && StartsWith(r.value, RootPrefix(cfg)) && |r.value| > |RootPrefix(cfg)|
    ensures r.Err? ==> r.error == (if NulFree(cfg, id) then InvalidPath else NullCharInPath)
  {
    if !NulFree(cfg, id) then Err(NullCharInPath)
    else
      var normalized := FullPath(cfg.cwd, Candidate(cfg, id));
      var prefix := RootPrefix(cfg);
      if StartsWith(normalized, prefix) && |normalized| > |prefix| then Ok(normalized) else Err(InvalidPath)
  }

  /** The normalised candidate: the root itself when the id has no nonempty part,
      otherwise the root's levels followed by the id's levels. */
  lemma CandidateFullPath(cfg: FsConfig, id: string)
    requires cfg.root != ""
    ensures RemoveEmpty(SafeParts(id)) == [] ==> FullPath(cfg.cwd, Candidate(cfg, id)) == RootFullPath(cfg)
    ensures RemoveEmpty(SafeParts(id)) != [] ==>
      FullPath(cfg.cwd, Candidate(cfg, id)) == Render(RootStack(cfg.cwd, cfg.root) + Levels(id), false)
  {
    var parts := SafeParts(id);
    SafePartsHarmless(id);
    assert ([cfg.root] + parts)[0] == cfg.root;
    assert ([cfg.root] + parts)[1..] == parts;
    assert Candidate(cfg, id) == Combine(cfg.root, parts);
    CombineAttach(cfg.root, parts);
    var ne := RemoveEmpty(parts);
    KeptRemoveEmpty(parts);
    if ne != [] {
      AbsoluteAttach(cfg.cwd, cfg.root, ne);
      ResolveAttach(Absolute(cfg.cwd, cfg.root), ne);
    }
  }

  /** The normalised root and the corrected prefix, in terms of the root's levels. */
  lemma RootPaths(cfg: FsConfig)
    ensures RootPrefix(cfg) == Dir(RootStack(cfg.cwd, cfg.root))
    ensures EndsWithSlash(RootFullPath(cfg)) ==> RootFullPath(cfg) == Dir(RootStack(cfg.cwd, cfg.root))
    ensures !EndsWithSlash(RootFullPath(cfg)) ==> RootFullPath(cfg) + "/" == Dir(RootStack(cfg.cwd, cfg.root))
  {
    var stack := RootStack(cfg.cwd, cfg.root);
    var trailing := EndsWithSlash(Absolute(cfg.cwd, cfg.root));
    assert RootFullPath(cfg) == Render(stack, trailing);
    RenderDir(stack, trailing);
  }

  /** The normalised candidate is the root's directory followed by the id's levels,
      or, when the id names no level, no longer than the normalised root. */
  lemma CandidateBelowRoot(cfg: FsConfig, id: string)
    requires cfg.root != ""
    ensures Levels(id) != [] ==>
      FullPath(cfg.cwd, Candidate(cfg, id)) == Dir(RootStack(cfg.cwd, cfg.root)) + Join(Levels(id), '/')
    ensures Levels(id) == [] ==>
      |FullPath(cfg.cwd, Candidate(cfg, id))| <= |RootFullPath(cfg)| <= |Dir(RootStack(cfg.cwd, cfg.root))|
  {
    var stack := RootStack(cfg.cwd, cfg.root);
    var trailing := EndsWithSlash(Absolute(cfg.cwd, cfg.root));
    assert RootFullPath(cfg) == Render(stack, trailing);
    RenderDir(stack, trailing);
    RenderDir(stack, false);
    CandidateFullPath(cfg, id);
    var levels := Levels(id);
    if levels != [] {
      RenderBelow(stack, levels);
    } else if RemoveEmpty(SafeParts(id)) != [] {
      assert stack + levels == stack;
    }
  }

  /** An id is mapped exactly when neither it nor the root holds U+0000 and it names
      at least one level, and then to the root prefix followed by those levels. */
  lemma MapPathResult(cfg: FsConfig, id: string)
    requires cfg.root != ""
    ensures MapPath(cfg, id) ==
      if !NulFree(cfg, id) then Err(NullCharInPath)
      else if Levels(id) == [] then Err(InvalidPath)
      else Ok(RootPrefix(cfg) + Join(Levels(id), '/'))
  {
    var levels := Levels(id);
    var n := FullPath(cfg.cwd, Candidate(cfg, id));
    var prefix := RootPrefix(cfg);
    RootPaths(cfg);
    CandidateBelowRoot(cfg, id);
    if levels != [] {
      JoinFirstChar(levels, '/');
      assert n == prefix + Join(levels, '/');
      assert StartsWith(n, prefix) && |n| > |prefix|;
    } else {
      assert |n| <= |prefix|;
    }
  }

  /** The as-written check accepts exactly when neither the id nor the root holds
      U+0000, the id names a level and the normalised root does not end with a
      separator; when it accepts, it agrees with `MapPath`. */
  lemma MapPathAsWrittenResult(cfg: FsConfig, id: string)
    requires cfg.root != ""
    ensures MapPathAsWritten(cfg, id).Ok? <==>
      NulFree(cfg, id) && Levels(id) != [] && !EndsWithSlash(RootFullPath(cfg))
    ensures MapPathAsWritten(cfg, id).Ok? ==> MapPathAsWritten(cfg, id) == MapPath(cfg, id)
  {
    var levels := Levels(id);
    var n := FullPath(cfg.cwd, Candidate(cfg, id));
    var rootFull := RootFullPath(cfg);
    var dir := Dir(RootStack(cfg.cwd, cfg.root));
    RootPaths(cfg);
    CandidateBelowRoot(cfg, id);
    MapPathResult(cfg, id);
    if levels != [] {
      JoinFirstChar(levels, '/');
      if EndsWithSlash(rootFull) {
        assert levels[0][0] in levels[0];
        assert n[|dir|] != (rootFull + "/")[|dir|];
        assert !StartsWith(n, rootFull + "/");
      } else {
        assert StartsWith(n, rootFull + "/");
      }
    } else {
      assert |n| < |rootFull + "/"|;
    }
  }

  lemma LevelsOfSingleName()
    ensures Levels("a") == ["a"]
  {
    assert Segments("a") == ["a"] by {
      assert Join(["a"], '/') == "a";
      SegmentsOfJoin(["a"]);
    }
    assert StripParentTokens("a") == "a";
    assert SafeParts("a") == ["a"];
  }

  lemma FileSystemRoot()
    ensures RootFullPath(FsConfig("/", "/")) == "/"
  {
    assert Absolute("/", "/") == "/";
    assert Split("/", '/') == ["", ""] by {
      assert "/" == "" + "/" + "";
      SplitAround("", '/', "");
    }
    assert RootStack("/", "/") == [];
  }

  lemma DataRootSplit()
    ensures Split("/data/", '/') == ["", "data", ""]
  {
    assert "/data/" == "" + "/" + "data/";
    SplitAround("", '/', "data/");
    assert "data/" == "data" + "/" + "";
    SplitAfterPiece("data", '/', "");
  }

  lemma DataRootStack()
    ensures RootStack("/", "/data/") == ["data"]
  {
    assert Absolute("/", "/data/") == "/data/";
    DataRootSplit();
    ResolveDataSegments();
  }

  lemma ResolveDataSegments()
    ensures Resolve([], ["", "data", ""]) == ["data"]
  {
    var segs := ["", "data", ""];
    assert segs[1..] == ["data", ""] && segs[1..][1..] == [""];
    assert Resolve([], segs) == Resolve([], ["data", ""]);
    assert Resolve([], ["data", ""]) == Resolve(["data"], [""]);
  }

  lemma RootWithTrailingSeparator()
    ensures RootFullPath(FsConfig("/data/", "/")) == "/data/"
  {
    DataRootStack();
    assert Absolute("/", "/data/") == "/data/";
    assert EndsWithSlash("/data/");
    assert RootFullPath(FsConfig("/data/", "/")) == Render(["data"], true);
    assert Join(["data"], '/') == "data";
  }

  /** With the filesystem root `/` the as-written check rejects every id, where the
      corrected check accepts. */
  lemma SlashRootRejectsAll()
    ensures MapPathAsWritten(FsConfig("/", "/"), "a") == Err(InvalidPath)
    ensures MapPath(FsConfig("/", "/"), "a") == Ok("/a")
  {
    var cfg := FsConfig("/", "/");
    LevelsOfSingleName();
    FileSystemRoot();
    assert RootPrefix(cfg) == "/" by {
      assert TrimEnd("/", '/') == "";
    }
    assert RootPrefix(cfg) + Join(Levels("a"), '/') == "/a" by {
      assert Join(["a"], '/') == "a";
    }
    MapPathAsWrittenResult(cfg, "a");
    MapPathResult(cfg, "a");
  }

  /** A root written with a trailing `/` makes the as-written check reject every id,
      where the corrected check accepts. */
  lemma TrailingSeparatorRootRejectsAll()
    ensures MapPathAsWritten(FsConfig("/data/", "/"), "a") == Err(InvalidPath)
    ensures MapPath(FsConfig("/data/", "/"), "a") == Ok("/data/a")
  {
    DataRootAsWritten();
    DataRootCorrected("/data/", "a");
  }

  lemma DataRootAsWritten()
    ensures MapPathAsWritten(FsConfig("/data/", "/"), "a") == Err(InvalidPath)
  {
    var cfg := FsConfig("/data/", "/");
    assert NulFree(cfg, "a");
    RootWithTrailingSeparator();
    MapPathAsWrittenResult(cfg, "a");
  }

  lemma DataRootCorrected(root: string, id: string)
    requires root == "/data/" && id == "a"
    ensures MapPath(FsConfig(root, "/"), id) == Ok("/data/a")
  {
    DataRootConfig(root);
    SingleNameId(id);
    assert "/data/" + "a" == "/data/a";
    MapPathOfOneLevel(FsConfig(root, "/"), id, "a", "/data/", "/data/a");
  }

  lemma DataRootConfig(root: string)
    requires root == "/data/"
    ensures root != "" && '\0' !in root && RootPrefix(FsConfig(root, "/")) == "/data/"
  {
    DataRootPrefix();
  }

  lemma SingleNameId(id: string)
    requires id == "a"
    ensures '\0' !in id && Levels(id) == ["a"]
  {
    LevelsOfSingleName();
  }

  /** An id with a single level maps to the root prefix followed by that level. */
  lemma MapPathOfOneLevel(cfg: FsConfig, id: string, name: string, prefix: string, path: string)
    requires cfg.root != "" && NulFree(cfg, id) && Levels(id) == [name] && RootPrefix(cfg) == prefix
    requires path == prefix + name
    ensures MapPath(cfg, id) == Ok(path)
  {
    MapPathResult(cfg, id);
    assert Join([name], '/') == name;
  }

  lemma DataRootPrefix()
    ensures RootPrefix(FsConfig("/data/", "/")) == "/data/"
  {
    RootWithTrailingSeparator();
    assert "/data/"[..5] == "/data";
    assert TrimEnd("/data/", '/') == TrimEnd("/data", '/') == "/data";
  }

  // ---------------------------------------------------------------------------
  // The four operations over the disk
  // ---------------------------------------------------------------------------

  /** Which containment check the operations make: the source's (`MapPathAsWritten`)
      or the corrected one (`MapPath`). */
  datatype RootCheck = AsWritten | Corrected

  /** Whether `check` lets any id through under this root: the as-written check
      refuses every id when the normalised root ends with a separator. */
  predicate RootAccepted(check: RootCheck, cfg: FsConfig) {
    check == Corrected || !EndsWithSlash(RootFullPath(cfg))
  }

  /** The path `MapPath` hands to the file operations, under either check. */
  function Locate(check: RootCheck, cfg: FsConfig, id: string): (r: Result<string>)
    requires cfg.root != ""
    ensures r.Ok? <==> NulFree(cfg, id) && Levels(id) != [] && RootAccepted(check, cfg)
    ensures r.Ok? ==> r.value == RootPrefix(cfg) + Join(Levels(id), '/')
    ensures r.Err? ==> r.error == (if NulFree(cfg, id) then InvalidPath else NullCharInPath)
  {
    MapPathResult(cfg, id);
    MapPathAsWrittenResult(cfg, id);
    match check
    case AsWritten => MapPathAsWritten(cfg, id)
    case Corrected => MapPath(cfg, id)
  }

  /** The files under the root, by full path. */
  type Disk = map<string, seq<byte>>

  /** `ExistsAsync`: whether a file is at the mapped path. */
  function Exists(check: RootCheck, cfg: FsConfig, disk: Disk, id: string): (r: Result<bool>)
    requires cfg.root != ""
    ensures r.Err? <==> Locate(check, cfg, id).Err?
    ensures r.Ok? ==> (r.value <==> Locate(check, cfg, id).value in disk)
  {
    var path :- Locate(check, cfg, id);
    Ok(path in disk)
  }

  /** `GetAsync`: the file's bytes, or `ContentNotFound` when there is no file. */
  function Get(check: RootCheck, cfg: FsConfig, disk: Disk, id: string): (r: Result<seq<byte>>)
    requires cfg.root != ""
    ensures r.Ok? <==> Locate(check, cfg, id).Ok? && Locate(check, cfg, id).value in disk
    ensures r.Ok? ==> r.value == disk[Locate(check, cfg, id).value]
    ensures Locate(check, cfg, id).Err? ==> r == Err(Locate(check, cfg, id).error)
    ensures Locate(check, cfg, id).Ok? && Locate(check, cfg, id).value !in disk ==> r == Err(ContentNotFound)
  {
    var path :- Locate(check, cfg, id);
    if path in disk then Ok(disk[path]) else Err(ContentNotFound)
  }

  /** `SaveAsync`: writes the file, replacing any earlier contents. */
  function Save(check: RootCheck, cfg: FsConfig, disk: Disk, id: string, data: seq<byte>): (r: Result<Disk>)
    requires cfg.root != ""
    ensures r.Ok? <==> Locate(check, cfg, id).Ok?
    ensures r.Ok? ==> r.value.Keys == disk.Keys + {Locate(check, cfg, id).value}
  {
    var path :- Locate(check, cfg, id);
    Ok(disk[path := data])
  }

  /** `DeleteAsync`: removes the file if there is one. */
  function Delete(check: RootCheck, cfg: FsConfig, disk: Disk, id: string): (r: Result<Disk>)
    requires cfg.root != ""
    ensures r.Ok? <==> Locate(check, cfg, id).Ok?
    ensures r.Ok? ==> r.value.Keys == disk.Keys - {Locate(check, cfg, id).value}
  {
    var path :- Locate(check, cfg, id);
    RemoveKeys(disk, path);
    Ok(if path in disk then disk - {path} else disk)
  }

  /** Removing a path, present or not, takes exactly that path out of the files. */
  lemma RemoveKeys(disk: Disk, path: string)
    ensures (if path in disk then disk - {path} else disk).Keys == disk.Keys - {path}
  {
    if path !in disk {
      assert disk.Keys == disk.Keys - {path};
    }
  }

  /** An id naming no level (such as "", "/" or "..") fails every operation and
      leaves the files as they were: with an invalid-path error, or with the
      `ArgumentException` when the root holds U+0000. */
  lemma NoLevelsRejected(check: RootCheck, cfg: FsConfig, disk: Disk, id: string, data: seq<byte>)
    requires cfg.root != ""
    requires Levels(id) == []
    ensures var e := if '\0' in cfg.root then NullCharInPath else InvalidPath;
      && Exists(check, cfg, disk, id) == Err(e)
      && Get(check, cfg, disk, id) == Err(e)
      && Save(check, cfg, disk, id, data) == Err(e)
      && Delete(check, cfg, disk, id) == Err(e)
  {
    LevelsHas(id, '\0');
  }

  /** An id holding U+0000 fails every operation with the `ArgumentException` of
      `Path.GetFullPath` and leaves the files as they were, under any root; so
      `a\0b` under `/data` is refused where `ab` is saved. */
  lemma NullCharRejected(check: RootCheck, cfg: FsConfig, disk: Disk, id: string, data: seq<byte>)
    requires cfg.root != "" && '\0' in id
    ensures Exists(check, cfg, disk, id) == Err(NullCharInPath)
    ensures Get(check, cfg, disk, id) == Err(NullCharInPath)
    ensures Save(check, cfg, disk, id, data) == Err(NullCharInPath)
    ensures Delete(check, cfg, disk, id) == Err(NullCharInPath)
    ensures Save(check, FsConfig("/data", "/"), disk, "a\0b", data) == Err(NullCharInPath)
  {
    assert !NulFree(cfg, id);
    assert !NulFree(FsConfig("/data", "/"), "a\0b") by {
      assert "a\0b"[1] == '\0';
    }
  }

  /** The as-written check makes every operation fail under the root `/data/`, where
      the corrected check saves. */
  lemma TrailingSeparatorRootFailsAll(disk: Disk, data: seq<byte>)
    ensures Save(AsWritten, FsConfig("/data/", "/"), disk, "a", data) == Err(InvalidPath)
    ensures Get(AsWritten, FsConfig("/data/", "/"), disk, "a") == Err(InvalidPath)
    ensures Exists(AsWritten, FsConfig("/data/", "/"), disk, "a") == Err(InvalidPath)
    ensures Delete(AsWritten, FsConfig("/data/", "/"), disk, "a") == Err(InvalidPath)
    ensures Save(Corrected, FsConfig("/data/", "/"), disk, "a", data) == Ok(disk["/data/a" := data])
  {
    TrailingSeparatorRootRejectsAll();
  }

  /** A save succeeds exactly when the check accepts the root and neither the root nor
      the id holds U+0000; after it, the file exists and reads back as the saved bytes. */
  lemma SaveThenGet(check: RootCheck, cfg: FsConfig, disk: Disk, id: string, data: seq<byte>)
    requires cfg.root != ""
    requires Levels(id) != []
    ensures Save(check, cfg, disk, id, data).Ok? <==> RootAccepted(check, cfg) && NulFree(cfg, id)
    ensures Save(check, cfg, disk, id, data).Ok? ==>
      && Get(check, cfg, Save(check, cfg, disk, id, data).value, id) == Ok(data)
      && Exists(check, cfg, Save(check, cfg, disk, id, data).value, id) == Ok(true)
  {
  }

  /** Ids with the same levels address the same file. */
  lemma SameLevelsSamePath(check: RootCheck, cfg: FsConfig, x: string, y: string)
    requires cfg.root != ""
    requires Levels(x) == Levels(y)
    ensures Locate(check, cfg, x) == Locate(check, cfg, y)
  {
    LevelsHas(x, '\0');
    LevelsHas(y, '\0');
    assert NulFree(cfg, x) <==> NulFree(cfg, y);
  }

  /** A save leaves every file at another path as it was. */
  lemma SaveKeepsOthers(check: RootCheck, cfg: FsConfig, disk: Disk, id: string, data: seq<byte>, other: string)
    requires cfg.root != ""
    requires Levels(id) != [] && Levels(other) != Levels(id)
    ensures Save(check, cfg, disk, id, data).Ok? <==> RootAccepted(check, cfg) && NulFree(cfg, id)
    ensures Save(check, cfg, disk, id, data).Ok? ==>
      Get(check, cfg, Save(check, cfg, disk, id, data).value, other) == Get(check, cfg, disk, other)
  {
    if Save(check, cfg, disk, id, data).Ok? && Locate(check, cfg, other).Ok? {
      LocateDistinct(check, cfg, id, other);
    }
  }

  /** Ids with different levels are located at different paths. */
  lemma LocateDistinct(check: RootCheck, cfg: FsConfig, id: string, other: string)
    requires cfg.root != "" && RootAccepted(check, cfg) && NulFree(cfg, id) && NulFree(cfg, other)
    requires Levels(id) != [] && Levels(other) != [] && Levels(other) != Levels(id)
    ensures Locate(check, cfg, other).Ok? && Locate(check, cfg, id).Ok?
    ensures Locate(check, cfg, other).value != Locate(check, cfg, id).value
  {
    var levelsId, levelsOther := Levels(id), Levels(other);
    var prefix := RootPrefix(cfg);
    if prefix + Join(levelsOther, '/') == prefix + Join(levelsId, '/') {
      assert Join(levelsOther, '/') == (prefix + Join(levelsOther, '/'))[|prefix|..];
      JoinSplitNames(levelsId);
      JoinSplitNames(levelsOther);
    }
  }

  lemma JoinSplitNames(levels: seq<string>)
    requires |levels| >= 1
    requires forall i :: 0 <= i < |levels| ==> IsName(levels[i])
    ensures Split(Join(levels, '/'), '/') == levels
  {
    SplitJoin(levels, '/');
  }

  /** Reading or probing an id whose file is absent: `ContentNotFound`, and `false`. */
  lemma GetAbsent(check: RootCheck, cfg: FsConfig, disk: Disk, id: string)
    requires cfg.root != ""
    requires Locate(check, cfg, id).Ok? && Locate(check, cfg, id).value !in disk
    ensures Get(check, cfg, disk, id) == Err(ContentNotFound)
    ensures Exists(check, cfg, disk, id) == Ok(false)
  {
  }

  /** Delete succeeds exactly when the check accepts the root and neither the root nor
      the id holds U+0000; deleting an absent file changes nothing, and afterwards the
      file does not exist. */
  lemma DeleteSemantics(check: RootCheck, cfg: FsConfig, disk: Disk, id: string)
    requires cfg.root != ""
    requires Levels(id) != []
    ensures Delete(check, cfg, disk, id).Ok? <==> RootAccepted(check, cfg) && NulFree(cfg, id)
    ensures Exists(check, cfg, disk, id) == Ok(false) ==> Delete(check, cfg, disk, id) == Ok(disk)
    ensures Delete(check, cfg, disk, id).Ok? ==>
      && Exists(check, cfg, Delete(check, cfg, disk, id).value, id) == Ok(false)
      && Delete(check, cfg, Delete(check, cfg, disk, id).value, id) == Delete(check, cfg, disk, id)
  {
  }

  /** `a\b`, `a//b` and `a/b` are the same blob: saving under either spelling is
      saving `a/b`, and it reads back under `a/b`. */
  lemma SeparatorsAlias(check: RootCheck, cfg: FsConfig, disk: Disk, a: string, b: string, data: seq<byte>)
    requires cfg.root != ""
    requires Levels(a + "/" + b) != []
    ensures Save(check, cfg, disk, a + "\\" + b, data) == Save(check, cfg, disk, a + "/" + b, data)
    ensures Save(check, cfg, disk, a + "//" + b, data) == Save(check, cfg, disk, a + "/" + b, data)
    ensures Save(check, cfg, disk, a + "/" + b, data).Ok? <==> RootAccepted(check, cfg) && NulFree(cfg, a + "/" + b)
    ensures Save(check, cfg, disk, a + "\\" + b, data).Ok? ==>
      Get(check, cfg, Save(check, cfg, disk, a + "\\" + b, data).value, a + "/" + b) == Ok(data)
  {
    SeparatorVariants(a, b);
    SameLevelsSamePath(check, cfg, a + "\\" + b, a + "/" + b);
    SameLevelsSamePath(check, cfg, a + "//" + b, a + "/" + b);
    SaveThenGet(check, cfg, disk, a + "/" + b, data);
  }
}

=== FILE: ftp_storage.dfy ===
/** The FTP backend: every operation sends one FTP request to
    `{host}/{EscapeKey(id)}` and reads the reply.

    The FTP exchange itself is I/O. A reply is given to the model as data:
    `Completed` for a reply the client accepts, `Failed` for the exception it
    raises, carrying the server's status code when there is one. `FtpServer`
    is a reference model of the server side — files by path, answering STOR,
    RETR, SIZE and DELE with the reply codes of RFC 959 and RFC 3659 — and
    the lemmas at the bottom state what the four operations achieve against it. */
module FtpStorage {
  import opened Bytes
  import opened Outcomes
  import opened Strings
  import opened PercentEncoding
  import opened IdSegments
  import opened DotSegments
  import Sequences
  import Utf8

  /** The constructor arguments. The credentials only authenticate the requests. */
  datatype FtpConfig = FtpConfig(host: string, username: string, password: string)

  /** `_host`: the configured host with every trailing `/` removed. */
  function Host(cfg: FtpConfig): (h: string)
    ensures h <= cfg.host
    ensures h == [] || h[|h| - 1] != '/'
    ensures forall i :: |h| <= i < |cfg.host| ==> cfg.host[i] == '/'
  {
    TrimEnd(cfg.host, '/')
  }

  /** `EscapeKey`: the id's segments, each percent-encoded, joined with `/`. */
  function EscapeKey(id: string): string {
    Join(EscapeAll(Segments(id)), '/')
  }

  /** The request URL of every operation. */
  function RequestUrl(cfg: FtpConfig, id: string): (url: string)
    ensures |url| > |Host(cfg)| && url[..|Host(cfg)|] == Host(cfg) && url[|Host(cfg)|] == '/'
    ensures url[|Host(cfg)| + 1..] == EscapeKey(id)
  {
    var url := Host(cfg) + "/" + EscapeKey(id);
    assert url[|Host(cfg)| + 1..] == EscapeKey(id);
    url
  }

  lemma EscapedSegments(segs: seq<string>)
    requires forall i :: 0 <= i < |segs| ==> IsSegment(segs[i])
    ensures forall i :: 0 <= i < |segs| ==> IsSegment(EscapeAll(segs)[i])
  {
    forall i | 0 <= i < |segs| ensures IsSegment(EscapeAll(segs)[i]) {
      EscapeHasNoDelimiters(segs[i]);
    }
  }

  /** The key's segments are the id's segments, escaped: an id with no segment
      gives the empty key, and otherwise the slashes of the key are exactly the
      boundaries between the id's segments. */
  lemma EscapeKeySegments(id: string)
    ensures Segments(id) == [] <==> EscapeKey(id) == ""
    ensures Segments(id) != [] ==> Split(EscapeKey(id), '/') == EscapeAll(Segments(id))
  {
    var segs := Segments(id);
    EscapedSegments(segs);
    if segs != [] {
      SplitJoin(EscapeAll(segs), '/');
      var first := EscapeAll(segs)[0];
      assert |first| >= 1;
      JoinFirstIsLong(EscapeAll(segs));
    }
  }

  lemma JoinFirstIsLong(parts: seq<string>)
    requires |parts| >= 1 && parts[0] != []
    ensures Join(parts, '/') != []
  {
  }

  /** The key has no empty segment: it neither starts nor ends with `/` and never
      holds two in a row. */
  lemma EscapeKeyHasNoEmptySegment(id: string)
    ensures forall i :: 0 <= i < |Split(EscapeKey(id), '/')| ==>
      Split(EscapeKey(id), '/')[i] != [] || EscapeKey(id) == []
    ensures EscapeKey(id) != [] ==> EscapeKey(id)[0] != '/' && EscapeKey(id)[|EscapeKey(id)| - 1] != '/'
  {
    var segs := Segments(id);
    EscapeKeySegments(id);
    EscapedSegments(segs);
    if segs != [] {
      var key := EscapeKey(id);
      var pieces := Split(key, '/');
      JoinSplit(key, '/');
      SplitEnds(key);
    }
  }

  /** A string whose pieces are all nonempty starts and ends with a piece. */
  lemma SplitEnds(s: string)
    requires forall i :: 0 <= i < |Split(s, '/')| ==> Split(s, '/')[i] != []
    ensures s != [] && s[0] != '/' && s[|s| - 1] != '/'
  {
    var pieces := Split(s, '/');
    JoinSplit(s, '/');
    var first, last := pieces[0], pieces[|pieces| - 1];
    assert first[0] in first;
    assert last[|last| - 1] in last;
    JoinFirstIsLong(pieces);
    assert s[0] == first[0];
    JoinLast(pieces);
  }

  lemma {:induction false} JoinLast(parts: seq<string>)
    requires |parts| >= 1 && parts[|parts| - 1] != []
    ensures |Join(parts, '/')| >= 1
    ensures Join(parts, '/')[|Join(parts, '/')| - 1] == parts[|parts| - 1][|parts[|parts| - 1]| - 1]
    decreases |parts|
  {
    if |parts| > 1 {
      JoinLast(parts[1..]);
    }
  }

  /** The key decodes back to the id's segments. */
  lemma DecodeEscapeKey(id: string)
    requires Segments(id) != []
    ensures UnescapeAll(Split(EscapeKey(id), '/')) == Some(Segments(id))
  {
    EscapeKeySegments(id);
    UnescapeAllEscapeAll(Segments(id));
  }

  /** Two ids get the same key exactly when they have the same segments. */
  lemma EscapeKeySameIff(x: string, y: string)
    ensures EscapeKey(x) == EscapeKey(y) <==> Segments(x) == Segments(y)
  {
    if EscapeKey(x) == EscapeKey(y) {
      EscapeKeySegments(x);
      EscapeKeySegments(y);
      if Segments(x) != [] && Segments(y) != [] {
        DecodeEscapeKey(x);
        DecodeEscapeKey(y);
      }
    }
  }

  /** Ids that differ only in `\` against `/`, or in a doubled separator, get the same key. */
  lemma EscapeKeySeparatorVariants(a: string, b: string)
    ensures EscapeKey(a + "\\" + b) == EscapeKey(a + "/" + b)
    ensures EscapeKey(a + "//" + b) == EscapeKey(a + "/" + b)
  {
    SeparatorVariants(a, b);
  }

  // ---------------------------------------------------------------------------
  // Replies
  // ---------------------------------------------------------------------------

  /** `FtpStatusCode.FileStatus`, the positive answer to SIZE. */
  const FileStatus: int := 213
  /** `FtpStatusCode.ActionNotTakenFileUnavailable`. */
  const ActionNotTakenFileUnavailable: int := 550

  /** What `GetResponseAsync` does: return a response, or throw a `WebException`
      that carries the server's status when the server answered. */
  datatype FtpReply = Completed(status: int, body: seq<byte>) | Failed(code: Option<int>)

  /** `ExistsAsync`: true on FileStatus, false on a 550 failure, every other failure propagated. */
  function ExistsReply(reply: FtpReply): (r: Result<bool>)
    ensures r == Ok(true) <==> reply.Completed? && reply.status == FileStatus
    ensures r == Ok(false) <==>
      (reply.Completed? && reply.status != FileStatus) || reply == Failed(Some(ActionNotTakenFileUnavailable))
    ensures r.Err? ==> reply.Failed? && r.error == FtpFailure(reply.code)
  {
    match reply
    case Completed(status, _) => Ok(status == FileStatus)
    case Failed(Some(status)) =>
      if status == ActionNotTakenFileUnavailable then Ok(false) else Err(FtpFailure(Some(status)))
    case Failed(None) => Err(FtpFailure(None))
  }

  /** Save and Delete: any completed reply is success, any failure propagates. */
  function ActionReply(reply: FtpReply): (r: Result<Unit>)
    ensures r.Ok? <==> reply.Completed?
    ensures r.Err? ==> r.error == FtpFailure(reply.code)
  {
    match reply
    case Completed(_, _) => Ok(Unit)
    case Failed(status) => Err(FtpFailure(status))
  }

  /** Get: the downloaded bytes, or the failure. */
  function DownloadReply(reply: FtpReply): (r: Result<seq<byte>>)
    ensures r.Ok? <==> reply.Completed?
    ensures r.Ok? ==> r.value == reply.body
    ensures r.Err? ==> r.error == FtpFailure(reply.code)
  {
    match reply
    case Completed(_, body) => Ok(body)
    case Failed(status) => Err(FtpFailure(status))
  }

  // ---------------------------------------------------------------------------
  // The path the server sees
  // ---------------------------------------------------------------------------

  /** The request path below the host, percent-encoded as the URI holds it, once
      `System.Uri` has removed its dot segments. The host is taken to name the server
      root. The server is asked for its decoding, `FileName`; the reference server
      keys its files by this path, which `FileNameSameIff` shows loses nothing. */
  function ServerPath(id: string): (p: string)
    ensures DotFree(Segments(id)) ==> p == EscapeKey(id)
  {
    var key := EscapeKey(id);
    DotFreeKeyKept(id);
    RemoveDotSegments("/" + key)[1..]
  }

  lemma DotFreeKeyKept(id: string)
    ensures DotFree(Segments(id)) ==> RemoveDotSegments("/" + EscapeKey(id))[1..] == EscapeKey(id)
  {
    var key := EscapeKey(id);
    assert ("/" + key)[1..] == key;
    if DotFree(Segments(id)) {
      KeyDotFree(id);
    }
  }

  /** The key of an id without dot segments has none either. */
  lemma KeyDotFree(id: string)
    requires DotFree(Segments(id))
    ensures DotFree(Split(EscapeKey(id), '/'))
  {
    EscapeKeySegments(id);
    if Segments(id) != [] {
      forall i | 0 <= i < |Segments(id)| ensures !IsDot(EscapeAll(Segments(id))[i]) {
        EscapeKeepsDots(Segments(id)[i]);
      }
    } else {
      assert Split("", '/') == [""];
    }
  }

  /** The name the server is asked for: `FtpWebRequest` sends the URI's path
      percent-decoded, so the id `a b` asks for the file `a b`, not `a%20b`. `None`
      when the path does not decode to UTF-8 text. */
  function FileName(p: string): Option<string> {
    Unescape(p)
  }

  /** Decoding escaped pieces joined with `/` gives the UTF-8 bytes of the pieces
      joined with `/`. */
  lemma {:induction false} UnescapeJoined(parts: seq<string>)
    ensures UnescapeBytes(Join(EscapeAll(parts), '/')) == Utf8.Encode(Join(parts, '/'))
    decreases |parts|
  {
    if |parts| == 1 {
      EscapeDecodes(parts[0]);
    } else if |parts| > 1 {
      UnescapeJoined(parts[1..]);
      Sequences.HeadTail(parts);
      UnescapeJoinedCons(parts[0], parts[1..]);
    }
  }

  /** One step of `UnescapeJoined`: a piece in front of pieces whose join decodes. */
  lemma UnescapeJoinedCons(h: string, t: seq<string>)
    requires |t| >= 1
    requires UnescapeBytes(Join(EscapeAll(t), '/')) == Utf8.Encode(Join(t, '/'))
    ensures UnescapeBytes(Join(EscapeAll([h] + t), '/')) == Utf8.Encode(Join([h] + t, '/'))
  {
    EscapeAllCons(h, t);
    JoinCons(Escape(h), EscapeAll(t), '/');
    JoinCons(h, t, '/');
    UnescapeJoinedStep(h, Join(EscapeAll([h] + t), '/'), Join(EscapeAll(t), '/'), Join(t, '/'));
    Sequences.AppendAssoc(h, "/", Join(t, '/'));
  }

  /** The bytes of one step: an escaped piece, `/`, and a rest that decodes. */
  lemma UnescapeJoinedStep(h: string, key: string, tail: string, name: string)
    requires key == Escape(h) + "/" + tail
    requires UnescapeBytes(tail) == Utf8.Encode(name)
    ensures UnescapeBytes(key) == Utf8.Encode(h + ("/" + name))
  {
    Sequences.AppendAssoc(Escape(h), "/", tail);
    UnescapeAfterEscape(h, "/" + tail);
    SlashBytes(tail, name);
    Utf8.EncodeAppend(h, "/" + name);
  }

  /** A leading `/` decodes, and encodes, to the one byte 0x2F. */
  lemma SlashBytes(r: string, u: string)
    requires UnescapeBytes(r) == Utf8.Encode(u)
    ensures UnescapeBytes("/" + r) == Utf8.Encode("/" + u)
  {
    assert ("/" + r)[0] == '/' && ("/" + r)[1..] == r;
    assert ("/" + u)[0] == '/' && ("/" + u)[1..] == u;
  }

  /** For an id without dot segments the server is asked for the id's segments joined
      with `/`: the key's escaping is undone before the name is sent. */
  lemma FileNameOfServerPath(id: string)
    requires DotFree(Segments(id))
    ensures FileName(ServerPath(id)) == Some(Join(Segments(id), '/'))
  {
    UnescapeJoined(Segments(id));
    Utf8.DecodeEncode(Join(Segments(id), '/'));
  }

  /** For ids without dot segments, the server is asked for the same name exactly when
      the ids have the same segments, which is exactly when they have the same request
      path: keying the reference server's files by the request path loses nothing. */
  lemma FileNameSameIff(x: string, y: string)
    requires DotFree(Segments(x)) && DotFree(Segments(y))
    ensures FileName(ServerPath(x)) == FileName(ServerPath(y)) <==> Segments(x) == Segments(y)
    ensures FileName(ServerPath(x)) == FileName(ServerPath(y)) <==> ServerPath(x) == ServerPath(y)
  {
    FileNameOfServerPath(x);
    FileNameOfServerPath(y);
    ServerPathSameIff(x, y);
    if Join(Segments(x), '/') == Join(Segments(y), '/') {
      JoinedSegments(Segments(x));
      JoinedSegments(Segments(y));
    }
  }

  /** Segments joined with `/` split back into themselves, and join to the empty string
      only when there are none. */
  lemma JoinedSegments(segs: seq<string>)
    requires forall i :: 0 <= i < |segs| ==> IsSegment(segs[i])
    ensures segs == [] <==> Join(segs, '/') == ""
    ensures segs != [] ==> Split(Join(segs, '/'), '/') == segs
  {
    if segs != [] {
      JoinFirstIsLong(segs);
      SplitJoin(segs, '/');
    }
  }

  /** The pieces of the server path are the key's pieces with the dot segments removed. */
  lemma ServerPathPieces(id: string)
    ensures Split(ServerPath(id), '/') == RemoveDots(Split(EscapeKey(id), '/'))
  {
    var key := EscapeKey(id);
    assert ("/" + key)[1..] == key;
    RemoveDotSegmentsPieces("/" + key);
  }

  /** A path that names a file: not the empty path and not ending in `/`. */
  predicate IsFilePath(p: string) {
    p != "" && p[|p| - 1] != '/'
  }

  /** An id whose segments are free of dot segments names a file exactly when it has a
      segment. */
  lemma DotFreeNamesFile(id: string)
    requires DotFree(Segments(id))
    ensures IsFilePath(ServerPath(id)) <==> Segments(id) != []
  {
    EscapeKeySegments(id);
    EscapeKeyHasNoEmptySegment(id);
  }

  /** For ids without dot segments, two ids reach the same file exactly when they have
      the same segments. */
  lemma ServerPathSameIff(x: string, y: string)
    requires DotFree(Segments(x)) && DotFree(Segments(y))
    ensures ServerPath(x) == ServerPath(y) <==> Segments(x) == Segments(y)
  {
    EscapeKeySameIff(x, y);
  }

  /** Dot segments alias: the id `x/../rest` reaches the file of `rest`. */
  lemma DotSegmentsAlias(x: string, rest: string)
    requires IsSegment(x) && !IsDot(x) && Segments(rest) != []
    ensures ServerPath(x + "/../" + rest) == ServerPath(rest)
  {
    var id := x + "/../" + rest;
    ParentSegments(x, rest);
    EscapeKeepsDots(x);
    var tail := EscapeAll(Segments(rest));
    KeyPieces(id);
    KeyPieces(rest);
    ParentCancels([], Escape(x), tail);
    ServerPathPieces(id);
    ServerPathPieces(rest);
    JoinSplit(ServerPath(id), '/');
    JoinSplit(ServerPath(rest), '/');
  }

  lemma KeyPieces(id: string)
    requires Segments(id) != []
    ensures Split(EscapeKey(id), '/') == EscapeAll(Segments(id))
  {
    EscapeKeySegments(id);
  }

  /** The segments of `x/../rest`, escaped. */
  lemma ParentSegments(x: string, rest: string)
    requires IsSegment(x)
    ensures EscapeAll(Segments(x + "/../" + rest)) == [Escape(x), ".."] + EscapeAll(Segments(rest))
  {
    ParentSegmentsRaw(x, rest);
    EscapeParentPieces(x, Segments(rest));
  }

  lemma ParentSegmentsRaw(x: string, rest: string)
    requires IsSegment(x)
    ensures Segments(x + "/../" + rest) == [x, ".."] + Segments(rest)
  {
    ParentText(x, rest);
    assert IsSegment("..");
    TwoSegments(x, "..", rest);
  }

  lemma ParentText(x: string, rest: string)
    ensures x + "/../" + rest == x + "/" + (".." + "/" + rest)
  {
  }

  /** Two segments in front of `rest` are its first two segments. */
  lemma TwoSegments(x: string, y: string, rest: string)
    requires IsSegment(x) && IsSegment(y)
    ensures Segments(x + "/" + (y + "/" + rest)) == [x, y] + Segments(rest)
  {
    SegmentsAroundSlash(x, y + "/" + rest);
    SegmentsAroundSlash(y, rest);
    SingleSegment(x);
    SingleSegment(y);
  }

  lemma SingleSegment(s: string)
    requires IsSegment(s)
    ensures Segments(s) == [s]
  {
    assert Join([s], '/') == s;
    SegmentsOfJoin([s]);
  }

  // ---------------------------------------------------------------------------
  // Reference server and the four operations against it
  // ---------------------------------------------------------------------------

  /** The server's files by path below the host, and the directories it holds besides
      its root (the empty path). */
  datatype FtpServer = FtpServer(files: map<string, seq<byte>>, dirs: set<string>)

  /** The FTP commands behind `WebRequestMethods.Ftp.UploadFile`, `DownloadFile`,
      `GetFileSize` and `DeleteFile`. */
  datatype Command = Stor | Retr | Size | Dele

  /** `FtpStatusCode.ActionNotTakenFilenameNotAllowed`, a server's answer to STOR into
      a directory that does not exist. */
  const ActionNotTakenFilenameNotAllowed: int := 553

  /** The directory part of a path: everything before its last `/`, or the root. */
  function DirOf(p: string): (d: string)
    ensures p != "" ==> |d| < |p|
    ensures '/' !in p ==> d == ""
    decreases |p|
  {
    if p == "" then ""
    else if p[|p| - 1] == '/' then p[..|p| - 1]
    else DirOf(p[..|p| - 1])
  }

  /** The directory of `a/b`, for a name `b` without `/`, is `a`. */
  lemma {:induction false} DirOfAppend(a: string, b: string)
    requires '/' !in b
    ensures DirOf(a + "/" + b) == a
    decreases |b|
  {
    var p := a + "/" + b;
    if b == "" {
      assert p[..|p| - 1] == a;
    } else {
      var b' := b[..|b| - 1];
      assert b[|b| - 1] in b;
      assert p[|p| - 1] == b[|b| - 1];
      assert p[..|p| - 1] == a + "/" + b';
      DirOfAppend(a, b');
    }
  }

  /** Whether a directory exists: the root always does. */
  predicate DirExists(server: FtpServer, d: string) {
    d == "" || d in server.dirs
  }

  /** Whether the server accepts a file stored at `p`: its directory exists and `p` is
      not itself a directory. */
  predicate CanStore(server: FtpServer, p: string) {
    DirExists(server, DirOf(p)) && p !in server.dirs
  }

  /** The server's answer to a command on a file path: 226 after a transfer, 213 for a
      size, 250 after a delete, 550 for a file that is not there, 553 for a store into
      a missing directory. The server never creates a directory on its own. */
  function Serve(server: FtpServer, cmd: Command, path: string, body: seq<byte>): (res: (FtpReply, FtpServer))
    ensures res.1.dirs == server.dirs
    ensures cmd == Retr || cmd == Size || res.0.Failed? ==> res.1 == server
    ensures res.0.Completed? <==> if cmd == Stor then CanStore(server, path) else path in server.files
  {
    match cmd
    case Stor =>
      if !DirExists(server, DirOf(path)) then (Failed(Some(ActionNotTakenFilenameNotAllowed)), server)
      else if path in server.dirs then (Failed(Some(ActionNotTakenFileUnavailable)), server)
      else (Completed(226, []), server.(files := server.files[path := body]))
    case Retr =>
      if path in server.files then (Completed(226, server.files[path]), server)
      else (Failed(Some(ActionNotTakenFileUnavailable)), server)
    case Size =>
      if path in server.files then (Completed(FileStatus, []), server)
      else (Failed(Some(ActionNotTakenFileUnavailable)), server)
    case Dele =>
      if path in server.files then (Completed(250, []), server.(files := server.files - {path}))
      else (Failed(Some(ActionNotTakenFileUnavailable)), server)
  }

  /** One request: `FtpWebRequest` refuses a URI whose path has no file name for all
      four commands, with a `WebException` that carries no server reply; otherwise the
      server answers. */
  function Send(server: FtpServer, cmd: Command, path: string, body: seq<byte>): (FtpReply, FtpServer) {
    if !IsFilePath(path) then (Failed(None), server) else Serve(server, cmd, path, body)
  }

  /** An upload to path `p`: the server afterwards, or the failure. */
  function SaveAt(server: FtpServer, p: string, data: seq<byte>): (r: Result<FtpServer>)
    ensures r.Ok? <==> IsFilePath(p) && CanStore(server, p)
    ensures r.Ok? ==> r.value == server.(files := server.files[p := data])
    ensures !IsFilePath(p) ==> r == Err(FtpFailure(None))
    ensures IsFilePath(p) && !DirExists(server, DirOf(p)) ==> r == Err(FtpFailure(Some(ActionNotTakenFilenameNotAllowed)))
  {
    var (reply, next) := Send(server, Stor, p, data);
    var _ :- ActionReply(reply);
    Ok(next)
  }

  function GetAt(server: FtpServer, p: string): (r: Result<seq<byte>>)
    ensures r.Ok? <==> IsFilePath(p) && p in server.files
    ensures r.Ok? ==> r.value == server.files[p]
    ensures !IsFilePath(p) ==> r == Err(FtpFailure(None))
    ensures IsFilePath(p) && p !in server.files ==> r == Err(FtpFailure(Some(ActionNotTakenFileUnavailable)))
  {
    DownloadReply(Send(server, Retr, p, []).0)
  }

  function ExistsAt(server: FtpServer, p: string): (r: Result<bool>)
    ensures r.Ok? <==> IsFilePath(p)
    ensures r.Ok? ==> (r.value <==> p in server.files)
    ensures !IsFilePath(p) ==> r == Err(FtpFailure(None))
  {
    ExistsReply(Send(server, Size, p, []).0)
  }

  function DeleteAt(server: FtpServer, p: string): (r: Result<FtpServer>)
    ensures r.Ok? <==> IsFilePath(p) && p in server.files
    ensures r.Ok? ==> r.value == server.(files := server.files - {p})
    ensures !IsFilePath(p) ==> r == Err(FtpFailure(None))
    ensures IsFilePath(p) && p !in server.files ==> r == Err(FtpFailure(Some(ActionNotTakenFileUnavailable)))
  {
    var (reply, next) := Send(server, Dele, p, []);
    var _ :- ActionReply(reply);
    Ok(next)
  }

  /** `SaveAsync`: the server after the upload, or the failure. */
  function Save(server: FtpServer, id: string, data: seq<byte>): (r: Result<FtpServer>)
    ensures r.Ok? <==> IsFilePath(ServerPath(id)) && CanStore(server, ServerPath(id))
    ensures r.Ok? ==> r.value == server.(files := server.files[ServerPath(id) := data])
  {
    SaveAt(server, ServerPath(id), data)
  }

  function Get(server: FtpServer, id: string): (r: Result<seq<byte>>)
    ensures r.Ok? <==> IsFilePath(ServerPath(id)) && ServerPath(id) in server.files
    ensures r.Ok? ==> r.value == server.files[ServerPath(id)]
  {
    GetAt(server, ServerPath(id))
  }

  function Exists(server: FtpServer, id: string): (r: Result<bool>)
    ensures r.Ok? <==> IsFilePath(ServerPath(id))
    ensures r.Ok? ==> (r.value <==> ServerPath(id) in server.files)
  {
    ExistsAt(server, ServerPath(id))
  }

  function Delete(server: FtpServer, id: string): (r: Result<FtpServer>)
    ensures r.Ok? <==> IsFilePath(ServerPath(id)) && ServerPath(id) in server.files
    ensures r.Ok? ==> r.value == server.(files := server.files - {ServerPath(id)})
  {
    DeleteAt(server, ServerPath(id))
  }

  /** A save succeeds exactly when the id names a file whose directory exists on the
      server, and then the blob reads back and exists. */
  lemma SaveThenGet(server: FtpServer, id: string, data: seq<byte>)
    ensures Save(server, id, data).Ok? <==> IsFilePath(ServerPath(id)) && CanStore(server, ServerPath(id))
    ensures Save(server, id, data).Ok? ==>
      && Get(Save(server, id, data).value, id) == Ok(data)
      && Exists(Save(server, id, data).value, id) == Ok(true)
  {
  }

  /** The backend never creates a directory: an upload into a directory the server does
      not hold fails with the server's 553. */
  lemma SaveNeedsDirectory(server: FtpServer, id: string, data: seq<byte>)
    requires IsFilePath(ServerPath(id)) && !DirExists(server, DirOf(ServerPath(id)))
    ensures Save(server, id, data) == Err(FtpFailure(Some(ActionNotTakenFilenameNotAllowed)))
  {
  }

  /** A name escaping leaves alone: nonempty, unreserved characters only, and not a
      dot segment. */
  predicate PlainName(x: string) {
    x != "" && !IsDot(x) && forall k :: 0 <= k < |x| ==> IsUnreserved(x[k])
  }

  lemma PlainNameSegment(x: string)
    requires PlainName(x)
    ensures IsSegment(x) && Escape(x) == x && IsFilePath(x)
  {
    EscapeUnreservedOnly(x);
    assert IsUnreserved(x[|x| - 1]);
  }

  /** Plain names reach the file they spell, alone or one below the other. */
  lemma ServerPathOfNames(x: string, y: string)
    requires PlainName(x) && PlainName(y)
    ensures ServerPath(x) == x && ServerPath(x + "/" + y) == x + "/" + y
  {
    PlainNameSegment(x);
    PlainNameSegment(y);
    PlainPath([x], x);
    JoinTwo(x, y, '/');
    PlainPath([x, y], x + "/" + y);
  }

  /** Segments that escaping leaves alone and that are not dot segments reach the
      path that joins them. */
  lemma PlainPath(segs: seq<string>, id: string)
    requires |segs| >= 1 && Join(segs, '/') == id
    requires forall i :: 0 <= i < |segs| ==> IsSegment(segs[i]) && !IsDot(segs[i]) && Escape(segs[i]) == segs[i]
    ensures ServerPath(id) == id
  {
    SegmentsOfJoin(segs);
    EscapeAllPlain(segs);
    PlainKey(id, segs);
  }

  /** The backend never creates the directory of a nested id: while the server lacks
      the directory `x`, the blob `x/y` cannot be saved, where `x` itself can. */
  lemma NestedIdNeedsDirectory(server: FtpServer, x: string, y: string, data: seq<byte>)
    requires PlainName(x) && PlainName(y) && x !in server.dirs
    ensures Save(server, x + "/" + y, data) == Err(FtpFailure(Some(ActionNotTakenFilenameNotAllowed)))
    ensures Save(server, x, data) == Ok(server.(files := server.files[x := data]))
  {
    ServerPathOfNames(x, y);
    PlainNameSegment(x);
    PlainNameSegment(y);
    DirOfAppend(x, y);
    var p := x + "/" + y;
    assert p[|p| - 1] == y[|y| - 1];
    SaveNeedsDirectory(server, p, data);
  }

  lemma {:induction false} EscapeAllPlain(segs: seq<string>)
    requires forall i :: 0 <= i < |segs| ==> Escape(segs[i]) == segs[i]
    ensures EscapeAll(segs) == segs
  {
    if segs != [] {
      EscapeAllPlain(segs[1..]);
      Sequences.HeadTail(segs);
    }
  }

  lemma PlainKey(id: string, segs: seq<string>)
    requires Segments(id) == segs && EscapeAll(segs) == segs && Join(segs, '/') == id
    requires forall i :: 0 <= i < |segs| ==> !IsDot(segs[i])
    ensures ServerPath(id) == id
  {
    assert DotFree(Segments(id));
  }

  lemma ServeStorKeeps(server: FtpServer, p: string, data: seq<byte>, q: string)
    requires IsFilePath(p) && CanStore(server, p) && q != p
    ensures Send(Send(server, Stor, p, data).1, Retr, q, []).0 == Send(server, Retr, q, []).0
  {
  }

  /** A save leaves every id that reaches another file as it was; for ids without dot
      segments, that is every id with other segments (`ServerPathSameIff`). */
  lemma SaveKeepsOthers(server: FtpServer, id: string, data: seq<byte>, other: string)
    requires IsFilePath(ServerPath(id)) && ServerPath(other) != ServerPath(id)
    ensures Save(server, id, data).Ok? <==> CanStore(server, ServerPath(id))
    ensures Save(server, id, data).Ok? ==> Get(Save(server, id, data).value, other) == Get(server, other)
  {
    if CanStore(server, ServerPath(id)) {
      ServeStorKeeps(server, ServerPath(id), data, ServerPath(other));
    }
  }

  /** An id with a dot segment can overwrite another blob: saving `x/../rest` is saving
      `rest`, and when it succeeds it replaces what `rest` reads. */
  lemma SaveOverwritesAlias(server: FtpServer, x: string, rest: string, data: seq<byte>)
    requires IsSegment(x) && !IsDot(x) && Segments(rest) != [] && DotFree(Segments(rest))
    ensures Save(server, x + "/../" + rest, data) == Save(server, rest, data)
    ensures Save(server, rest, data).Ok? <==> CanStore(server, ServerPath(rest))
    ensures Save(server, rest, data).Ok? ==> Get(Save(server, rest, data).value, rest) == Ok(data)
  {
    DotSegmentsAlias(x, rest);
    DotFreeNamesFile(rest);
  }

  /** An id without segments addresses no file: the request is refused before the
      server answers, so every operation fails, Exists included, and nothing changes. */
  lemma NoSegmentsFails(server: FtpServer, id: string, data: seq<byte>)
    requires Segments(id) == []
    ensures Save(server, id, data) == Err(FtpFailure(None))
    ensures Get(server, id) == Err(FtpFailure(None))
    ensures Exists(server, id) == Err(FtpFailure(None))
    ensures Delete(server, id) == Err(FtpFailure(None))
  {
    DotFreeNamesFile(id);
  }

  lemma ServeDeleTwice(server: FtpServer, p: string)
    requires IsFilePath(p) && p in server.files
    ensures Send(server, Dele, p, []) == (Completed(250, []), server.(files := server.files - {p}))
    ensures Send(server.(files := server.files - {p}), Size, p, []).0 == Failed(Some(ActionNotTakenFileUnavailable))
    ensures Send(server.(files := server.files - {p}), Dele, p, []).0 == Failed(Some(ActionNotTakenFileUnavailable))
  {
  }

  /** Delete does not treat a missing file specially: the second of two deletes fails. */
  lemma DeleteTwiceFails(server: FtpServer, id: string)
    requires Exists(server, id) == Ok(true)
    ensures Delete(server, id).Ok?
    ensures Exists(Delete(server, id).value, id) == Ok(false)
    ensures Delete(Delete(server, id).value, id) == Err(FtpFailure(Some(ActionNotTakenFileUnavailable)))
  {
    ServeDeleTwice(server, ServerPath(id));
  }

  /** `a\b`, `a//b` and `a/b` are the same file on the server: saving under either
      spelling is saving `a/b`. */
  lemma SeparatorsAlias(server: FtpServer, a: string, b: string, data: seq<byte>)
    requires IsFilePath(ServerPath(a + "/" + b))
    ensures Save(server, a + "\\" + b, data) == Save(server, a + "/" + b, data)
    ensures Save(server, a + "//" + b, data) == Save(server, a + "/" + b, data)
    ensures Save(server, a + "\\" + b, data).Ok? <==> CanStore(server, ServerPath(a + "/" + b))
    ensures Save(server, a + "\\" + b, data).Ok? ==> Get(Save(server, a + "\\" + b, data).value, a + "/" + b) == Ok(data)
  {
    EscapeKeySeparatorVariants(a, b);
    SaveThenGet(server, a + "/" + b, data);
  }
}

=== FILE: id_segments.dfy ===
/** How the file-system and FTP backends read a blob id: backslashes count as
    slashes, and the id is cut at every slash with the empty pieces dropped. */
module IdSegments {
  import opened Strings

  /** `id.Replace('\\', '/').Split('/', StringSplitOptions.RemoveEmptyEntries)`. */
  function Segments(id: string): (segs: seq<string>)
    ensures forall i :: 0 <= i < |segs| ==> IsSegment(segs[i])
  {
    var unified := ReplaceChar(id, '\\', '/');
    var pieces := Split(unified, '/');
    SplitExcludes(unified, '/', '\\');
    RemoveEmpty(pieces)
  }

  /** A segment as `Segments` produces them: nonempty and free of both separators. */
  predicate IsSegment(s: string) {
    s != [] && '/' !in s && '\\' !in s
  }

  /** A character other than the two separators is in an id exactly when it is in one
      of its segments. */
  lemma SegmentsHas(id: string, c: char)
    requires c != '/' && c != '\\'
    ensures c in id <==> InSome(Segments(id), c)
  {
    var unified := ReplaceChar(id, '\\', '/');
    ReplaceCharHas(id, '\\', '/', c);
    SplitHas(unified, '/', c);
    RemoveEmptyHas(Split(unified, '/'), c);
  }

  /** Segments joined with `/` read back as the same segments. */
  lemma SegmentsOfJoin(segs: seq<string>)
    requires |segs| >= 1
    requires forall i :: 0 <= i < |segs| ==> IsSegment(segs[i])
    ensures Segments(Join(segs, '/')) == segs
  {
    var joined := Join(segs, '/');
    JoinExcludes(segs, '/', '\\');
    assert ReplaceChar(joined, '\\', '/') == joined;
    SplitJoin(segs, '/');
    RemoveEmptyOfNonEmpty(segs);
  }

  lemma {:induction false} RemoveEmptyOfNonEmpty(parts: seq<string>)
    requires forall i :: 0 <= i < |parts| ==> parts[i] != []
    ensures RemoveEmpty(parts) == parts
  {
    if parts != [] {
      RemoveEmptyOfNonEmpty(parts[1..]);
      assert parts == [parts[0]] + parts[1..];
    }
  }

  /** A slash between two strings separates their segments. */
  lemma SegmentsAroundSlash(a: string, b: string)
    ensures Segments(a + "/" + b) == Segments(a) + Segments(b)
  {
    ReplaceCharAppend(a + "/", b, '\\', '/');
    ReplaceCharAppend(a, "/", '\\', '/');
    var ra, rb := ReplaceChar(a, '\\', '/'), ReplaceChar(b, '\\', '/');
    assert ReplaceChar(a + "/" + b, '\\', '/') == ra + ['/'] + rb;
    SplitAround(ra, '/', rb);
    RemoveEmptyAppend(Split(ra, '/'), Split(rb, '/'));
  }

  /** A backslash separates exactly as a slash does: both become the same slash. */
  lemma SegmentsAroundBackslash(a: string, b: string)
    ensures Segments(a + "\\" + b) == Segments(a) + Segments(b)
  {
    ReplaceCharAppend(a + "\\", b, '\\', '/');
    ReplaceCharAppend(a, "\\", '\\', '/');
    ReplaceCharAppend(a + "/", b, '\\', '/');
    ReplaceCharAppend(a, "/", '\\', '/');
    assert ReplaceChar(a + "\\" + b, '\\', '/') == ReplaceChar(a + "/" + b, '\\', '/');
    SegmentsAroundSlash(a, b);
  }

  /** Ids that differ only in `\` against `/`, or in a doubled separator, have the same segments. */
  lemma SeparatorVariants(a: string, b: string)
    ensures Segments(a + "\\" + b) == Segments(a + "/" + b)
    ensures Segments(a + "//" + b) == Segments(a + "/" + b)
  {
    SegmentsAroundSlash(a, b);
    SegmentsAroundBackslash(a, b);
    assert a + "//" + b == a + "/" + ("/" + b);
    SegmentsAroundSlash(a, "/" + b);
    assert "/" + b == "" + "/" + b;
    SegmentsAroundSlash("", b);
    assert Segments("") == [];
  }
}

=== FILE: metadata_store.dfy ===
/** The metadata store: the `BlobMetadata` table, one row per blob id holding
    its size and creation time. Times are `DateTimeOffset` values, modelled
    as integers. */
module MetadataStore {
  import opened Outcomes

  datatype Meta = Meta(size: int, createdAtUtc: int)

  /** The tuple `GetAsync` returns. */
  datatype MetaRecord = MetaRecord(id: string, size: int, createdAtUtc: int)

  type MetaTable = map<string, Meta>

  /** `UpsertAsync`: a new row with the given size and time, or, for an existing
      row, a new size and the creation time it already had. */
  function Upsert(t: MetaTable, id: string, size: int, createdAtUtc: int): (r: MetaTable)
    ensures r.Keys == t.Keys + {id}
    ensures id in r && r[id].size == size
    ensures id !in t ==> r[id].createdAtUtc == createdAtUtc
    ensures id in t ==> r[id].createdAtUtc == t[id].createdAtUtc
    ensures forall k :: k in t && k != id ==> r[k] == t[k]
  {
    if id !in t then t[id := Meta(size, createdAtUtc)]
    else t[id := t[id].(size := size)]
  }

  /** `GetAsync`: the row as a record, or none. */
  function Get(t: MetaTable, id: string): (r: Option<MetaRecord>)
    ensures r.None? <==> id !in t
    ensures r.Some? ==> r.value == MetaRecord(id, t[id].size, t[id].createdAtUtc)
  {
    if id in t then Some(MetaRecord(id, t[id].size, t[id].createdAtUtc)) else None
  }

  /** One call of `UpsertAsync`. */
  datatype UpsertCall = UpsertCall(id: string, size: int, createdAtUtc: int)

  function UpsertAll(t: MetaTable, calls: seq<UpsertCall>): MetaTable
    decreases |calls|
  {
    if calls == [] then t
    else UpsertAll(Upsert(t, calls[0].id, calls[0].size, calls[0].createdAtUtc), calls[1..])
  }

  /** Reading right after an upsert. */
  lemma GetAfterUpsert(t: MetaTable, id: string, size: int, createdAtUtc: int)
    ensures Get(Upsert(t, id, size, createdAtUtc), id) ==
      Some(MetaRecord(id, size, if id in t then t[id].createdAtUtc else createdAtUtc))
  {
  }

  /** Upserting the same values twice leaves what upserting them once leaves. */
  lemma UpsertIdempotent(t: MetaTable, id: string, size: int, createdAtUtc: int)
    ensures Upsert(Upsert(t, id, size, createdAtUtc), id, size, createdAtUtc) == Upsert(t, id, size, createdAtUtc)
  {
  }

  /** However many upserts follow, for whatever ids, a row keeps its creation
      time, and its size is that of the last upsert for its id. */
  lemma {:induction false} CreationTimeIsFixed(t: MetaTable, calls: seq<UpsertCall>, id: string)
    requires id in t
    ensures id in UpsertAll(t, calls)
    ensures UpsertAll(t, calls)[id].createdAtUtc == t[id].createdAtUtc
    decreases |calls|
  {
    if calls != [] {
      var next := Upsert(t, calls[0].id, calls[0].size, calls[0].createdAtUtc);
      CreationTimeIsFixed(next, calls[1..], id);
    }
  }

  /** The creation time of a row is the time given to the first upsert of its id. */
  lemma {:induction false} CreationTimeOfFirstUpsert(t: MetaTable, calls: seq<UpsertCall>, id: string)
    requires id !in t
    requires |calls| >= 1 && calls[0].id == id
    ensures id in UpsertAll(t, calls)
    ensures UpsertAll(t, calls)[id].createdAtUtc == calls[0].createdAtUtc
  {
    var next := Upsert(t, id, calls[0].size, calls[0].createdAtUtc);
    CreationTimeIsFixed(next, calls[1..], id);
  }

  /** Upserts for other ids leave a row as it was. */
  lemma {:induction false} UpsertsForOthers(t: MetaTable, calls: seq<UpsertCall>, id: string)
    requires forall i :: 0 <= i < |calls| ==> calls[i].id != id
    ensures id in UpsertAll(t, calls) <==> id in t
    ensures id in t ==> UpsertAll(t, calls)[id] == t[id]
    decreases |calls|
  {
    if calls != [] {
      var next := Upsert(t, calls[0].id, calls[0].size, calls[0].createdAtUtc);
      UpsertsForOthers(next, calls[1..], id);
    }
  }
}

=== FILE: ordinal.dfy ===
/** Ordinal string order (`StringComparer.Ordinal`) and the two sorted
    structures the request signer builds with it: a `SortedDictionary` of
    header names to values, and a sorted list of query parameters. */
module Ordinal {
  import opened Outcomes

  /** `string.CompareOrdinal(a, b) < 0`: lexicographic on character codes,
      a proper prefix before any extension of it. */
  predicate Less(a: string, b: string)
    decreases |a|
  {
    if a == [] then b != []
    else if b == [] then false
    else if a[0] != b[0] then a[0] < b[0]
    else Less(a[1..], b[1..])
  }

  /** After a common prefix, the first differing character decides. */
  lemma {:induction false} LessAfterCommonPrefix(p: string, a: string, b: string)
    requires a != [] && b != [] && a[0] < b[0]
    ensures Less(p + a, p + b)
    decreases |p|
  {
    if p != [] {
      assert (p + a)[1..] == p[1..] + a;
      assert (p + b)[1..] == p[1..] + b;
      LessAfterCommonPrefix(p[1..], a, b);
    }
  }

  predicate LessOrEqual(a: string, b: string) {
    a == b || Less(a, b)
  }

  lemma {:induction false} LessIrreflexive(a: string)
    ensures !Less(a, a)
    decreases |a|
  {
    if a != [] {
      LessIrreflexive(a[1..]);
    }
  }

  lemma {:induction false} LessAsymmetric(a: string, b: string)
    ensures !(Less(a, b) && Less(b, a))
    decreases |a|
  {
    if a != [] && b != [] && a[0] == b[0] {
      LessAsymmetric(a[1..], b[1..]);
    }
  }

  lemma {:induction false} LessTotal(a: string, b: string)
    ensures a == b || Less(a, b) || Less(b, a)
    decreases |a|
  {
    if a != [] && b != [] && a[0] == b[0] {
      LessTotal(a[1..], b[1..]);
      if a[1..] == b[1..] {
        assert a == [a[0]] + a[1..] && b == [b[0]] + b[1..];
      }
    }
  }

  lemma {:induction false} LessTransitive(a: string, b: string, c: string)
    requires Less(a, b) && Less(b, c)
    ensures Less(a, c)
    decreases |a|
  {
    if a != [] && a[0] == b[0] && b[0] == c[0] {
      LessTransitive(a[1..], b[1..], c[1..]);
    }
  }

  // ---------------------------------------------------------------------------
  // SortedDictionary<string, string>(StringComparer.Ordinal)
  // ---------------------------------------------------------------------------

  datatype Entry = Entry(key: string, value: string)

  /** Entries in strictly increasing key order; in particular no key twice. */
  predicate StrictlySorted(d: seq<Entry>) {
    forall i, j :: 0 <= i < j < |d| ==> Less(d[i].key, d[j].key)
  }

  function KeySet(d: seq<Entry>): set<string> {
    set i | 0 <= i < |d| :: d[i].key
  }

  /** The value stored under `k`, if any (`TryGetValue`). */
  function Lookup(d: seq<Entry>, k: string): Option<string> {
    if d == [] then None
    else if d[0].key == k then Some(d[0].value)
    else Lookup(d[1..], k)
  }

  /** The keys in enumeration order (`SortedDictionary.Keys`). */
  function Keys(d: seq<Entry>): (ks: seq<string>)
    ensures |ks| == |d|
    ensures forall i :: 0 <= i < |d| ==> ks[i] == d[i].key
  {
    if d == [] then [] else [d[0].key] + Keys(d[1..])
  }

  /** `dictionary[k] = v`: replaces the value of an existing key, or inserts
      the entry at its ordinal position. What it does to lookups is `PutLookup`. */
  function Put(d: seq<Entry>, k: string, v: string): (r: seq<Entry>)
    requires StrictlySorted(d)
    ensures StrictlySorted(r)
    ensures KeySet(r) == KeySet(d) + {k}
    decreases |d|
  {
    if d == [] then KeySetCons(Entry(k, v), d); [Entry(k, v)]
    else if d[0].key == k then PutReplaceHead(d, k, v); [Entry(k, v)] + d[1..]
    else if Less(k, d[0].key) then PutBeforeHead(d, k, v); [Entry(k, v)] + d
    else
      LessTotal(k, d[0].key);
      var tail := Put(d[1..], k, v);
      PutAfterHead(d, k, v, tail);
      [d[0]] + tail
  }

  /** After `d[k] = v`, looking up `k` gives `v` and every other key gives what it gave before. */
  lemma {:induction false} PutLookup(d: seq<Entry>, k: string, v: string)
    requires StrictlySorted(d)
    ensures Lookup(Put(d, k, v), k) == Some(v)
    ensures forall k' :: k' != k ==> Lookup(Put(d, k, v), k') == Lookup(d, k')
    decreases |d|
  {
    if d == [] {
    } else if d[0].key == k {
      PutReplaceHeadLookup(d, k, v);
    } else if Less(k, d[0].key) {
    } else {
      PutLookup(d[1..], k, v);
      LessTotal(k, d[0].key);
      assert Put(d, k, v) == [d[0]] + Put(d[1..], k, v);
    }
  }

  lemma PutReplaceHeadLookup(d: seq<Entry>, k: string, v: string)
    requires StrictlySorted(d) && d != [] && d[0].key == k
    ensures forall k' :: k' != k ==> Lookup([Entry(k, v)] + d[1..], k') == Lookup(d, k')
  {
    var r := [Entry(k, v)] + d[1..];
    assert r[1..] == d[1..];
  }

  lemma LookupAbsent(d: seq<Entry>, k: string)
    requires k !in KeySet(d)
    ensures Lookup(d, k) == None
  {
    if d != [] {
      assert d[0].key in KeySet(d);
      assert KeySet(d[1..]) <= KeySet(d) by {
        forall x | x in KeySet(d[1..]) ensures x in KeySet(d) {
          var i :| 0 <= i < |d[1..]| && d[1..][i].key == x;
          assert d[i + 1].key == x;
        }
      }
      LookupAbsent(d[1..], k);
    }
  }

  lemma KeySetCons(e: Entry, d: seq<Entry>)
    ensures KeySet([e] + d) == {e.key} + KeySet(d)
  {
    var r := [e] + d;
    forall x | x in KeySet(r) ensures x in {e.key} + KeySet(d) {
      var i :| 0 <= i < |r| && r[i].key == x;
      if i > 0 {
        assert d[i - 1].key == x;
      }
    }
    forall x | x in {e.key} + KeySet(d) ensures x in KeySet(r) {
      if x != e.key {
        var i :| 0 <= i < |d| && d[i].key == x;
        assert r[i + 1].key == x;
      } else {
        assert r[0].key == x;
      }
    }
  }

  lemma PutReplaceHead(d: seq<Entry>, k: string, v: string)
    requires StrictlySorted(d) && d != [] && d[0].key == k
    ensures StrictlySorted([Entry(k, v)] + d[1..])
    ensures KeySet([Entry(k, v)] + d[1..]) == KeySet(d) + {k}
  {
    var r := [Entry(k, v)] + d[1..];
    assert forall i :: 0 <= i < |d| ==> r[i].key == d[i].key;
    assert d == [d[0]] + d[1..];
    KeySetCons(Entry(k, v), d[1..]);
    KeySetCons(d[0], d[1..]);
  }

  lemma PutBeforeHead(d: seq<Entry>, k: string, v: string)
    requires StrictlySorted(d) && d != [] && Less(k, d[0].key)
    ensures StrictlySorted([Entry(k, v)] + d)
    ensures KeySet([Entry(k, v)] + d) == KeySet(d) + {k}
  {
    var r := [Entry(k, v)] + d;
    forall i, j | 0 <= i < j < |r| ensures Less(r[i].key, r[j].key) {
      if i == 0 {
        if j > 1 {
          LessTransitive(k, d[0].key, d[j - 1].key);
        }
      }
    }
    KeySetCons(Entry(k, v), d);
  }

  lemma PutAfterHead(d: seq<Entry>, k: string, v: string, tail: seq<Entry>)
    requires StrictlySorted(d) && d != [] && Less(d[0].key, k)
    requires StrictlySorted(tail)
    requires KeySet(tail) == KeySet(d[1..]) + {k}
    ensures var r := [d[0]] + tail;
      && StrictlySorted(r)
      && KeySet(r) == KeySet(d) + {k}
  {
    var r := [d[0]] + tail;
    assert r[1..] == tail;
    LessIrreflexive(k);
    forall i, j | 0 <= i < j < |r| ensures Less(r[i].key, r[j].key) {
      if i == 0 {
        var x := r[j].key;
        assert x in KeySet(tail) by { assert tail[j - 1].key == x; }
        if x == k {
        } else {
          assert x in KeySet(d[1..]);
          var m :| 0 <= m < |d[1..]| && d[1..][m].key == x;
          assert d[m + 1].key == x;
        }
      }
    }
    KeySetCons(d[0], tail);
    KeySetCons(d[0], d[1..]);
    assert d == [d[0]] + d[1..];
  }

  /** A key greater than every present key is appended at the end. */
  lemma {:induction false} PutAtEnd(d: seq<Entry>, k: string, v: string)
    requires StrictlySorted(d)
    requires forall i :: 0 <= i < |d| ==> Less(d[i].key, k)
    ensures Put(d, k, v) == d + [Entry(k, v)]
    decreases |d|
  {
    if d != [] {
      LessAsymmetric(d[0].key, k);
      LessIrreflexive(k);
      PutAtEnd(d[1..], k, v);
      assert d == [d[0]] + d[1..];
    }
  }

  lemma PutTwoAscending(k0: string, v0: string, k1: string, v1: string)
    requires Less(k0, k1)
    ensures Put(Put([], k0, v0), k1, v1) == [Entry(k0, v0), Entry(k1, v1)]
  {
    var e0 := Entry(k0, v0);
    assert Put([], k0, v0) == [e0];
    PutAtEnd([e0], k1, v1);
  }

  /** Three increasing keys put one after another are enumerated in that order. */
  lemma PutThreeAscending(k0: string, v0: string, k1: string, v1: string, k2: string, v2: string)
    requires Less(k0, k1) && Less(k1, k2)
    ensures Put(Put(Put([], k0, v0), k1, v1), k2, v2) == [Entry(k0, v0), Entry(k1, v1), Entry(k2, v2)]
  {
    LessTransitive(k0, k1, k2);
    var d := [Entry(k0, v0), Entry(k1, v1)];
    PutTwoAscending(k0, v0, k1, v1);
    assert StrictlySorted(d) by {
      assert d[0].key == k0 && d[1].key == k1;
    }
    assert forall i :: 0 <= i < |d| ==> Less(d[i].key, k2) by {
      assert d[0].key == k0 && d[1].key == k1;
    }
    PutAtEnd(d, k2, v2);
    AppendThird(Entry(k0, v0), Entry(k1, v1), Entry(k2, v2));
  }

  lemma AppendThird<T>(a: T, b: T, c: T)
    ensures [a, b] + [c] == [a, b, c]
  {
  }

  // ---------------------------------------------------------------------------
  // Ordered query parameters
  // ---------------------------------------------------------------------------

  predicate Sorted(xs: seq<string>) {
    forall i, j :: 0 <= i < j < |xs| ==> LessOrEqual(xs[i], xs[j])
  }

  /** Inserts `x` before the first element it is not greater than. */
  function Insert(x: string, xs: seq<string>): (r: seq<string>)
    requires Sorted(xs)
    ensures Sorted(r)
    ensures multiset(r) == multiset(xs) + multiset{x}
    decreases |xs|
  {
    if xs == [] then [x]
    else if LessOrEqual(x, xs[0]) then InsertFront(x, xs); [x] + xs
    else
      LessTotal(x, xs[0]);
      var tail := Insert(x, xs[1..]);
      InsertLater(x, xs, tail);
      [xs[0]] + tail
  }

  lemma InsertFront(x: string, xs: seq<string>)
    requires Sorted(xs) && xs != [] && LessOrEqual(x, xs[0])
    ensures Sorted([x] + xs)
  {
    var r := [x] + xs;
    forall i, j | 0 <= i < j < |r| ensures LessOrEqual(r[i], r[j]) {
      if i == 0 && j > 1 && x != xs[0] && xs[0] != xs[j - 1] {
        LessTransitive(x, xs[0], xs[j - 1]);
      }
    }
  }

  lemma InsertLater(x: string, xs: seq<string>, tail: seq<string>)
    requires Sorted(xs) && xs != [] && Less(xs[0], x)
    requires Sorted(tail)
    requires multiset(tail) == multiset(xs[1..]) + multiset{x}
    ensures Sorted([xs[0]] + tail)
    ensures multiset([xs[0]] + tail) == multiset(xs) + multiset{x}
  {
    var r := [xs[0]] + tail;
    assert r[1..] == tail;
    forall i, j | 0 <= i < j < |r| ensures LessOrEqual(r[i], r[j]) {
      if i == 0 {
        var y := r[j];
        assert y in multiset(tail);
        if y != x {
          assert y in multiset(xs[1..]);
          var m :| 0 <= m < |xs[1..]| && xs[1..][m] == y;
          assert xs[m + 1] == y;
        }
      }
    }
    assert xs == [xs[0]] + xs[1..];
  }

  /** An ordinal sort of strings: a sorted permutation. The source's `OrderBy(x => x)`
      compares with the current culture; README's "Left out" says why ordinal order is
      used here. */
  function Sort(xs: seq<string>): (r: seq<string>)
    ensures Sorted(r)
    ensures multiset(r) == multiset(xs)
  {
    if xs == [] then []
    else
      var r := Insert(xs[0], Sort(xs[1..]));
      assert xs == [xs[0]] + xs[1..];
      r
  }
}

=== FILE: outcomes.dfy ===
/** Failure-carrying values shared by every storage component.

    The .NET code reports failures by throwing; the model returns them.
    Each `StorageError` constructor names the exception the code throws
    (or lets escape) for that case. */
module Outcomes {

  /** A value that may be absent: `null` in the code. */
  datatype Option<+T> = None | Some(value: T)

  /** The exceptions a storage operation can end with. */
  datatype StorageError =
      /** `FileNotFoundException("Blob not found", id)` from a content backend. */
    | ContentNotFound
      /** `KeyNotFoundException("Blob not found")` from the orchestrator when no metadata exists. */
    | MetadataNotFound
      /** `FormatException("Invalid base64 data")`. */
    | InvalidEncoding
      /** `InvalidOperationException("Invalid id path")` from the filesystem backend. */
    | InvalidPath
      /** `ArgumentException` from `Path.GetFullPath` for a path holding the character U+0000. */
    | NullCharInPath
      /** `HttpRequestException` thrown by `EnsureSuccessStatusCode` for a non-2xx status. */
    | HttpFailure(status: int)
      /** `WebException` from an FTP command; `reply` is the FTP reply code when the server sent one. */
    | FtpFailure(reply: Option<int>)
      /** `ArgumentNullException(paramName)`. */
    | ArgumentNull(paramName: string)
      /** `NullReferenceException`: a member read through a null reference. */
    | NullReference

  /** Success with a value, or one of the errors above. Usable with `:-`. */
  datatype Result<+T> = Ok(value: T) | Err(error: StorageError) {

    predicate IsFailure() {
      Err?
    }

    function PropagateFailure<U>(): Result<U>
      requires Err?
    {
      Err(error)
    }

    function Extract(): T
      requires Ok?
    {
      value
    }
  }

  /** The value of a `Task` that completes without a result. */
  datatype Unit = Unit
}

=== FILE: percent_encoding.dfy ===
/** `Uri.EscapeDataString`: percent-encoding as section 2.1 of RFC 3986 defines
    it, applied to every character outside the unreserved set of section 2.3.

    A character outside the set is replaced by its UTF-8 bytes, each written
    `%XX` with upper-case hexadecimal digits. `Unescape` reads such text back
    and is used to state that escaping loses nothing. */
module PercentEncoding {
  import opened Bytes
  import opened Outcomes
  import Utf8
  import opened Sequences

  /** The unreserved characters of RFC 3986 section 2.3: ALPHA / DIGIT / "-" / "." / "_" / "~". */
  predicate IsUnreserved(c: char) {
    ('A' <= c <= 'Z') || ('a' <= c <= 'z') || ('0' <= c <= '9') || c == '-' || c == '.' || c == '_' || c == '~'
  }

  /** A character that may appear in escaped text: unreserved, `%` or an upper-case hex digit. */
  predicate IsEscapedTextChar(c: char) {
    IsUnreserved(c) || c == '%' || IsUpperHexChar(c)
  }

  /** `%XX` for each byte. */
  function EscapeBytes(bs: seq<byte>): (r: string)
    ensures |r| == 3 * |bs|
    ensures forall i :: 0 <= i < |r| ==> IsEscapedTextChar(r[i])
  {
    if bs == [] then "" else ['%'] + UpperPair(bs[0]) + EscapeBytes(bs[1..])
  }

  /** One character: itself when unreserved, otherwise its escaped UTF-8 bytes. */
  function EscapeChar(c: char): (r: string)
    ensures |r| == 1 <==> IsUnreserved(c)
    ensures |r| >= 1
    ensures forall i :: 0 <= i < |r| ==> IsEscapedTextChar(r[i])
  {
    if IsUnreserved(c) then [c] else EscapeBytes(Utf8.EncodeChar(c))
  }

  /** `Uri.EscapeDataString(s)`. */
  function Escape(s: string): (r: string)
    ensures |r| >= |s|
    ensures forall i :: 0 <= i < |r| ==> IsEscapedTextChar(r[i])
    ensures r == [] <==> s == []
  {
    if s == [] then "" else EscapeChar(s[0]) + Escape(s[1..])
  }

  /** Escaping lengthens the text exactly when some character is outside the unreserved set;
      text made only of unreserved characters is left as it is. */
  lemma {:induction false} EscapeUnreservedOnly(s: string)
    ensures |Escape(s)| == |s| <==> forall i :: 0 <= i < |s| ==> IsUnreserved(s[i])
    ensures (forall i :: 0 <= i < |s| ==> IsUnreserved(s[i])) ==> Escape(s) == s
  {
    if s != [] {
      EscapeUnreservedOnly(s[1..]);
      if forall i :: 0 <= i < |s| ==> IsUnreserved(s[i]) {
        assert forall i :: 0 <= i < |s[1..]| ==> IsUnreserved(s[1..][i]) by {
          forall i | 0 <= i < |s[1..]| ensures IsUnreserved(s[1..][i]) {
            assert s[1..][i] == s[i + 1];
          }
        }
        assert s == [s[0]] + s[1..];
      } else {
        var i :| 0 <= i < |s| && !IsUnreserved(s[i]);
        if i > 0 {
          assert s[1..][i - 1] == s[i];
        }
      }
    }
  }

  /** Text made only of unreserved characters and well-formed `%XX` triplets. */
  predicate WellEscaped(r: string)
    decreases |r|
  {
    if r == [] then true
    else if IsUnreserved(r[0]) then WellEscaped(r[1..])
    else |r| >= 3 && r[0] == '%' && IsUpperHexChar(r[1]) && IsUpperHexChar(r[2]) && WellEscaped(r[3..])
  }

  /** Percent-decoding to bytes: `%XX` gives one byte, any other character its UTF-8 bytes. */
  function UnescapeBytes(r: string): seq<byte>
    decreases |r|
  {
    if r == [] then []
    else if |r| >= 3 && r[0] == '%' && HexValue(r[1]) >= 0 && HexValue(r[2]) >= 0 then
      [HexValue(r[1]) * 16 + HexValue(r[2])] + UnescapeBytes(r[3..])
    else Utf8.EncodeChar(r[0]) + UnescapeBytes(r[1..])
  }

  /** `Uri.UnescapeDataString` for text that decodes to UTF-8. */
  function Unescape(r: string): Option<string> {
    Utf8.Decode(UnescapeBytes(r))
  }

  lemma UnescapeTriplet(b: byte, tail: string)
    ensures UnescapeBytes(['%'] + UpperPair(b) + tail) == [b] + UnescapeBytes(tail)
  {
    var pair := UpperPair(b);
    var r := ['%'] + pair + tail;
    assert r[0] == '%' && r[1] == pair[0] && r[2] == pair[1];
    assert r[3..] == tail;
  }

  lemma EscapeBytesCons(bs: seq<byte>, rest: string)
    requires bs != []
    ensures EscapeBytes(bs) + rest == ['%'] + UpperPair(bs[0]) + (EscapeBytes(bs[1..]) + rest)
  {
  }

  /** `%XX` triplets decode to their bytes, whatever follows them. */
  lemma {:induction false} UnescapeEscapedBytes(bs: seq<byte>, rest: string)
    ensures UnescapeBytes(EscapeBytes(bs) + rest) == bs + UnescapeBytes(rest)
  {
    if bs == [] {
      assert EscapeBytes(bs) + rest == rest;
    } else {
      var tail := EscapeBytes(bs[1..]) + rest;
      calc {
        UnescapeBytes(EscapeBytes(bs) + rest);
        { EscapeBytesCons(bs, rest); }
        UnescapeBytes(['%'] + UpperPair(bs[0]) + tail);
        { UnescapeTriplet(bs[0], tail); }
        [bs[0]] + UnescapeBytes(tail);
        { UnescapeEscapedBytes(bs[1..], rest); }
        [bs[0]] + (bs[1..] + UnescapeBytes(rest));
        { AppendAssoc([bs[0]], bs[1..], UnescapeBytes(rest)); HeadTail(bs); }
        bs + UnescapeBytes(rest);
      }
    }
  }

  lemma TripletWellFormed(b: byte, tail: string)
    requires WellEscaped(tail)
    ensures WellEscaped(['%'] + UpperPair(b) + tail)
  {
    var pair := UpperPair(b);
    var whole := ['%'] + pair + tail;
    assert whole[0] == '%' && whole[1] == pair[0] && whole[2] == pair[1] && whole[3..] == tail;
  }

  /** Triplets in front of well-formed text keep it well formed. */
  lemma {:induction false} EscapedBytesWellFormed(bs: seq<byte>, rest: string)
    requires WellEscaped(rest)
    ensures WellEscaped(EscapeBytes(bs) + rest)
  {
    if bs == [] {
      assert EscapeBytes(bs) + rest == rest;
    } else {
      EscapeBytesCons(bs, rest);
      EscapedBytesWellFormed(bs[1..], rest);
      TripletWellFormed(bs[0], EscapeBytes(bs[1..]) + rest);
    }
  }

  lemma EscapeCharWellFormed(c: char, rest: string)
    requires WellEscaped(rest)
    ensures WellEscaped(EscapeChar(c) + rest)
  {
    if IsUnreserved(c) {
      assert ([c] + rest)[1..] == rest;
    } else {
      EscapedBytesWellFormed(Utf8.EncodeChar(c), rest);
    }
  }

  lemma UnescapeEscapedChar(c: char, rest: string)
    ensures UnescapeBytes(EscapeChar(c) + rest) == Utf8.EncodeChar(c) + UnescapeBytes(rest)
  {
    if IsUnreserved(c) {
      assert ([c] + rest)[1..] == rest;
    } else {
      UnescapeEscapedBytes(Utf8.EncodeChar(c), rest);
    }
  }

  /** Escaped text consists of unreserved characters and `%XX` triplets only. */
  lemma {:induction false} EscapeWellFormed(s: string)
    ensures WellEscaped(Escape(s))
  {
    if s != [] {
      EscapeWellFormed(s[1..]);
      EscapeCharWellFormed(s[0], Escape(s[1..]));
    }
  }

  /** Escaped text percent-decodes to the UTF-8 bytes of the input. */
  lemma {:induction false} EscapeDecodes(s: string)
    ensures UnescapeBytes(Escape(s)) == Utf8.Encode(s)
  {
    if s != [] {
      EscapeDecodes(s[1..]);
      UnescapeEscapedChar(s[0], Escape(s[1..]));
    }
  }

  /** Escaped text followed by anything decodes to the input's UTF-8 bytes followed by
      the decoding of the rest: no `%XX` triplet spans the boundary. */
  lemma {:induction false} UnescapeAfterEscape(s: string, rest: string)
    ensures UnescapeBytes(Escape(s) + rest) == Utf8.Encode(s) + UnescapeBytes(rest)
  {
    if s == [] {
      assert Escape(s) + rest == rest;
    } else {
      var head, tail := EscapeChar(s[0]), Escape(s[1..]);
      AppendAssoc(head, tail, rest);
      UnescapeEscapedChar(s[0], tail + rest);
      UnescapeAfterEscape(s[1..], rest);
      AppendAssoc(Utf8.EncodeChar(s[0]), Utf8.Encode(s[1..]), UnescapeBytes(rest));
    }
  }

  /** Escaping round-trips through unescaping. */
  lemma UnescapeEscape(s: string)
    ensures Unescape(Escape(s)) == Some(s)
  {
    EscapeDecodes(s);
    Utf8.DecodeEncode(s);
  }

  /** Distinct strings escape to distinct text. */
  lemma EscapeInjective(s: string, t: string)
    requires Escape(s) == Escape(t)
    ensures s == t
  {
    UnescapeEscape(s);
    UnescapeEscape(t);
  }

  /** Escaped text never contains a path separator, a query mark, a fragment mark or a line break. */
  lemma EscapeHasNoDelimiters(s: string)
    ensures '/' !in Escape(s) && '?' !in Escape(s) && '#' !in Escape(s) && '\\' !in Escape(s) && '\n' !in Escape(s)
  {
    var r := Escape(s);
    forall i | 0 <= i < |r| ensures r[i] != '/' && r[i] != '?' && r[i] != '#' && r[i] != '\\' && r[i] != '\n' {
      assert IsEscapedTextChar(r[i]);
    }
  }

  /** Every segment percent-encoded, the list shape kept. */
  function EscapeAll(parts: seq<string>): (r: seq<string>)
    ensures |r| == |parts|
    ensures forall i :: 0 <= i < |parts| ==> r[i] == Escape(parts[i])
  {
    if parts == [] then [] else [Escape(parts[0])] + EscapeAll(parts[1..])
  }

  /** Every segment percent-decoded; `None` if one does not decode. */
  function UnescapeAll(parts: seq<string>): Option<seq<string>> {
    if parts == [] then Some([])
    else match (Unescape(parts[0]), UnescapeAll(parts[1..]))
      case (Some(p), Some(ps)) => Some([p] + ps)
      case _ => None
  }

  lemma EscapeAllCons(s: string, segs: seq<string>)
    ensures EscapeAll([s] + segs) == [Escape(s)] + EscapeAll(segs)
  {
    ConsParts(s, segs);
  }

  lemma UnescapeAllCons(s: string, segs: seq<string>)
    ensures UnescapeAll([s] + segs) ==
      match (Unescape(s), UnescapeAll(segs))
      case (Some(p), Some(ps)) => Some([p] + ps)
      case _ => None
  {
    ConsParts(s, segs);
  }

  /** Escaping a list of segments round-trips through unescaping it. */
  lemma {:induction false} UnescapeAllEscapeAll(parts: seq<string>)
    ensures UnescapeAll(EscapeAll(parts)) == Some(parts)
  {
    if parts != [] {
      var h, t := parts[0], parts[1..];
      HeadTail(parts);
      EscapeAllCons(h, t);
      UnescapeEscape(h);
      UnescapeAllEscapeAll(t);
      UnescapeAllCons(Escape(h), EscapeAll(t));
    }
  }
}

=== FILE: s3_storage.dfy ===
/** The S3 backend: object addresses, signed requests and the reading of
    the HTTP status of each reply.

    Sending the request is I/O and is not modelled as such. In its place,
    `ObjectServer` is a reference model of the server side — an object store
    keyed by request target that answers PUT, GET, HEAD and DELETE the way
    the S3 REST API documents, on an object and on the bucket itself — and the
    end-to-end lemmas at the bottom state what the backend's four operations
    achieve against it. */
module S3Storage {
  import opened Bytes
  import opened Outcomes
  import opened Strings
  import opened PercentEncoding
  import opened DotSegments
  import SigV4

  /** The constructor arguments: bucket, endpoint host, region, key pair and addressing style. */
  datatype S3Config = S3Config(
    bucket: string,
    endpointHost: string,
    region: string,
    accessKey: string,
    secretKey: string,
    usePathStyle: bool)

  function Credentials(cfg: S3Config): SigV4.Credentials {
    SigV4.Credentials(cfg.accessKey, cfg.secretKey, cfg.region)
  }

  datatype Verb = Put | Get | Head | Delete

  /** `HttpMethod.Method`. */
  function VerbName(v: Verb): string {
    match v
    case Put => "PUT"
    case Get => "GET"
    case Head => "HEAD"
    case Delete => "DELETE"
  }

  const UnsignedPayload: string := "UNSIGNED-PAYLOAD"

  // ---------------------------------------------------------------------------
  // Object keys and request targets (BuildUri)
  // ---------------------------------------------------------------------------

  /** The object key: the id split at `/`, each segment escaped, rejoined with `/`. */
  function ObjectKey(id: string): string {
    Join(EscapeAll(Split(id, '/')), '/')
  }

  /** Reads an object key back into the id it was made from. */
  function DecodeKey(key: string): Option<string> {
    match UnescapeAll(Split(key, '/'))
    case None => None
    case Some(parts) => Some(Join(parts, '/'))
  }

  /** The slashes of the id are exactly the slashes of the key: its segments are the
      id's segments, each escaped (and so free of `/`). */
  lemma ObjectKeySegments(id: string)
    ensures Split(ObjectKey(id), '/') == EscapeAll(Split(id, '/'))
  {
    var parts := EscapeAll(Split(id, '/'));
    forall i | 0 <= i < |parts| ensures '/' !in parts[i] {
      EscapeHasNoDelimiters(Split(id, '/')[i]);
    }
    SplitJoin(parts, '/');
  }

  /** The key encoding is lossless. */
  lemma DecodeObjectKey(id: string)
    ensures DecodeKey(ObjectKey(id)) == Some(id)
  {
    ObjectKeySegments(id);
    UnescapeAllEscapeAll(Split(id, '/'));
    JoinSplit(id, '/');
  }

  /** The key carries no character that would end the path of a URI, nor a line break. */
  lemma ObjectKeyHasNoDelimiters(id: string)
    ensures '?' !in ObjectKey(id) && '#' !in ObjectKey(id) && '\n' !in ObjectKey(id)
  {
    var parts := EscapeAll(Split(id, '/'));
    forall i | 0 <= i < |parts| ensures '?' !in parts[i] && '#' !in parts[i] && '\n' !in parts[i] {
      EscapeHasNoDelimiters(Split(id, '/')[i]);
    }
    JoinExcludes(parts, '/', '?');
    JoinExcludes(parts, '/', '#');
    JoinExcludes(parts, '/', '\n');
  }

  /** Where a request goes: the `Host` header value and the absolute path. */
  datatype Target = Target(host: string, path: string)

  /** `https://{host}{path}`. */
  function Url(t: Target): string {
    "https://" + t.host + t.path
  }

  /** The path `BuildUri` writes into the URI string: `/{key}`, or `/{bucket}/{key}` in
      path style. */
  function RawPath(cfg: S3Config, id: string): (p: string)
    ensures |p| >= 1 && p[0] == '/'
  {
    if cfg.usePathStyle then "/" + cfg.bucket + "/" + ObjectKey(id) else "/" + ObjectKey(id)
  }

  /** The written path's pieces are the id's pieces, escaped, behind the bucket in path
      style. */
  lemma RawPathPieces(cfg: S3Config, id: string)
    ensures !cfg.usePathStyle ==> Split(RawPath(cfg, id)[1..], '/') == EscapeAll(Split(id, '/'))
    ensures cfg.usePathStyle && '/' !in cfg.bucket ==>
      Split(RawPath(cfg, id)[1..], '/') == [cfg.bucket] + EscapeAll(Split(id, '/'))
  {
    var key := ObjectKey(id);
    ObjectKeySegments(id);
    if cfg.usePathStyle {
      PathStyleSplit(cfg.bucket, key);
    } else {
      assert RawPath(cfg, id)[1..] == key;
    }
  }

  lemma PathStyleSplit(bucket: string, key: string)
    ensures '/' !in bucket ==> Split(("/" + bucket + "/" + key)[1..], '/') == [bucket] + Split(key, '/')
  {
    var path := "/" + bucket + "/" + key;
    assert path[1..] == bucket + "/" + key;
    if '/' !in bucket {
      SplitAfterPiece(bucket, '/', key);
    }
  }

  /** An id none of whose `/`-pieces is `.` or `..`. */
  predicate DotFreeId(id: string) {
    DotFree(Split(id, '/'))
  }

  /** A bucket that path style can put in one path segment: no `/`, and not a dot
      segment (S3 bucket names are never either). */
  predicate PlainBucket(cfg: S3Config) {
    cfg.usePathStyle ==> '/' !in cfg.bucket && !IsDot(cfg.bucket)
  }

  /** For a dot-free id and a plain bucket, the written path has no dot segment. */
  lemma RawPathDotFree(cfg: S3Config, id: string)
    ensures DotFreeId(id) && PlainBucket(cfg) ==> DotFree(Split(RawPath(cfg, id)[1..], '/'))
  {
    if DotFreeId(id) && PlainBucket(cfg) {
      RawPathPieces(cfg, id);
      EscapeAllDotFree(Split(id, '/'));
    }
  }

  /** `BuildUri`: virtual-hosted style puts the bucket in the host name, path style in
      the first path segment. The string becomes a `System.Uri`, whose path is the
      written path with its dot segments removed: that path is where the request goes
      and the canonical URI it is signed with. */
  function BuildUri(cfg: S3Config, id: string): (t: Target)
    ensures |t.path| >= 1 && t.path[0] == '/'
    ensures DotFreeId(id) && PlainBucket(cfg) ==> t.path == RawPath(cfg, id)
    ensures t.host == if cfg.usePathStyle then cfg.endpointHost else cfg.bucket + "." + cfg.endpointHost
  {
    RawPathDotFree(cfg, id);
    Target(HostOf(cfg), RemoveDotSegments(RawPath(cfg, id)))
  }

  /** The pieces of the target path are the written pieces with the dot segments
      removed. */
  lemma BuildUriPieces(cfg: S3Config, id: string)
    ensures !cfg.usePathStyle ==> Split(BuildUri(cfg, id).path[1..], '/') == RemoveDots(EscapeAll(Split(id, '/')))
    ensures cfg.usePathStyle && '/' !in cfg.bucket ==>
      Split(BuildUri(cfg, id).path[1..], '/') == RemoveDots([cfg.bucket] + EscapeAll(Split(id, '/')))
  {
    RawPathPieces(cfg, id);
    RemoveDotSegmentsPieces(RawPath(cfg, id));
  }

  /** The `Host` header: the endpoint in path style, `{bucket}.{endpoint}` otherwise. */
  function HostOf(cfg: S3Config): string {
    if cfg.usePathStyle then cfg.endpointHost else cfg.bucket + "." + cfg.endpointHost
  }

  /** What a server addressed in `cfg`'s style reads from a target: the id of the object
      named, or `None` when the target is not in this bucket. */
  function ObjectOf(cfg: S3Config, t: Target): Option<string> {
    if cfg.usePathStyle then
      var prefix := "/" + cfg.bucket + "/";
      if t.host == cfg.endpointHost && prefix <= t.path then DecodeKey(t.path[|prefix|..]) else None
    else if t.host == cfg.bucket + "." + cfg.endpointHost && |t.path| >= 1 && t.path[0] == '/' then
      DecodeKey(t.path[1..])
    else None
  }

  /** The target of an id without dot segments names the object it was built for. */
  lemma ObjectOfBuildUri(cfg: S3Config, id: string)
    requires DotFreeId(id) && PlainBucket(cfg)
    ensures ObjectOf(cfg, BuildUri(cfg, id)) == Some(id)
  {
    var t := BuildUri(cfg, id);
    DecodeObjectKey(id);
    if cfg.usePathStyle {
      var prefix := "/" + cfg.bucket + "/";
      assert t.path == prefix + ObjectKey(id);
      assert t.path[|prefix|..] == ObjectKey(id);
    } else {
      assert t.path[1..] == ObjectKey(id);
    }
  }

  /** Distinct ids without dot segments are sent to distinct targets. */
  lemma BuildUriInjective(cfg: S3Config, x: string, y: string)
    requires DotFreeId(x) && DotFreeId(y) && PlainBucket(cfg)
    requires BuildUri(cfg, x) == BuildUri(cfg, y)
    ensures x == y
  {
    ObjectOfBuildUri(cfg, x);
    ObjectOfBuildUri(cfg, y);
  }

  /** Two targets are the same when their hosts agree and their paths have the same
      pieces after the leading `/`. */
  lemma SameTarget(t: Target, u: Target)
    requires t.host == u.host
    requires |t.path| >= 1 && t.path[0] == '/' && |u.path| >= 1 && u.path[0] == '/'
    requires Split(t.path[1..], '/') == Split(u.path[1..], '/')
    ensures t == u
  {
    JoinSplit(t.path[1..], '/');
    JoinSplit(u.path[1..], '/');
    assert t.path == [t.path[0]] + t.path[1..];
    assert u.path == [u.path[0]] + u.path[1..];
  }

  /** In path style an id can leave the bucket: `System.Uri` sends `../{name}` to
      `/{name}`, the bucket `name`, whose CreateBucket answers the save. */
  lemma ParentLeavesBucket(cfg: S3Config, server: ObjectServer, name: string, data: seq<byte>)
    requires cfg.usePathStyle && PlainBucket(cfg)
    requires name != "" && name != cfg.bucket && forall k :: 0 <= k < |name| ==> IsUnreserved(name[k])
    requires !IsDot(name)
    ensures BuildUri(cfg, "../" + name).path == "/" + name
    ensures Elsewhere(cfg, BuildUri(cfg, "../" + name))
    ensures Save(cfg, server, "../" + name, data) ==
      (SaveReply(server.elsewhere(Verb.Put, BuildUri(cfg, "../" + name)).status), server)
  {
    ParentNamePath(cfg, name);
    OtherBucketElsewhere(cfg, BuildUri(cfg, "../" + name), name);
  }

  /** A path-style target `/{name}` for a name of unreserved characters other than the
      bucket's lies outside the bucket. */
  lemma OtherBucketElsewhere(cfg: S3Config, t: Target, name: string)
    requires cfg.usePathStyle && t.path == "/" + name
    requires name != cfg.bucket && forall k :: 0 <= k < |name| ==> IsUnreserved(name[k])
    ensures Elsewhere(cfg, t)
  {
    var prefix := "/" + cfg.bucket + "/";
    if |prefix| <= |t.path| {
      assert t.path[|prefix| - 1] == name[|cfg.bucket|];
      assert IsUnreserved(name[|cfg.bucket|]);
    }
    assert ("/" + cfg.bucket)[1..] == cfg.bucket;
  }

  /** The target path of `../{name}` in path style is `/{name}`. */
  lemma ParentNamePath(cfg: S3Config, name: string)
    requires cfg.usePathStyle && PlainBucket(cfg)
    requires name != "" && !IsDot(name) && forall k :: 0 <= k < |name| ==> IsUnreserved(name[k])
    ensures BuildUri(cfg, "../" + name).path == "/" + name
  {
    ParentNamePieces("..", name);
    assert ".." + "/" + name == "../" + name;
    PathStylePieces(cfg, "../" + name, "..", name);
    RemoveParentName(cfg.bucket, name);
    PathOfOnePiece(BuildUri(cfg, "../" + name).path, name);
  }

  lemma PathStylePieces(cfg: S3Config, id: string, x: string, y: string)
    requires cfg.usePathStyle && '/' !in cfg.bucket
    requires EscapeAll(Split(id, '/')) == [x, y]
    ensures Split(BuildUri(cfg, id).path[1..], '/') == RemoveDots([cfg.bucket, x, y])
  {
    BuildUriPieces(cfg, id);
    assert [cfg.bucket] + [x, y] == [cfg.bucket, x, y];
  }

  /** `{b}/../{name}` reduces to `{name}`. */
  lemma RemoveParentName(b: string, name: string)
    requires !IsDot(b) && !IsDot(name)
    ensures RemoveDots([b, "..", name]) == [name]
  {
    assert [b, ".."] + [name] == [b, "..", name];
    ParentCancels([], b, [name]);
    RemoveDotsFixes([name]);
  }

  /** An absolute path whose one piece is `name` is `/{name}`. */
  lemma PathOfOnePiece(path: string, name: string)
    requires |path| >= 1 && path[0] == '/' && Split(path[1..], '/') == [name]
    ensures path == "/" + name
  {
    JoinSplit(path[1..], '/');
    assert path == [path[0]] + path[1..];
  }

  /** The escaped pieces of `../{name}` for a name of unreserved characters. */
  lemma ParentNamePieces(dd: string, name: string)
    requires dd == ".." && forall k :: 0 <= k < |name| ==> IsUnreserved(name[k])
    ensures EscapeAll(Split(dd + "/" + name, '/')) == [dd, name]
  {
    assert '/' !in name by {
      forall k | 0 <= k < |name| ensures name[k] != '/' {
        assert IsUnreserved(name[k]);
      }
    }
    SplitTwo(dd, name);
    EscapeUnreservedOnly(dd);
    EscapeUnreservedOnly(name);
  }

  lemma SplitTwo(a: string, b: string)
    requires '/' !in a && '/' !in b
    ensures Split(a + "/" + b, '/') == [a, b]
  {
    assert a + "/" + b == a + ['/'] + b;
    SplitAfterPiece(a, '/', b);
    SplitPiece(b, '/');
  }

  /** Dot segments alias: `System.Uri` sends the id `x/../rest` to the object `rest`. */
  lemma DotSegmentsAlias(cfg: S3Config, x: string, rest: string)
    requires '/' !in x && !IsDot(x)
    requires cfg.usePathStyle ==> '/' !in cfg.bucket
    ensures BuildUri(cfg, x + "/../" + rest) == BuildUri(cfg, rest)
  {
    var id := x + "/../" + rest;
    ParentPieces(x, rest);
    EscapeKeepsDots(x);
    if cfg.usePathStyle {
      PathStyleAlias(cfg, id, Escape(x), rest);
    } else {
      VirtualStyleAlias(cfg, id, Escape(x), rest);
    }
    SameTarget(BuildUri(cfg, id), BuildUri(cfg, rest));
  }

  lemma PathStyleAlias(cfg: S3Config, id: string, ex: string, rest: string)
    requires cfg.usePathStyle && '/' !in cfg.bucket && !IsDot(ex)
    requires EscapeAll(Split(id, '/')) == [ex, ".."] + EscapeAll(Split(rest, '/'))
    ensures Split(BuildUri(cfg, id).path[1..], '/') == Split(BuildUri(cfg, rest).path[1..], '/')
  {
    BuildUriPieces(cfg, id);
    BuildUriPieces(cfg, rest);
    BucketParentCancels(cfg.bucket, ex, EscapeAll(Split(rest, '/')), EscapeAll(Split(id, '/')));
  }

  lemma BucketParentCancels(bucket: string, ex: string, tail: seq<string>, segs: seq<string>)
    requires !IsDot(ex) && tail != [] && segs == [ex, ".."] + tail
    ensures RemoveDots([bucket] + segs) == RemoveDots([bucket] + tail)
  {
    assert [bucket] + segs == [bucket, ex, ".."] + tail;
    ParentCancelsAfter(bucket, ex, tail);
  }

  lemma VirtualStyleAlias(cfg: S3Config, id: string, ex: string, rest: string)
    requires !cfg.usePathStyle && !IsDot(ex)
    requires EscapeAll(Split(id, '/')) == [ex, ".."] + EscapeAll(Split(rest, '/'))
    ensures Split(BuildUri(cfg, id).path[1..], '/') == Split(BuildUri(cfg, rest).path[1..], '/')
  {
    BuildUriPieces(cfg, id);
    BuildUriPieces(cfg, rest);
    ParentCancels([], ex, EscapeAll(Split(rest, '/')));
  }

  /** The escaped pieces of `x/../rest`. */
  lemma ParentPieces(x: string, rest: string)
    requires '/' !in x
    ensures EscapeAll(Split(x + "/../" + rest, '/')) == [Escape(x), ".."] + EscapeAll(Split(rest, '/'))
  {
    ParentSplit(x, rest);
    EscapeParentPieces(x, Split(rest, '/'));
  }

  lemma ParentSplit(x: string, rest: string)
    requires '/' !in x
    ensures Split(x + "/../" + rest, '/') == [x, ".."] + Split(rest, '/')
  {
    TwoPiecesSplit(x, "..", rest);
    assert x + "/" + ".." + "/" + rest == x + "/../" + rest;
  }

  /** Two separator-free pieces in front of a rest split off as two pieces. */
  lemma TwoPiecesSplit(x: string, y: string, rest: string)
    requires '/' !in x && '/' !in y
    ensures Split(x + "/" + y + "/" + rest, '/') == [x, y] + Split(rest, '/')
  {
    var t := y + ['/'] + rest;
    assert x + "/" + y + "/" + rest == x + ['/'] + t;
    SplitAfterPiece(y, '/', rest);
    SplitAfterPiece(x, '/', t);
    assert [x] + ([y] + Split(rest, '/')) == [x, y] + Split(rest, '/');
  }

  /** In virtual-hosted style the id `..` addresses the bucket's root path. */
  lemma ParentIdIsRoot(cfg: S3Config)
    requires !cfg.usePathStyle
    ensures BuildUri(cfg, "..").path == "/"
  {
    var v := BuildUri(cfg, "..");
    BuildUriPieces(cfg, "..");
    assert Split("..", '/') == [".."] by {
      SplitPiece("..", '/');
    }
    assert EscapeAll([".."]) == [".."] by {
      assert IsUnreserved('.');
      EscapeUnreservedOnly("..");
    }
    ParentOfRoot();
    JoinSplit(v.path[1..], '/');
    assert v.path == [v.path[0]] + v.path[1..];
  }

  // ---------------------------------------------------------------------------
  // Signed requests
  // ---------------------------------------------------------------------------

  /** `x-amz-content-sha256`: the hex SHA-256 of the body for PUT, the literal
      `UNSIGNED-PAYLOAD` for the body-less verbs. */
  function PayloadHash(h: SigV4.HashSuite, v: Verb, data: seq<byte>): (p: string)
    ensures p == UnsignedPayload <==> v != Put
    ensures v == Put ==> p == HexLower(h.sha256(data))
    ensures v == Put && SigV4.DigestSized(h) ==> |p| == 64 && forall i :: 0 <= i < |p| ==> IsLowerHexChar(p[i])
  {
    if v == Put then
      var p := HexLower(h.sha256(data));
      HexIsNotUnsigned(p);
      p
    else UnsignedPayload
  }

  /** The PUT payload hash pins the body's digest: two bodies with the same hash
      header have the same SHA-256. */
  lemma PayloadHashBindsDigest(h: SigV4.HashSuite, a: seq<byte>, b: seq<byte>)
    requires PayloadHash(h, Put, a) == PayloadHash(h, Put, b)
    ensures h.sha256(a) == h.sha256(b)
  {
    HexLowerInjective(h.sha256(a), h.sha256(b));
  }

  lemma HexIsNotUnsigned(p: string)
    requires forall i :: 0 <= i < |p| ==> IsLowerHexChar(p[i])
    ensures p != UnsignedPayload
  {
    assert UnsignedPayload[0] == 'U';
    if |p| > 0 {
      assert IsLowerHexChar(p[0]);
    }
  }

  /** What goes on the wire. */
  datatype SignedRequest = SignedRequest(
    verb: Verb,
    target: Target,
    amzDate: string,
    payloadHash: string,
    authorization: string,
    body: seq<byte>)

  /** Builds, stamps and signs the request for one operation at time `t`. The URI has no
      query: the escaped key contains no `?` (`ObjectKeyHasNoDelimiters`). */
  function BuildRequest(cfg: S3Config, h: SigV4.HashSuite, v: Verb, id: string, data: seq<byte>, t: SigV4.UtcDateTime): (r: SignedRequest)
    requires SigV4.ValidDateTime(t)
    ensures r.verb == v && r.target == BuildUri(cfg, id)
    ensures r.body == (if v == Put then data else [])
    ensures r.amzDate == SigV4.AmzDate(t)
    ensures r.payloadHash == PayloadHash(h, v, data)
  {
    var target := BuildUri(cfg, id);
    var payload := PayloadHash(h, v, data);
    var signing := SigV4.SignV4(h, Credentials(cfg), VerbName(v), target.host, target.path, "", payload, t);
    SignedRequest(v, target, SigV4.AmzDate(t), payload, signing.authorization, if v == Put then data else [])
  }

  /** None of the values the canonical request is built from contains a line break. */
  lemma RequestFieldsOnOneLine(cfg: S3Config, h: SigV4.HashSuite, v: Verb, id: string, data: seq<byte>)
    requires '\n' !in cfg.bucket && '\n' !in cfg.endpointHost
    requires SigV4.DigestSized(h)
    ensures var target := BuildUri(cfg, id);
      '\n' !in target.path && '\n' !in target.host && '\n' !in PayloadHash(h, v, data) && '\n' !in VerbName(v)
  {
    ObjectKeyHasNoDelimiters(id);
    RemoveDotSegmentsExcludes(RawPath(cfg, id), '\n');
    var p := PayloadHash(h, v, data);
    if v == Put {
      forall i | 0 <= i < |p| ensures p[i] != '\n' {
        assert IsLowerHexChar(p[i]);
      }
    } else {
      assert '\n' !in UnsignedPayload;
    }
  }

  /** The signature covers what the request says: the canonical request it signs is the
      verb, the path and the `host`, `x-amz-content-sha256` and `x-amz-date` values the
      request carries, and the credential names the access key and the day's scope. */
  lemma RequestSignatureCovers(cfg: S3Config, h: SigV4.HashSuite, v: Verb, id: string, data: seq<byte>, t: SigV4.UtcDateTime)
    requires SigV4.ValidDateTime(t)
    requires '\n' !in cfg.bucket && '\n' !in cfg.endpointHost && '\n' !in cfg.region
    requires ',' !in cfg.accessKey && ',' !in cfg.region
    requires SigV4.DigestSized(h)
    ensures var r := BuildRequest(cfg, h, v, id, data, t);
      var s := SigV4.SignV4(h, Credentials(cfg), VerbName(v), r.target.host, r.target.path, "", r.payloadHash, t);
      && r.authorization == s.authorization
      && Split(s.canonicalRequest, '\n')
         == SigV4.CanonicalLines(VerbName(r.verb), r.target.path, r.target.host, r.payloadHash, r.amzDate)
      && Split(r.authorization, ',')[0]
         == SigV4.Algorithm + " Credential=" + cfg.accessKey + "/" + SigV4.Scope(SigV4.DateStamp(t), cfg.region)
      && r.payloadHash == (if v == Put then HexLower(h.sha256(r.body)) else UnsignedPayload)
  {
    var target := BuildUri(cfg, id);
    var payload := PayloadHash(h, v, data);
    RequestFieldsOnOneLine(cfg, h, v, id, data);
    SigV4.SignV4Layout(h, Credentials(cfg), VerbName(v), target.host, target.path, payload, t);
    SigV4.SignV4Authorization(h, Credentials(cfg), VerbName(v), target.host, target.path, "", payload, t);
  }

  // ---------------------------------------------------------------------------
  // Reading the reply
  // ---------------------------------------------------------------------------

  /** `HttpResponseMessage.IsSuccessStatusCode`. */
  predicate IsSuccessStatus(status: int) {
    200 <= status <= 299
  }

  const NotFound: int := 404
  const NoContent: int := 204
  const OK: int := 200

  /** `SaveAsync` after the send: `EnsureSuccessStatusCode`. */
  function SaveReply(status: int): (r: Result<Unit>)
    ensures r.Ok? <==> IsSuccessStatus(status)
    ensures r.Err? ==> r.error == HttpFailure(status)
  {
    if IsSuccessStatus(status) then Ok(Unit) else Err(HttpFailure(status))
  }

  /** `GetAsync` after the send: 404 is "not found", any other failure status an HTTP
      error, and a success returns the body unchanged. */
  function GetReply(status: int, body: seq<byte>): (r: Result<seq<byte>>)
    ensures r.Ok? <==> IsSuccessStatus(status)
    ensures r.Ok? ==> r.value == body
    ensures r.Err? ==> r.error == (if status == NotFound then ContentNotFound else HttpFailure(status))
  {
    if status == NotFound then Err(ContentNotFound)
    else if !IsSuccessStatus(status) then Err(HttpFailure(status))
    else Ok(body)
  }

  /** `ExistsAsync` after the send. */
  function ExistsReply(status: int): bool {
    IsSuccessStatus(status)
  }

  /** `DeleteAsync` after the send: 204, 200 and 404 are accepted outright; anything
      else goes through `EnsureSuccessStatusCode`. */
  function DeleteReply(status: int): (r: Result<Unit>)
    ensures r.Ok? <==> IsSuccessStatus(status) || status == NotFound
    ensures r.Err? ==> r.error == HttpFailure(status)
  {
    if status != NoContent && status != OK && status != NotFound then SaveReply(status) else Ok(Unit)
  }

  /** How the four verbs read one status: GET succeeds exactly when HEAD answers true,
      DELETE also accepts 404, and a 404 is "not found" to GET, `false` to HEAD and
      success to DELETE. */
  lemma StatusRules(status: int, body: seq<byte>)
    ensures GetReply(status, body).Ok? <==> ExistsReply(status)
    ensures SaveReply(status).Ok? <==> ExistsReply(status)
    ensures DeleteReply(status).Ok? <==> ExistsReply(status) || status == NotFound
    ensures status == NotFound ==>
      && GetReply(status, body) == Err(ContentNotFound)
      && !ExistsReply(status)
      && DeleteReply(status) == Ok(Unit)
  {
  }

  // ---------------------------------------------------------------------------
  // A reference object server and the end-to-end behaviour
  // ---------------------------------------------------------------------------

  /** The server for the configured bucket: the bucket's objects by request target,
      the body it renders for a GET on the bucket (the XML listing, whose format is
      outside this model), and the answer to a request that leaves the bucket, which
      path style allows: the service `/`, another bucket, or an object in one. */
  datatype ObjectServer = ObjectServer(
    objects: map<Target, seq<byte>>,
    listing: (Target, map<Target, seq<byte>>) -> seq<byte>,
    elsewhere: (Verb, Target) -> Reply)

  datatype Reply = Reply(status: int, body: seq<byte>)

  /** A target on the configured bucket itself: `/` virtual-hosted, and `/{bucket}` or
      `/{bucket}/` in path style. */
  predicate BucketLevel(cfg: S3Config, t: Target) {
    if cfg.usePathStyle then t.path == "/" + cfg.bucket || t.path == "/" + cfg.bucket + "/"
    else t.path == "/"
  }

  /** A target inside the configured bucket: every target virtual-hosted, and in path
      style those below `/{bucket}/`. */
  predicate InBucket(cfg: S3Config, t: Target) {
    var prefix := "/" + cfg.bucket + "/";
    !cfg.usePathStyle || (|prefix| <= |t.path| && t.path[..|prefix|] == prefix)
  }

  /** A target naming an object of the configured bucket. */
  predicate ObjectLevel(cfg: S3Config, t: Target) {
    InBucket(cfg, t) && !BucketLevel(cfg, t)
  }

  /** A path-style target outside the configured bucket. */
  predicate Elsewhere(cfg: S3Config, t: Target) {
    !InBucket(cfg, t) && !BucketLevel(cfg, t)
  }

  /** The configured bucket holds no object. */
  predicate BucketEmpty(cfg: S3Config, server: ObjectServer) {
    forall t :: t in server.objects ==> !InBucket(cfg, t)
  }

  /** `409 Conflict`: `BucketAlreadyOwnedByYou` for PUT, `BucketNotEmpty` for DELETE. */
  const Conflict: int := 409

  /** An S3-compatible server, given the verb, target and body of a request. On an
      object, PUT stores and answers 200; GET answers 200 with the object or 404; HEAD
      answers 200 or 404 without a body; DELETE removes and answers 204 whether or not
      the object was there. On the bucket, PUT is CreateBucket and answers 409 for a
      bucket that exists; GET is ListObjects and answers 200 with the listing; HEAD is
      HeadBucket and answers 200; DELETE is DeleteBucket and answers 409 while the
      bucket holds objects, 204 otherwise. A request outside the bucket gets the
      server's answer for it. Only PUT and DELETE on an object change the server. */
  function Serve(cfg: S3Config, server: ObjectServer, v: Verb, target: Target, body: seq<byte>): (res: (Reply, ObjectServer))
    ensures v == Verb.Get || v == Verb.Head || !ObjectLevel(cfg, target) ==> res.1 == server
    ensures || res.1 == server
            || res.1 == server.(objects := server.objects[target := body])
            || res.1 == server.(objects := server.objects - {target})
    ensures Elsewhere(cfg, target) ==> res.0 == server.elsewhere(v, target)
  {
    if Elsewhere(cfg, target) then (server.elsewhere(v, target), server)
    else if BucketLevel(cfg, target) then
      match v
      case Put => (Reply(Conflict, []), server)
      case Get => (Reply(OK, server.listing(target, server.objects)), server)
      case Head => (Reply(OK, []), server)
      case Delete => (Reply(if BucketEmpty(cfg, server) then NoContent else Conflict, []), server)
    else
      match v
      case Put => (Reply(OK, []), server.(objects := server.objects[target := body]))
      case Get =>
        (if target in server.objects then Reply(OK, server.objects[target]) else Reply(NotFound, []), server)
      case Head => (if target in server.objects then Reply(OK, []) else Reply(NotFound, []), server)
      case Delete => (Reply(NoContent, []), server.(objects := server.objects - {target}))
  }

  /** PUT at a target, then `EnsureSuccessStatusCode`. */
  function SaveAt(cfg: S3Config, server: ObjectServer, t: Target, data: seq<byte>): (Result<Unit>, ObjectServer) {
    var (reply, server') := Serve(cfg, server, Verb.Put, t, data);
    (SaveReply(reply.status), server')
  }

  function GetAt(cfg: S3Config, server: ObjectServer, t: Target): Result<seq<byte>> {
    var (reply, _) := Serve(cfg, server, Verb.Get, t, []);
    GetReply(reply.status, reply.body)
  }

  function ExistsAt(cfg: S3Config, server: ObjectServer, t: Target): bool {
    var (reply, _) := Serve(cfg, server, Verb.Head, t, []);
    ExistsReply(reply.status)
  }

  function DeleteAt(cfg: S3Config, server: ObjectServer, t: Target): (Result<Unit>, ObjectServer) {
    var (reply, server') := Serve(cfg, server, Verb.Delete, t, []);
    (DeleteReply(reply.status), server')
  }

  /** `SaveAsync`: PUT the data at the blob's target. */
  function Save(cfg: S3Config, server: ObjectServer, id: string, data: seq<byte>): (r: (Result<Unit>, ObjectServer))
    ensures var t := BuildUri(cfg, id);
      && (ObjectLevel(cfg, t) ==> r == (Ok(Unit), server.(objects := server.objects[t := data])))
      && (BucketLevel(cfg, t) ==> r == (Err(HttpFailure(Conflict)), server))
      && (Elsewhere(cfg, t) ==> r == (SaveReply(server.elsewhere(Verb.Put, t).status), server))
  {
    SaveAt(cfg, server, BuildUri(cfg, id), data)
  }

  /** `GetAsync`. */
  function Get(cfg: S3Config, server: ObjectServer, id: string): (r: Result<seq<byte>>)
    ensures var t := BuildUri(cfg, id);
      && (ObjectLevel(cfg, t) ==> (r.Ok? <==> t in server.objects))
      && (ObjectLevel(cfg, t) && r.Ok? ==> r.value == server.objects[t])
      && (ObjectLevel(cfg, t) && r.Err? ==> r.error == ContentNotFound)
      && (BucketLevel(cfg, t) ==> r == Ok(server.listing(t, server.objects)))
      && (Elsewhere(cfg, t) ==> r == GetReply(server.elsewhere(Verb.Get, t).status, server.elsewhere(Verb.Get, t).body))
  {
    GetAt(cfg, server, BuildUri(cfg, id))
  }

  /** `ExistsAsync`. */
  function Exists(cfg: S3Config, server: ObjectServer, id: string): (b: bool)
    ensures var t := BuildUri(cfg, id);
      && (ObjectLevel(cfg, t) ==> (b <==> t in server.objects))
      && (BucketLevel(cfg, t) ==> b)
      && (Elsewhere(cfg, t) ==> (b <==> IsSuccessStatus(server.elsewhere(Verb.Head, t).status)))
  {
    ExistsAt(cfg, server, BuildUri(cfg, id))
  }

  /** `DeleteAsync`. */
  function Delete(cfg: S3Config, server: ObjectServer, id: string): (r: (Result<Unit>, ObjectServer))
    ensures var t := BuildUri(cfg, id);
      && (ObjectLevel(cfg, t) ==> r == (Ok(Unit), server.(objects := server.objects - {t})))
      && (BucketLevel(cfg, t) ==> r.1 == server && (r.0.Ok? <==> BucketEmpty(cfg, server)))
      && (BucketLevel(cfg, t) && r.0.Err? ==> r.0.error == HttpFailure(Conflict))
      && (Elsewhere(cfg, t) ==> r == (DeleteReply(server.elsewhere(Verb.Delete, t).status), server))
  {
    DeleteAt(cfg, server, BuildUri(cfg, id))
  }

  /** Among ids without dot segments, none leaves the bucket, and exactly the empty id
      reaches the bucket rather than an object. */
  lemma BucketLevelIds(cfg: S3Config, id: string)
    requires DotFreeId(id) && PlainBucket(cfg)
    ensures !Elsewhere(cfg, BuildUri(cfg, id))
    ensures BucketLevel(cfg, BuildUri(cfg, id)) <==> id == ""
  {
    var key, t := ObjectKey(id), BuildUri(cfg, id);
    EmptyKey();
    DecodeObjectKey(id);
    DecodeObjectKey("");
    assert key == "" <==> id == "";
    if cfg.usePathStyle {
      var prefix := "/" + cfg.bucket + "/";
      assert t.path == prefix + key;
      assert t.path[..|prefix|] == prefix;
      if key != "" {
        assert |t.path| > |prefix|;
      }
    } else {
      assert t.path == "/" + key;
    }
  }

  /** The empty id has the empty key. */
  lemma EmptyKey()
    ensures ObjectKey("") == ""
  {
    assert Split("", '/') == [""];
    EscapeUnreservedOnly("");
    assert EscapeAll([""]) == [""];
  }

  /** A save stores the blob so that it reads back and exists. When the id reaches the
      bucket, the PUT is CreateBucket, fails with 409 and changes nothing; when it
      leaves the bucket, nothing of the bucket changes. */
  lemma SaveThenGet(cfg: S3Config, server: ObjectServer, id: string, data: seq<byte>)
    ensures var (r, server') := Save(cfg, server, id, data);
      var t := BuildUri(cfg, id);
      && (ObjectLevel(cfg, t) ==> r == Ok(Unit) && Get(cfg, server', id) == Ok(data) && Exists(cfg, server', id))
      && (BucketLevel(cfg, t) ==> r == Err(HttpFailure(Conflict)) && server' == server)
      && (Elsewhere(cfg, t) ==> server' == server)
  {
  }

  /** A PUT at one target leaves what every other target answers to HEAD as it was,
      and what it answers to GET unless it is at the bucket, whose listing the PUT may
      change. */
  lemma SaveAtKeepsOthers(cfg: S3Config, server: ObjectServer, t: Target, u: Target, data: seq<byte>)
    requires t != u
    ensures var (_, server') := SaveAt(cfg, server, t, data);
      && ExistsAt(cfg, server', u) == ExistsAt(cfg, server, u)
      && (!BucketLevel(cfg, u) ==> GetAt(cfg, server', u) == GetAt(cfg, server, u))
  {
  }

  /** Saving one id leaves every other id's object as it was, for ids without dot
      segments; `SaveOverwritesAlias` shows the other case. The empty id reads the
      bucket's listing, which a save changes; that it still exists does not change. */
  lemma SaveKeepsOthers(cfg: S3Config, server: ObjectServer, id: string, other: string, data: seq<byte>)
    requires other != id
    requires DotFreeId(id) && DotFreeId(other) && PlainBucket(cfg)
    ensures var (_, server') := Save(cfg, server, id, data);
      && Exists(cfg, server', other) == Exists(cfg, server, other)
      && (other != "" ==> Get(cfg, server', other) == Get(cfg, server, other))
  {
    BucketLevelIds(cfg, other);
    if BuildUri(cfg, id) == BuildUri(cfg, other) {
      BuildUriInjective(cfg, id, other);
    }
    SaveAtKeepsOthers(cfg, server, BuildUri(cfg, id), BuildUri(cfg, other), data);
  }

  /** An id with a dot segment can overwrite another blob: saving `x/../rest` is saving
      `rest`, which replaces what `rest` reads when `rest` names an object. */
  lemma SaveOverwritesAlias(cfg: S3Config, server: ObjectServer, x: string, rest: string, data: seq<byte>)
    requires '/' !in x && !IsDot(x)
    requires cfg.usePathStyle ==> '/' !in cfg.bucket
    ensures Save(cfg, server, x + "/../" + rest, data) == Save(cfg, server, rest, data)
    ensures var (r, server') := Save(cfg, server, rest, data);
      && (ObjectLevel(cfg, BuildUri(cfg, rest)) ==> r == Ok(Unit) && Get(cfg, server', rest) == Ok(data))
      && (!ObjectLevel(cfg, BuildUri(cfg, rest)) ==> server' == server)
  {
    DotSegmentsAlias(cfg, x, rest);
  }

  /** A blob the server does not hold is reported as not found, and as not existing;
      at the bucket, GET answers the listing and HEAD that the bucket exists; outside
      the bucket, both read the server's answer. */
  lemma GetMissing(cfg: S3Config, server: ObjectServer, id: string)
    requires BuildUri(cfg, id) !in server.objects
    ensures var t := BuildUri(cfg, id);
      && (ObjectLevel(cfg, t) ==> Get(cfg, server, id) == Err(ContentNotFound) && !Exists(cfg, server, id))
      && (BucketLevel(cfg, t) ==> Get(cfg, server, id) == Ok(server.listing(t, server.objects)) && Exists(cfg, server, id))
      && (Elsewhere(cfg, t) ==>
            && Get(cfg, server, id) == GetReply(server.elsewhere(Verb.Get, t).status, server.elsewhere(Verb.Get, t).body)
            && (Exists(cfg, server, id) <==> IsSuccessStatus(server.elsewhere(Verb.Head, t).status)))
  {
  }

  /** At an object's target, DELETE succeeds, leaves nothing, and a second DELETE
      changes nothing. */
  lemma DeleteAtTwice(cfg: S3Config, server: ObjectServer, t: Target)
    requires ObjectLevel(cfg, t)
    ensures var server' := server.(objects := server.objects - {t});
      && DeleteAt(cfg, server, t) == (Ok(Unit), server')
      && !ExistsAt(cfg, server', t)
      && DeleteAt(cfg, server', t) == (Ok(Unit), server')
  {
    assert (server.objects - {t}) - {t} == server.objects - {t};
  }

  /** Delete succeeds whether or not the blob exists, and afterwards it does not. At the
      bucket, DELETE is DeleteBucket: it changes nothing, the bucket still answers HEAD,
      and it succeeds exactly when the bucket holds no object. Outside the bucket it
      changes nothing here. Deleting twice answers as deleting once. */
  lemma DeleteIdempotent(cfg: S3Config, server: ObjectServer, id: string)
    ensures var (r, server') := Delete(cfg, server, id);
      var t := BuildUri(cfg, id);
      && Delete(cfg, server', id) == (if ObjectLevel(cfg, t) then Ok(Unit) else r, server')
      && (ObjectLevel(cfg, t) ==> r == Ok(Unit) && !Exists(cfg, server', id))
      && (BucketLevel(cfg, t) ==> server' == server && Exists(cfg, server', id) && (r == Ok(Unit) <==> BucketEmpty(cfg, server)))
      && (Elsewhere(cfg, t) ==> server' == server && r == DeleteReply(server.elsewhere(Verb.Delete, t).status))
  {
    var t := BuildUri(cfg, id);
    if ObjectLevel(cfg, t) {
      DeleteAtTwice(cfg, server, t);
    }
  }
}

=== FILE: sequences.dfy ===
/** Facts about concatenation on sequences of any element type. Stated once here so
    that proofs about lists of strings use them without comparing the strings
    element by element. */
module Sequences {

  lemma ConsAppend<T>(h: T, x: seq<T>, y: seq<T>)
    ensures [h] + (x + y) == [h] + x + y
  {
  }

  lemma HeadTailAppend<T>(x: seq<T>, y: seq<T>)
    requires |x| >= 1
    ensures (x + y)[0] == x[0] && (x + y)[1..] == x[1..] + y
  {
  }

  lemma ConsParts<T>(h: T, t: seq<T>)
    ensures ([h] + t)[0] == h && ([h] + t)[1..] == t
  {
  }

  lemma HeadTail<T>(x: seq<T>)
    requires |x| >= 1
    ensures x == [x[0]] + x[1..]
  {
  }

  lemma AppendAssoc<T>(a: seq<T>, b: seq<T>, c: seq<T>)
    ensures a + b + c == a + (b + c)
  {
  }
}

=== FILE: sigv4.dfy ===
/** The request signer of the S3 backend: AWS Signature Version 4 as the
    backend computes it by hand.

    The steps are the ones the AWS documentation names: build the canonical
    request, hash it into the string to sign, derive the signing key through
    four chained HMACs, sign, and assemble the `Authorization` header.
    SHA-256 (FIPS 180-4) and HMAC-SHA256 (RFC 2104) are not modelled; they
    are the two function fields of `HashSuite`, and only their output length
    is assumed, where a property depends on it. */
module SigV4 {
  import opened Bytes
  import opened Outcomes
  import opened Strings
  import opened Ordinal
  import Utf8
  import Sequences

  /** The two digests the signer calls: `SHA256.HashData` and `HMACSHA256.ComputeHash(key, data)`. */
  datatype HashSuite = HashSuite(sha256: seq<byte> -> seq<byte>, hmacSha256: (seq<byte>, seq<byte>) -> seq<byte>)

  /** Both digests produce 32 bytes, as SHA-256 does. */
  ghost predicate DigestSized(h: HashSuite) {
    && (forall m :: |h.sha256(m)| == 32)
    && (forall k, m :: |h.hmacSha256(k, m)| == 32)
  }

  const Algorithm: string := "AWS4-HMAC-SHA256"
  const Service: string := "s3"
  const Terminator: string := "aws4_request"
  const KeyPrefix: string := "AWS4"

  // ---------------------------------------------------------------------------
  // The request timestamp: DateTimeOffset.UtcNow.ToString("yyyyMMddTHHmmssZ")
  // ---------------------------------------------------------------------------

  /** A UTC instant to the second. */
  datatype UtcDateTime = UtcDateTime(year: int, month: int, day: int, hour: int, minute: int, second: int)

  predicate IsLeapYear(y: int) {
    y % 4 == 0 && (y % 100 != 0 || y % 400 == 0)
  }

  function DaysInMonth(y: int, m: int): int {
    if m == 2 then (if IsLeapYear(y) then 29 else 28)
    else if m == 4 || m == 6 || m == 9 || m == 11 then 30
    else 31
  }

  /** The range a `DateTimeOffset` can hold. */
  predicate ValidDateTime(t: UtcDateTime) {
    && 1 <= t.year <= 9999
    && 1 <= t.month <= 12
    && 1 <= t.day <= DaysInMonth(t.year, t.month)
    && 0 <= t.hour < 24
    && 0 <= t.minute < 60
    && 0 <= t.second < 60
  }

  function Pow10(n: nat): nat {
    if n == 0 then 1 else 10 * Pow10(n - 1)
  }

  predicate IsDigit(c: char) {
    '0' <= c <= '9'
  }

  /** `n` in decimal, zero-padded to `width` digits (a custom format such as `"yyyy"` or `"MM"`). */
  function Digits(n: nat, width: nat): (s: string)
    ensures |s| == width
    ensures forall i :: 0 <= i < |s| ==> IsDigit(s[i])
  {
    if width == 0 then "" else Digits(n / 10, width - 1) + [('0' as int + n % 10) as char]
  }

  /** The number a string of decimal digits denotes. */
  function DigitsValue(s: string): nat
    requires forall i :: 0 <= i < |s| ==> IsDigit(s[i])
  {
    if s == [] then 0
    else
      assert IsDigit(s[|s| - 1]);
      DigitsValue(s[..|s| - 1]) * 10 + (s[|s| - 1] as int - '0' as int)
  }

  /** Zero-padded decimal loses nothing for numbers that fit the width. */
  lemma {:induction false} DigitsRoundTrip(n: nat, width: nat)
    requires n < Pow10(width)
    ensures DigitsValue(Digits(n, width)) == n
  {
    if width > 0 {
      var s := Digits(n, width);
      DigitsRoundTrip(n / 10, width - 1);
      assert s[..|s| - 1] == Digits(n / 10, width - 1);
    }
  }

  /** The `x-amz-date` value. */
  function AmzDate(t: UtcDateTime): (s: string)
    requires ValidDateTime(t)
    ensures IsAmzDate(s)
  {
    Digits(t.year, 4) + Digits(t.month, 2) + Digits(t.day, 2) + "T"
      + Digits(t.hour, 2) + Digits(t.minute, 2) + Digits(t.second, 2) + "Z"
  }

  /** Sixteen characters `yyyyMMddTHHmmssZ`. */
  predicate IsAmzDate(s: string) {
    && |s| == 16
    && (forall i :: 0 <= i < 8 ==> IsDigit(s[i]))
    && s[8] == 'T'
    && (forall i :: 9 <= i < 15 ==> IsDigit(s[i]))
    && s[15] == 'Z'
  }

  /** Reads an `x-amz-date` value back. */
  function ParseAmzDate(s: string): Option<UtcDateTime> {
    if !IsAmzDate(s) then None
    else
      var t := UtcDateTime(DigitsValue(s[0..4]), DigitsValue(s[4..6]), DigitsValue(s[6..8]),
                           DigitsValue(s[9..11]), DigitsValue(s[11..13]), DigitsValue(s[13..15]));
      if ValidDateTime(t) then Some(t) else None
  }

  /** The timestamp format is lossless. */
  lemma ParseAmzDateRoundTrip(t: UtcDateTime)
    requires ValidDateTime(t)
    ensures ParseAmzDate(AmzDate(t)) == Some(t)
  {
    var s := AmzDate(t);
    assert s[0..4] == Digits(t.year, 4);
    assert s[4..6] == Digits(t.month, 2);
    assert s[6..8] == Digits(t.day, 2);
    assert s[9..11] == Digits(t.hour, 2);
    assert s[11..13] == Digits(t.minute, 2);
    assert s[13..15] == Digits(t.second, 2);
    assert Pow10(2) == 100 && Pow10(4) == 10000;
    DigitsRoundTrip(t.year, 4);
    DigitsRoundTrip(t.month, 2);
    DigitsRoundTrip(t.day, 2);
    DigitsRoundTrip(t.hour, 2);
    DigitsRoundTrip(t.minute, 2);
    DigitsRoundTrip(t.second, 2);
  }

  /** `amzDate.Substring(0, 8)`: the `yyyyMMdd` part. */
  function DateStamp(t: UtcDateTime): (d: string)
    requires ValidDateTime(t)
    ensures |d| == 8 && d == AmzDate(t)[..8]
    ensures forall i :: 0 <= i < 8 ==> IsDigit(d[i])
  {
    AmzDate(t)[..8]
  }

  /** The date stamp names the calendar day and nothing finer. */
  lemma DateStampIsDay(t: UtcDateTime)
    requires ValidDateTime(t)
    ensures DateStamp(t) == Digits(t.year, 4) + Digits(t.month, 2) + Digits(t.day, 2)
  {
  }

  // ---------------------------------------------------------------------------
  // The canonical request
  // ---------------------------------------------------------------------------

  const HostHeader: string := "host"
  const ContentSha256Header: string := "x-amz-content-sha256"
  const DateHeader: string := "x-amz-date"
  const SignedHeaderList: string := HostHeader + ";" + ContentSha256Header + ";" + DateHeader

  /** The signed headers, entered into an ordinal `SortedDictionary` in the order the code
      lists them; whatever the values, it enumerates `host`, `x-amz-content-sha256`, `x-amz-date`. */
  function SigningHeaders(host: string, payloadHash: string, amzDate: string): (d: seq<Entry>)
    ensures StrictlySorted(d)
    ensures d == [Entry(HostHeader, host), Entry(ContentSha256Header, payloadHash), Entry(DateHeader, amzDate)]
  {
    HeaderNamesOrdered();
    PutThreeAscending(HostHeader, host, ContentSha256Header, payloadHash, DateHeader, amzDate);
    var d0 := Put([], HostHeader, host);
    var d1 := Put(d0, ContentSha256Header, payloadHash);
    Put(d1, DateHeader, amzDate)
  }

  function HeaderLine(e: Entry): string {
    e.key + ":" + e.value
  }

  /** `name:value` per header in dictionary order, joined by newlines, plus a final newline. */
  function CanonicalHeaders(d: seq<Entry>): string {
    Join(seq(|d|, i requires 0 <= i < |d| => HeaderLine(d[i])), '\n') + "\n"
  }

  /** The header names in dictionary order, joined by `;`. */
  function SignedHeaders(d: seq<Entry>): string {
    Join(Keys(d), ';')
  }

  /** The query without its `?`, split on `&` with empty pieces dropped, sorted, rejoined. */
  function CanonicalQuery(query: string): string {
    Join(Sort(RemoveEmpty(Split(TrimStart(query, '?'), '&'))), '&')
  }

  /** The six canonical-request fields joined by single newlines. */
  function CanonicalRequest(httpMethod: string, canonicalUri: string, query: string, headers: seq<Entry>, payloadHash: string): string {
    Join([httpMethod, canonicalUri, CanonicalQuery(query), CanonicalHeaders(headers), SignedHeaders(headers), payloadHash], '\n')
  }

  // ---------------------------------------------------------------------------
  // Scope, string to sign, signing key, signature, Authorization
  // ---------------------------------------------------------------------------

  /** `date/region/s3/aws4_request`. */
  function Scope(date: string, region: string): string {
    date + "/" + region + "/" + Service + "/" + Terminator
  }

  /** Lower-case hex SHA-256 of the UTF-8 bytes of a string. */
  function HashHex(h: HashSuite, s: string): string {
    HexLower(h.sha256(Utf8.Encode(s)))
  }

  /** The algorithm, the timestamp, the scope and the canonical-request hash, one per line. */
  function StringToSign(h: HashSuite, amzDate: string, scope: string, canonicalRequest: string): string {
    Join([Algorithm, amzDate, scope, HashHex(h, canonicalRequest)], '\n')
  }

  /** `GetSigningKey`: HMAC chained over the date, the region, the service and the terminator,
      starting from the secret key prefixed with `AWS4`. */
  function SigningKey(h: HashSuite, secretKey: string, date: string, region: string, service: string): (k: seq<byte>)
    ensures DigestSized(h) ==> |k| == 32
  {
    var kDate := h.hmacSha256(Utf8.Encode(KeyPrefix + secretKey), Utf8.Encode(date));
    var kRegion := h.hmacSha256(kDate, Utf8.Encode(region));
    var kService := h.hmacSha256(kRegion, Utf8.Encode(service));
    h.hmacSha256(kService, Utf8.Encode(Terminator))
  }

  /** Lower-case hex HMAC of the string to sign under the signing key. */
  function Signature(h: HashSuite, key: seq<byte>, stringToSign: string): (sig: string)
    ensures DigestSized(h) ==> |sig| == 64
    ensures forall i :: 0 <= i < |sig| ==> IsLowerHexChar(sig[i])
  {
    HexLower(h.hmacSha256(key, Utf8.Encode(stringToSign)))
  }

  function AuthorizationHeader(accessKey: string, scope: string, signedHeaders: string, signature: string): string {
    Algorithm + " Credential=" + accessKey + "/" + scope + ", SignedHeaders=" + signedHeaders + ", Signature=" + signature
  }

  /** What signing a request produces; the last field is the `Authorization` value. */
  datatype Signing = Signing(
    canonicalRequest: string,
    scope: string,
    stringToSign: string,
    signature: string,
    authorization: string)

  /** The credentials and region the signer is configured with. */
  datatype Credentials = Credentials(accessKey: string, secretKey: string, region: string)

  /** `SignV4`: signs a request whose `host`, `x-amz-content-sha256` and `x-amz-date`
      headers are `host`, `payloadHash` and the timestamp of `t`. */
  function SignV4(h: HashSuite, creds: Credentials, httpMethod: string, host: string, canonicalUri: string,
                  query: string, payloadHash: string, t: UtcDateTime): (s: Signing)
    requires ValidDateTime(t)
    ensures DigestSized(h) ==> |s.signature| == 64
  {
    var amzDate := AmzDate(t);
    var date := DateStamp(t);
    var headers := SigningHeaders(host, payloadHash, amzDate);
    var canonical := CanonicalRequest(httpMethod, canonicalUri, query, headers, payloadHash);
    var scope := Scope(date, creds.region);
    var toSign := StringToSign(h, amzDate, scope, canonical);
    var key := SigningKey(h, creds.secretKey, date, creds.region, Service);
    var sig := Signature(h, key, toSign);
    Signing(canonical, scope, toSign, sig, AuthorizationHeader(creds.accessKey, scope, SignedHeaders(headers), sig))
  }

  // ---------------------------------------------------------------------------
  // Properties of the signer
  // ---------------------------------------------------------------------------

  lemma HeaderNamesOrdered()
    ensures Less(HostHeader, ContentSha256Header)
    ensures Less(ContentSha256Header, DateHeader)
  {
    assert HostHeader[0] < ContentSha256Header[0];
    assert ContentSha256Header == "x-amz-" + "content-sha256";
    assert DateHeader == "x-amz-" + "date";
    LessAfterCommonPrefix("x-amz-", "content-sha256", "date");
  }

  lemma ThreeHeaderLines(e0: Entry, e1: Entry, e2: Entry)
    ensures CanonicalHeaders([e0, e1, e2]) == Join([HeaderLine(e0), HeaderLine(e1), HeaderLine(e2)], '\n') + "\n"
  {
    var d := [e0, e1, e2];
    var lines := seq(|d|, i requires 0 <= i < |d| => HeaderLine(d[i]));
    assert lines[0] == HeaderLine(e0) && lines[1] == HeaderLine(e1) && lines[2] == HeaderLine(e2);
    assert lines == [HeaderLine(e0), HeaderLine(e1), HeaderLine(e2)];
  }

  lemma ThreeSignedHeaders(e0: Entry, e1: Entry, e2: Entry)
    ensures SignedHeaders([e0, e1, e2]) == e0.key + ";" + e1.key + ";" + e2.key
  {
    assert Keys([e0, e1, e2]) == [e0.key, e1.key, e2.key];
    JoinThree(e0.key, e1.key, e2.key, ';');
  }

  /** The canonical header block is the three `name:value` lines in ordinal order, each
      ending in a newline, and the signed-header list names them in the same order. */
  lemma CanonicalHeaderBlock(host: string, payloadHash: string, amzDate: string)
    ensures CanonicalHeaders(SigningHeaders(host, payloadHash, amzDate))
         == Join([HostHeader + ":" + host, ContentSha256Header + ":" + payloadHash, DateHeader + ":" + amzDate], '\n') + "\n"
    ensures SignedHeaders(SigningHeaders(host, payloadHash, amzDate)) == SignedHeaderList
  {
    var e0, e1, e2 := Entry(HostHeader, host), Entry(ContentSha256Header, payloadHash), Entry(DateHeader, amzDate);
    ThreeHeaderLines(e0, e1, e2);
    ThreeSignedHeaders(e0, e1, e2);
  }

  lemma ThreeLinesText(a0: string, a1: string, b0: string, b1: string, c0: string, c1: string)
    ensures Join([a0 + a1, b0 + b1, c0 + c1], '\n') + "\n" == a0 + a1 + "\n" + b0 + b1 + "\n" + c0 + c1 + "\n"
  {
    JoinThree(a0 + a1, b0 + b1, c0 + c1, '\n');
  }

  lemma HostPrefixText()
    ensures HostHeader + ":" == "host:"
  {
  }

  lemma ContentSha256PrefixText()
    ensures ContentSha256Header + ":" == "x-amz-content-sha256:"
  {
  }

  lemma DatePrefixText()
    ensures DateHeader + ":" == "x-amz-date:"
  {
  }

  lemma SignedHeaderListText()
    ensures SignedHeaderList == "host;x-amz-content-sha256;x-amz-date"
  {
    assert HostHeader + ";" == "host;";
    assert "host;" + ContentSha256Header == "host;x-amz-content-sha256";
    assert "host;x-amz-content-sha256" + ";" == "host;x-amz-content-sha256;";
  }

  /** The canonical header block and the signed-header list, spelled out. */
  lemma CanonicalHeaderText(host: string, payloadHash: string, amzDate: string)
    ensures CanonicalHeaders(SigningHeaders(host, payloadHash, amzDate))
         == "host:" + host + "\n" + "x-amz-content-sha256:" + payloadHash + "\n" + "x-amz-date:" + amzDate + "\n"
    ensures SignedHeaders(SigningHeaders(host, payloadHash, amzDate)) == "host;x-amz-content-sha256;x-amz-date"
  {
    CanonicalHeaderBlock(host, payloadHash, amzDate);
    HostPrefixText();
    ContentSha256PrefixText();
    DatePrefixText();
    SignedHeaderListText();
    Sequences.AppendAssoc(HostHeader, ":", host);
    Sequences.AppendAssoc(ContentSha256Header, ":", payloadHash);
    Sequences.AppendAssoc(DateHeader, ":", amzDate);
    ThreeLinesText("host:", host, "x-amz-content-sha256:", payloadHash, "x-amz-date:", amzDate);
  }

  /** A URI without a query string contributes an empty third line. */
  lemma CanonicalQueryOfNoQuery()
    ensures CanonicalQuery("") == ""
  {
    assert TrimStart("", '?') == "";
    assert Split("", '&') == [""];
    assert RemoveEmpty([""]) == [];
  }

  /** The sorted query is a permutation of the non-empty `&`-separated parameters, in ordinal order. */
  lemma CanonicalQueryParameters(query: string)
    requires '&' !in query
    ensures CanonicalQuery(query) == (if TrimStart(query, '?') == "" then "" else TrimStart(query, '?'))
  {
    var q := TrimStart(query, '?');
    assert '&' !in q;
    SplitPiece(q, '&');
    if q == "" {
      assert RemoveEmpty([q]) == [];
    } else {
      assert RemoveEmpty([q]) == [q];
      assert Sort([q]) == Insert(q, Sort([]));
    }
  }

  /** The nine lines a query-less canonical request consists of. */
  function CanonicalLines(httpMethod: string, canonicalUri: string, host: string, payloadHash: string, amzDate: string): seq<string> {
    [httpMethod, canonicalUri, "", HostHeader + ":" + host, ContentSha256Header + ":" + payloadHash, DateHeader + ":" + amzDate,
     "", SignedHeaderList, payloadHash]
  }

  /** For a request without a query, the canonical request is: method, path, an empty
      query line, the three header lines, a blank line (the header block's own trailing
      newline followed by the separator), the signed-header list and the payload hash. */
  lemma CanonicalRequestLayout(httpMethod: string, canonicalUri: string, host: string, payloadHash: string, amzDate: string)
    ensures CanonicalRequest(httpMethod, canonicalUri, "", SigningHeaders(host, payloadHash, amzDate), payloadHash)
         == Join(CanonicalLines(httpMethod, canonicalUri, host, payloadHash, amzDate), '\n')
  {
    CanonicalQueryOfNoQuery();
    CanonicalHeaderBlock(host, payloadHash, amzDate);
    BlockLines(httpMethod, canonicalUri, HostHeader + ":" + host, ContentSha256Header + ":" + payloadHash,
               DateHeader + ":" + amzDate, SignedHeaderList, payloadHash, '\n');
  }

  /** Six fields whose fourth is a newline-terminated block of three lines are nine lines. */
  lemma BlockLines(m: string, u: string, h0: string, h1: string, h2: string, sh: string, p: string, sep: char)
    ensures Join([m, u, "", Join([h0, h1, h2], sep) + [sep], sh, p], sep) == Join([m, u, "", h0, h1, h2, "", sh, p], sep)
  {
    var h3 := [h0, h1, h2];
    var block := Join(h3, sep) + [sep];
    var a := [m, u, ""];
    var b := h3 + [""];
    var c := [sh, p];
    JoinAppend(h3, [""], sep);
    assert Join(b, sep) == block;
    assert [m, u, "", h0, h1, h2, "", sh, p] == a + (b + c);
    JoinAppend(a, b + c, sep);
    JoinAppend(b, c, sep);
    assert [m, u, "", block, sh, p] == a + ([block] + c);
    JoinAppend(a, [block] + c, sep);
    JoinAppend([block], c, sep);
  }

  lemma NoNewlineInNames()
    ensures '\n' !in HostHeader + ":" && '\n' !in ContentSha256Header + ":" && '\n' !in DateHeader + ":"
    ensures '\n' !in SignedHeaderList
  {
  }

  lemma NineLinesSplit(l0: string, l1: string, l2: string, l3: string, l4: string, l5: string, l6: string, l7: string, l8: string, sep: char)
    requires sep !in l0 && sep !in l1 && sep !in l2 && sep !in l3 && sep !in l4
    requires sep !in l5 && sep !in l6 && sep !in l7 && sep !in l8
    ensures Split(Join([l0, l1, l2, l3, l4, l5, l6, l7, l8], sep), sep) == [l0, l1, l2, l3, l4, l5, l6, l7, l8]
  {
    SplitJoin([l0, l1, l2, l3, l4, l5, l6, l7, l8], sep);
  }

  lemma HeaderLinesHaveNoNewline(host: string, payloadHash: string, amzDate: string)
    requires '\n' !in host && '\n' !in payloadHash && '\n' !in amzDate
    ensures '\n' !in HostHeader + ":" + host && '\n' !in ContentSha256Header + ":" + payloadHash
    ensures '\n' !in DateHeader + ":" + amzDate
  {
    NoNewlineInNames();
  }

  /** Read back line by line, the canonical request gives its nine lines: it can be
      parsed unambiguously as long as none of the inputs contains a newline. */
  lemma CanonicalRequestLines(httpMethod: string, canonicalUri: string, host: string, payloadHash: string, amzDate: string)
    requires '\n' !in httpMethod && '\n' !in canonicalUri && '\n' !in host && '\n' !in payloadHash && '\n' !in amzDate
    ensures Split(CanonicalRequest(httpMethod, canonicalUri, "", SigningHeaders(host, payloadHash, amzDate), payloadHash), '\n')
         == CanonicalLines(httpMethod, canonicalUri, host, payloadHash, amzDate)
  {
    CanonicalRequestLayout(httpMethod, canonicalUri, host, payloadHash, amzDate);
    HeaderLinesHaveNoNewline(host, payloadHash, amzDate);
    NoNewlineInNames();
    NineLinesSplit(httpMethod, canonicalUri, "", HostHeader + ":" + host, ContentSha256Header + ":" + payloadHash,
                   DateHeader + ":" + amzDate, "", SignedHeaderList, payloadHash, '\n');
  }

  /** The scope spelled out. */
  lemma ScopeText(date: string, region: string)
    ensures Scope(date, region) == date + "/" + region + "/s3/aws4_request"
  {
    assert "/" + Service + "/" + Terminator == "/s3/aws4_request";
  }

  /** The string to sign is four lines: algorithm, timestamp, scope, canonical-request hash. */
  lemma StringToSignLines(h: HashSuite, amzDate: string, date: string, region: string, canonicalRequest: string)
    requires '\n' !in amzDate && '\n' !in date && '\n' !in region
    ensures Split(StringToSign(h, amzDate, Scope(date, region), canonicalRequest), '\n')
         == [Algorithm, amzDate, date + "/" + region + "/s3/aws4_request", HashHex(h, canonicalRequest)]
  {
    var hash := HashHex(h, canonicalRequest);
    ScopeText(date, region);
    var lines := [Algorithm, amzDate, Scope(date, region), hash];
    assert '\n' !in hash by {
      forall i | 0 <= i < |hash| ensures hash[i] != '\n' {
        assert IsLowerHexChar(hash[i]);
      }
    }
    assert '\n' !in Algorithm;
    assert '\n' !in "/s3/aws4_request";
    assert forall i :: 0 <= i < |lines| ==> '\n' !in lines[i];
    SplitJoin(lines, '\n');
  }

  /** The signing key depends on the timestamp only through its calendar day. */
  lemma SigningKeyPerDay(h: HashSuite, creds: Credentials, t1: UtcDateTime, t2: UtcDateTime)
    requires ValidDateTime(t1) && ValidDateTime(t2)
    requires t1.year == t2.year && t1.month == t2.month && t1.day == t2.day
    ensures SigningKey(h, creds.secretKey, DateStamp(t1), creds.region, Service)
         == SigningKey(h, creds.secretKey, DateStamp(t2), creds.region, Service)
  {
    DateStampIsDay(t1);
    DateStampIsDay(t2);
  }

  lemma AuthorizationSeparators(p0: string, signedHeaders: string, signature: string)
    ensures p0 + [','] + (" SignedHeaders=" + signedHeaders) + [','] + (" Signature=" + signature)
         == p0 + ", SignedHeaders=" + signedHeaders + ", Signature=" + signature
  {
    assert ", SignedHeaders=" == [','] + " SignedHeaders=";
    assert ", Signature=" == [','] + " Signature=";
  }

  /** Split at its commas, the `Authorization` value gives the credential, the signed-header
      list and the signature, when neither the access key nor the scope contains a comma. */
  lemma AuthorizationFields(accessKey: string, scope: string, signedHeaders: string, signature: string)
    requires ',' !in accessKey && ',' !in scope && ',' !in signedHeaders && ',' !in signature
    ensures Split(AuthorizationHeader(accessKey, scope, signedHeaders, signature), ',')
         == [Algorithm + " Credential=" + accessKey + "/" + scope,
             " SignedHeaders=" + signedHeaders,
             " Signature=" + signature]
  {
    var p0 := Algorithm + " Credential=" + accessKey + "/" + scope;
    var p1 := " SignedHeaders=" + signedHeaders;
    var p2 := " Signature=" + signature;
    var parts := [p0, p1, p2];
    assert ',' !in Algorithm + " Credential=";
    assert ',' !in " SignedHeaders=" && ',' !in " Signature=";
    assert forall i :: 0 <= i < |parts| ==> ',' !in parts[i];
    JoinThree(p0, p1, p2, ',');
    AuthorizationSeparators(p0, signedHeaders, signature);
    SplitJoin(parts, ',');
  }

  lemma TimestampHasNoSeparators(t: UtcDateTime)
    requires ValidDateTime(t)
    ensures '\n' !in AmzDate(t) && ',' !in AmzDate(t)
    ensures '\n' !in DateStamp(t) && ',' !in DateStamp(t)
  {
    var amzDate := AmzDate(t);
    forall i | 0 <= i < |amzDate| ensures amzDate[i] != '\n' && amzDate[i] != ',' {
      assert i < 8 || i == 8 || 9 <= i < 15 || i == 15;
    }
  }

  lemma HexHasNoComma(sig: string)
    requires forall i :: 0 <= i < |sig| ==> IsLowerHexChar(sig[i])
    ensures ',' !in sig
  {
    forall i | 0 <= i < |sig| ensures sig[i] != ',' {
      assert IsLowerHexChar(sig[i]);
    }
  }

  lemma NoCommaInConstants()
    ensures ',' !in "/s3/aws4_request" && ',' !in SignedHeaderList
  {
  }

  lemma ScopeHasNoComma(date: string, region: string)
    requires ',' !in date && ',' !in region
    ensures ',' !in Scope(date, region)
  {
    ScopeText(date, region);
    NoCommaInConstants();
  }

  /** What `SignV4` produces for a query-less request, field by field: the nine-line
      canonical request, the scope of the request's day, the four-line string to sign, and
      the signature under that day's key. */
  lemma SignV4Layout(h: HashSuite, creds: Credentials, httpMethod: string, host: string, canonicalUri: string,
                     payloadHash: string, t: UtcDateTime)
    requires ValidDateTime(t)
    requires '\n' !in httpMethod && '\n' !in canonicalUri && '\n' !in host && '\n' !in payloadHash && '\n' !in creds.region
    ensures var s := SignV4(h, creds, httpMethod, host, canonicalUri, "", payloadHash, t);
      && Split(s.canonicalRequest, '\n') == CanonicalLines(httpMethod, canonicalUri, host, payloadHash, AmzDate(t))
      && s.scope == DateStamp(t) + "/" + creds.region + "/s3/aws4_request"
      && Split(s.stringToSign, '\n') == [Algorithm, AmzDate(t), s.scope, HashHex(h, s.canonicalRequest)]
      && s.signature == Signature(h, SigningKey(h, creds.secretKey, DateStamp(t), creds.region, Service), s.stringToSign)
  {
    var s := SignV4(h, creds, httpMethod, host, canonicalUri, "", payloadHash, t);
    TimestampHasNoSeparators(t);
    CanonicalRequestLines(httpMethod, canonicalUri, host, payloadHash, AmzDate(t));
    ScopeText(DateStamp(t), creds.region);
    StringToSignLines(h, AmzDate(t), DateStamp(t), creds.region, s.canonicalRequest);
  }

  /** The `Authorization` value `SignV4` produces, split at its commas: the credential with
      the day's scope, the three signed header names, and the signature. */
  lemma SignV4Authorization(h: HashSuite, creds: Credentials, httpMethod: string, host: string, canonicalUri: string,
                            query: string, payloadHash: string, t: UtcDateTime)
    requires ValidDateTime(t)
    requires ',' !in creds.region && ',' !in creds.accessKey
    ensures var s := SignV4(h, creds, httpMethod, host, canonicalUri, query, payloadHash, t);
      Split(s.authorization, ',') == [Algorithm + " Credential=" + creds.accessKey + "/" + s.scope,
                                      " SignedHeaders=" + SignedHeaderList,
                                      " Signature=" + s.signature]
  {
    var s := SignV4(h, creds, httpMethod, host, canonicalUri, query, payloadHash, t);
    TimestampHasNoSeparators(t);
    ScopeHasNoComma(DateStamp(t), creds.region);
    HexHasNoComma(s.signature);
    NoCommaInConstants();
    CanonicalHeaderBlock(host, payloadHash, AmzDate(t));
    AuthorizationFields(creds.accessKey, s.scope, SignedHeaderList, s.signature);
  }
}

=== FILE: strings.dfy ===
/** The `System.String` operations the storage backends use on identifiers:
    `Split(char)` (empty entries kept or removed), `string.Join(char, …)`,
    `Replace`, `TrimEnd(char)` and ordinal `StartsWith`. */
module Strings {
  import opened Sequences

  /** `s.Split(sep)`: the pieces between separators, empty pieces included. */
  function Split(s: string, sep: char): (parts: seq<string>)
    ensures |parts| >= 1
    ensures forall i :: 0 <= i < |parts| ==> sep !in parts[i]
    decreases |s|
  {
    if s == [] then [""]
    else
      var rest := Split(s[1..], sep);
      if s[0] == sep then [""] + rest
      else [[s[0]] + rest[0]] + rest[1..]
  }

  /** `string.Join(sep, parts)`. */
  function Join(parts: seq<string>, sep: char): string
    decreases |parts|
  {
    if |parts| == 0 then ""
    else if |parts| == 1 then parts[0]
    else parts[0] + [sep] + Join(parts[1..], sep)
  }

  /** Number of occurrences of `c` in `s`. */
  function Count(s: string, c: char): nat {
    if s == [] then 0 else (if s[0] == c then 1 else 0) + Count(s[1..], c)
  }

  /** A character absent from a string is absent from each of its pieces. */
  lemma {:induction false} SplitExcludes(s: string, sep: char, c: char)
    requires c !in s
    ensures forall i :: 0 <= i < |Split(s, sep)| ==> c !in Split(s, sep)[i]
    decreases |s|
  {
    if s != [] {
      assert c !in s[1..] by {
        forall j | 0 <= j < |s[1..]| ensures s[1..][j] != c {
          assert s[1..][j] == s[j + 1];
        }
      }
      SplitExcludes(s[1..], sep, c);
    }
  }

  /** Joining the pieces of a split with the same separator restores the string. */
  lemma {:induction false} JoinSplit(s: string, sep: char)
    ensures Join(Split(s, sep), sep) == s
    decreases |s|
  {
    if s != [] {
      var rest := Split(s[1..], sep);
      JoinSplit(s[1..], sep);
      if s[0] == sep {
        assert Split(s, sep) == [""] + rest;
      } else {
        var parts := Split(s, sep);
        assert parts == [[s[0]] + rest[0]] + rest[1..];
        if |rest| == 1 {
          assert Join(rest, sep) == rest[0];
        } else {
          assert parts[1..] == rest[1..];
          assert Join(rest, sep) == rest[0] + [sep] + Join(rest[1..], sep);
        }
      }
    }
  }

  /** A split yields one more piece than the string has separators. */
  lemma {:induction false} SplitCount(s: string, sep: char)
    ensures |Split(s, sep)| == Count(s, sep) + 1
    decreases |s|
  {
    if s != [] {
      SplitCount(s[1..], sep);
    }
  }

  /** Splitting a separator-free piece followed by a separator peels off that piece. */
  lemma {:induction false} SplitAfterPiece(p: string, sep: char, t: string)
    requires sep !in p
    ensures Split(p + [sep] + t, sep) == [p] + Split(t, sep)
    decreases |p|
  {
    if p == [] {
      assert p + [sep] + t == [sep] + t;
      assert ([sep] + t)[1..] == t;
    } else {
      var s := p + [sep] + t;
      assert s[0] == p[0];
      assert s[1..] == p[1..] + [sep] + t;
      SplitAfterPiece(p[1..], sep, t);
      assert [p[0]] + p[1..] == p;
    }
  }

  /** A separator-free string splits into itself. */
  lemma {:induction false} SplitPiece(p: string, sep: char)
    requires sep !in p
    ensures Split(p, sep) == [p]
    decreases |p|
  {
    if p != [] {
      SplitPiece(p[1..], sep);
      assert [p[0]] + p[1..] == p;
    }
  }

  /** Splitting a join of separator-free pieces gives the pieces back. */
  lemma {:induction false} SplitJoin(parts: seq<string>, sep: char)
    requires |parts| >= 1
    requires forall i :: 0 <= i < |parts| ==> sep !in parts[i]
    ensures Split(Join(parts, sep), sep) == parts
    decreases |parts|
  {
    if |parts| == 1 {
      SplitPiece(parts[0], sep);
    } else {
      SplitJoin(parts[1..], sep);
      SplitAfterPiece(parts[0], sep, Join(parts[1..], sep));
      assert [parts[0]] + parts[1..] == parts;
    }
  }

  /** Joining a part in front of nonempty parts puts one separator between. */
  lemma JoinCons(h: string, t: seq<string>, sep: char)
    requires |t| >= 1
    ensures Join([h] + t, sep) == h + [sep] + Join(t, sep)
  {
    ConsParts(h, t);
  }

  lemma JoinTwo(a: string, b: string, sep: char)
    ensures Join([a, b], sep) == a + [sep] + b
  {
    assert [a, b][1..] == [b];
  }

  lemma JoinThree(a: string, b: string, c: string, sep: char)
    ensures Join([a, b, c], sep) == a + [sep] + b + [sep] + c
  {
    assert [a, b, c][1..] == [b, c];
    JoinTwo(b, c, sep);
  }

  /** Joining two nonempty lists is joining each and putting one separator between. */
  lemma {:induction false} JoinAppend(a: seq<string>, b: seq<string>, sep: char)
    requires |a| >= 1 && |b| >= 1
    ensures Join(a + b, sep) == Join(a, sep) + [sep] + Join(b, sep)
    decreases |a|
  {
    var ab := a + b;
    assert ab[0] == a[0];
    assert ab[1..] == a[1..] + b;
    if |a| == 1 {
      assert ab[1..] == b;
    } else {
      JoinAppend(a[1..], b, sep);
    }
  }

  /** A character other than the separator occurs in a join only if it occurs in a part. */
  lemma {:induction false} JoinExcludes(parts: seq<string>, sep: char, c: char)
    requires c != sep
    requires forall i :: 0 <= i < |parts| ==> c !in parts[i]
    ensures c !in Join(parts, sep)
    decreases |parts|
  {
    if |parts| > 1 {
      JoinExcludes(parts[1..], sep, c);
    }
  }

  /** Some element contains `c`. */
  predicate InSome(parts: seq<string>, c: char) {
    exists i :: 0 <= i < |parts| && c in parts[i]
  }

  lemma InSomeCons(h: string, t: seq<string>, c: char)
    ensures InSome([h] + t, c) <==> c in h || InSome(t, c)
  {
    var l := [h] + t;
    assert l[0] == h;
    if InSome(t, c) {
      var i :| 0 <= i < |t| && c in t[i];
      assert l[i + 1] == t[i];
      assert InSome(l, c);
    }
    if InSome(l, c) {
      var i :| 0 <= i < |l| && c in l[i];
      if i > 0 {
        assert l[i] == t[i - 1];
        assert InSome(t, c);
      }
    }
  }

  /** A character other than the separator is in a join exactly when some part holds it. */
  lemma {:induction false} JoinHas(parts: seq<string>, sep: char, c: char)
    requires c != sep
    ensures c in Join(parts, sep) <==> InSome(parts, c)
    decreases |parts|
  {
    if !InSome(parts, c) {
      JoinExcludes(parts, sep, c);
    } else if |parts| > 1 {
      JoinHas(parts[1..], sep, c);
      var i :| 0 <= i < |parts| && c in parts[i];
      if i > 0 {
        assert parts[1..][i - 1] == parts[i];
      }
      assert Join(parts, sep) == parts[0] + ([sep] + Join(parts[1..], sep));
    }
  }

  /** A character other than the separator is in a string exactly when some piece of
      its split holds it. */
  lemma SplitHas(s: string, sep: char, c: char)
    requires c != sep
    ensures c in s <==> InSome(Split(s, sep), c)
  {
    JoinSplit(s, sep);
    JoinHas(Split(s, sep), sep, c);
  }

  /** Dropping empty elements loses no character. */
  lemma RemoveEmptyHas(parts: seq<string>, c: char)
    ensures InSome(RemoveEmpty(parts), c) <==> InSome(parts, c)
  {
    var r := RemoveEmpty(parts);
    if InSome(parts, c) {
      var i :| 0 <= i < |parts| && c in parts[i];
      assert parts[i] in r;
    }
    if InSome(r, c) {
      var i :| 0 <= i < |r| && c in r[i];
      assert r[i] in parts;
    }
  }

  /** Splitting at a separator between two strings splits each of them. */
  lemma {:induction false} SplitAround(a: string, sep: char, b: string)
    ensures Split(a + [sep] + b, sep) == Split(a, sep) + Split(b, sep)
    decreases |a|
  {
    if a == [] {
      assert a + [sep] + b == [sep] + b;
      SplitCons(sep, b, sep);
    } else {
      assert a == [a[0]] + a[1..];
      SplitAround(a[1..], sep, b);
      SplitAroundStep(a[0], a[1..], sep, b);
    }
  }

  lemma SplitAroundStep(c: char, a: string, sep: char, b: string)
    requires Split(a + [sep] + b, sep) == Split(a, sep) + Split(b, sep)
    ensures Split([c] + a + [sep] + b, sep) == Split([c] + a, sep) + Split(b, sep)
  {
    var t := a + [sep] + b;
    assert [c] + a + [sep] + b == [c] + t;
    SplitCons(c, t, sep);
    SplitCons(c, a, sep);
    var x, y := Split(a, sep), Split(b, sep);
    if c == sep {
      ConsAppend("", x, y);
    } else {
      HeadTailAppend(x, y);
      ConsAppend([c] + x[0], x[1..], y);
    }
  }

  /** The first step of a split. */
  lemma SplitCons(c: char, t: string, sep: char)
    ensures Split([c] + t, sep) ==
      if c == sep then [""] + Split(t, sep)
      else [[c] + Split(t, sep)[0]] + Split(t, sep)[1..]
  {
    assert ([c] + t)[0] == c && ([c] + t)[1..] == t;
  }

  /** The nonempty elements, in order: `StringSplitOptions.RemoveEmptyEntries`. */
  function RemoveEmpty(parts: seq<string>): (r: seq<string>)
    ensures |r| <= |parts|
    ensures forall i :: 0 <= i < |r| ==> r[i] != [] && r[i] in parts
    ensures forall p :: p in parts && p != [] ==> p in r
  {
    if parts == [] then []
    else if parts[0] == [] then RemoveEmpty(parts[1..])
    else [parts[0]] + RemoveEmpty(parts[1..])
  }

  /** Dropping empty elements distributes over concatenation. */
  lemma {:induction false} RemoveEmptyAppend(a: seq<string>, b: seq<string>)
    ensures RemoveEmpty(a + b) == RemoveEmpty(a) + RemoveEmpty(b)
    decreases |a|
  {
    if a != [] {
      HeadTailAppend(a, b);
      RemoveEmptyAppend(a[1..], b);
      if a[0] != [] {
        ConsAppend(a[0], RemoveEmpty(a[1..]), RemoveEmpty(b));
      }
    } else {
      assert a + b == b;
    }
  }

  /** `s.Replace(from, to)` for single characters. */
  function ReplaceChar(s: string, from: char, to: char): (r: string)
    ensures |r| == |s|
    ensures forall i :: 0 <= i < |s| ==> r[i] == (if s[i] == from then to else s[i])
  {
    if s == [] then "" else [if s[0] == from then to else s[0]] + ReplaceChar(s[1..], from, to)
  }

  /** Replacing characters distributes over concatenation. */
  lemma ReplaceCharAppend(a: string, b: string, from: char, to: char)
    ensures ReplaceChar(a + b, from, to) == ReplaceChar(a, from, to) + ReplaceChar(b, from, to)
  {
    var l := ReplaceChar(a + b, from, to);
    var r := ReplaceChar(a, from, to) + ReplaceChar(b, from, to);
    assert |l| == |r|;
    forall i | 0 <= i < |l| ensures l[i] == r[i] {
      if i < |a| {
        assert (a + b)[i] == a[i];
      } else {
        assert (a + b)[i] == b[i - |a|];
      }
    }
  }

  /** Replacing one character by another leaves every third character where it was. */
  lemma ReplaceCharHas(s: string, from: char, to: char, c: char)
    requires c != from && c != to
    ensures c in ReplaceChar(s, from, to) <==> c in s
  {
    var r := ReplaceChar(s, from, to);
    if c in s {
      var i :| 0 <= i < |s| && s[i] == c;
      assert r[i] == c;
    }
    if c in r {
      var i :| 0 <= i < |r| && r[i] == c;
      assert s[i] == c;
    }
  }

  /** `s.TrimEnd(c)`: removes every trailing `c`. */
  function TrimEnd(s: string, c: char): (r: string)
    ensures r <= s
    ensures r == [] || r[|r| - 1] != c
    ensures forall i :: |r| <= i < |s| ==> s[i] == c
    decreases |s|
  {
    if s == [] then ""
    else if s[|s| - 1] == c then TrimEnd(s[..|s| - 1], c)
    else s
  }

  /** `s.TrimStart(c)`: removes every leading `c`. */
  function TrimStart(s: string, c: char): (r: string)
    ensures r == [] || r[0] != c
    ensures exists k :: 0 <= k <= |s| && r == s[k..] && forall i :: 0 <= i < k ==> s[i] == c
    decreases |s|
  {
    if s == [] then (assert s[0..] == ""; "")
    else if s[0] == c then (var r := TrimStart(s[1..], c); TrimStartStep(s, c, r); r)
    else (assert s == s[0..]; s)
  }

  lemma TrimStartStep(s: string, c: char, r: string)
    requires s != [] && s[0] == c
    requires exists k :: 0 <= k <= |s[1..]| && r == s[1..][k..] && forall i :: 0 <= i < k ==> s[1..][i] == c
    ensures exists k :: 0 <= k <= |s| && r == s[k..] && forall i :: 0 <= i < k ==> s[i] == c
  {
    var k :| 0 <= k <= |s[1..]| && r == s[1..][k..] && forall i :: 0 <= i < k ==> s[1..][i] == c;
    assert r == s[k + 1..];
    assert forall i :: 0 <= i < k + 1 ==> s[i] == c by {
      forall i | 0 <= i < k + 1 ensures s[i] == c {
        if i > 0 {
          assert s[1..][i - 1] == s[i];
        }
      }
    }
  }

  /** `s.StartsWith(prefix, StringComparison.Ordinal)`. */
  predicate StartsWith(s: string, prefix: string) {
    prefix <= s
  }
}

=== FILE: utf8.dfy ===
/** UTF-8 as `Encoding.UTF8.GetBytes` and `Uri.EscapeDataString` apply it.

    A Dafny `char` is a Unicode scalar value, so every string is well formed
    and each character becomes one to four bytes. `Decode` reads such bytes
    back; it is used to state that encoding is lossless (and so injective). */
module Utf8 {
  import opened Bytes
  import opened Outcomes

  /** True of the integers that are Unicode scalar values, i.e. the values of `char`. */
  predicate IsScalar(v: int) {
    (0 <= v < 0xD800) || (0xE000 <= v < 0x11_0000)
  }

  /** Number of bytes UTF-8 uses for the scalar value `v`. */
  function WidthOf(v: int): int {
    if v < 0x80 then 1 else if v < 0x800 then 2 else if v < 0x1_0000 then 3 else 4
  }

  /** The bytes of one character. */
  function EncodeChar(c: char): (bs: seq<byte>)
    ensures |bs| == WidthOf(c as int)
    ensures |bs| == 1 <==> (c as int) < 0x80
    ensures |bs| == 1 ==> bs[0] == c as int
    ensures forall i :: 0 <= i < |bs| && |bs| > 1 ==> bs[i] >= 0x80
  {
    var v := c as int;
    if v < 0x80 then [v]
    else if v < 0x800 then [0xC0 + v / 64, 0x80 + v % 64]
    else if v < 0x1_0000 then [0xE0 + v / 4096, 0x80 + (v / 64) % 64, 0x80 + v % 64]
    else [0xF0 + v / 262144, 0x80 + (v / 4096) % 64, 0x80 + (v / 64) % 64, 0x80 + v % 64]
  }

  /** The bytes of a string: the characters' encodings, concatenated. */
  function Encode(s: string): (bs: seq<byte>)
    ensures |bs| >= |s|
  {
    if s == [] then [] else EncodeChar(s[0]) + Encode(s[1..])
  }

  /** The sequence length announced by a leading byte, or 0 if it cannot lead. */
  function LeadWidth(b: byte): int {
    if b < 0x80 then 1
    else if 0xC0 <= b < 0xE0 then 2
    else if 0xE0 <= b < 0xF0 then 3
    else if 0xF0 <= b < 0xF8 then 4
    else 0
  }

  predicate IsContinuation(b: byte) {
    0x80 <= b < 0xC0
  }

  /** The scalar value carried by a sequence of `LeadWidth(bs[0])` bytes. */
  function ScalarOf(bs: seq<byte>): int
    requires 1 <= |bs| <= 4
  {
    var b0: int, b1: int := bs[0], if |bs| > 1 then bs[1] else 0;
    if |bs| == 1 then b0
    else if |bs| == 2 then (b0 - 0xC0) * 64 + (b1 - 0x80)
    else if |bs| == 3 then (b0 - 0xE0) * 4096 + (b1 - 0x80) * 64 + (bs[2] as int - 0x80)
    else (b0 - 0xF0) * 262144 + (b1 - 0x80) * 4096 + (bs[2] as int - 0x80) * 64 + (bs[3] as int - 0x80)
  }

  /** Reads bytes back into characters; `None` when a sequence is cut short or
      does not carry a scalar value. Overlong forms are not rejected: the
      decoder only has to undo `Encode`. */
  function Decode(bs: seq<byte>): Option<string>
    decreases |bs|
  {
    if bs == [] then Some("")
    else
      var n := LeadWidth(bs[0]);
      if n == 0 || |bs| < n then None
      else if exists i :: 1 <= i < n && !IsContinuation(bs[i]) then None
      else
        var v := ScalarOf(bs[..n]);
        if !IsScalar(v) then None
        else match Decode(bs[n..])
          case None => None
          case Some(rest) => Some([v as char] + rest)
  }

  lemma TwoByteForm(v: int)
    requires 0x80 <= v < 0x800
    ensures 0xC0 <= 0xC0 + v / 64 < 0xE0
    ensures (v / 64) * 64 + v % 64 == v
  {
  }

  lemma ThreeByteForm(v: int)
    requires 0x800 <= v < 0x1_0000
    ensures 0xE0 <= 0xE0 + v / 4096 < 0xF0
    ensures (v / 4096) * 4096 + ((v / 64) % 64) * 64 + v % 64 == v
  {
    var q1 := v / 64;
    assert v == q1 * 64 + v % 64;
    assert q1 == (q1 / 64) * 64 + q1 % 64;
    assert q1 / 64 == v / 4096;
  }

  lemma FourByteForm(v: int)
    requires 0x1_0000 <= v < 0x11_0000
    ensures 0xF0 <= 0xF0 + v / 262144 < 0xF8
    ensures (v / 262144) * 262144 + ((v / 4096) % 64) * 4096 + ((v / 64) % 64) * 64 + v % 64 == v
  {
    var q1 := v / 64;
    var q2 := q1 / 64;
    assert v == q1 * 64 + v % 64;
    assert q1 == q2 * 64 + q1 % 64;
    assert q2 == (q2 / 64) * 64 + q2 % 64;
    assert q2 == v / 4096;
    assert q2 / 64 == v / 262144;
  }

  /** Each character's bytes start with a matching lead byte, continue with
      continuation bytes, and carry the character's value. */
  lemma EncodeCharShape(c: char)
    ensures LeadWidth(EncodeChar(c)[0]) == |EncodeChar(c)|
    ensures forall i :: 1 <= i < |EncodeChar(c)| ==> IsContinuation(EncodeChar(c)[i])
    ensures ScalarOf(EncodeChar(c)) == c as int
  {
    var v := c as int;
    if v < 0x80 {
    } else if v < 0x800 {
      TwoByteForm(v);
    } else if v < 0x1_0000 {
      ThreeByteForm(v);
    } else {
      FourByteForm(v);
    }
  }

  /** Encoding is lossless: decoding the bytes of a string gives the string back. */
  lemma {:induction false} DecodeEncode(s: string)
    ensures Decode(Encode(s)) == Some(s)
  {
    if s != [] {
      var head := EncodeChar(s[0]);
      var bs := Encode(s);
      assert bs == head + Encode(s[1..]);
      EncodeCharShape(s[0]);
      var n := |head|;
      assert bs[0] == head[0];
      assert bs[..n] == head;
      assert bs[n..] == Encode(s[1..]);
      assert forall i :: 1 <= i < n ==> bs[i] == head[i];
      DecodeEncode(s[1..]);
      assert s == [s[0]] + s[1..];
    }
  }

  /** Distinct strings have distinct bytes. */
  lemma EncodeInjective(s: string, t: string)
    requires Encode(s) == Encode(t)
    ensures s == t
  {
    DecodeEncode(s);
    DecodeEncode(t);
  }

  /** Bytes of a concatenation are the concatenation of the bytes. */
  lemma {:induction false} EncodeAppend(s: string, t: string)
    ensures Encode(s + t) == Encode(s) + Encode(t)
  {
    if s != [] {
      assert (s + t)[0] == s[0];
      assert (s + t)[1..] == s[1..] + t;
      EncodeAppend(s[1..], t);
      assert Encode(s + t) == EncodeChar(s[0]) + Encode(s[1..] + t);
      assert Encode(s) == EncodeChar(s[0]) + Encode(s[1..]);
    } else {
      assert s + t == t;
    }
  }

  predicate IsAscii(s: string) {
    forall i :: 0 <= i < |s| ==> (s[i] as int) < 0x80
  }

  /** An ASCII string encodes to one byte per character, equal to its code. */
  lemma {:induction false} EncodeAscii(s: string)
    requires IsAscii(s)
    ensures |Encode(s)| == |s|
    ensures forall i :: 0 <= i < |s| ==> Encode(s)[i] == s[i] as int
  {
    if s != [] {
      assert IsAscii(s[1..]) by {
        forall i | 0 <= i < |s[1..]| ensures (s[1..][i] as int) < 0x80 {
          assert s[1..][i] == s[i + 1];
        }
      }
      EncodeAscii(s[1..]);
    }
  }
}
